=== FILE: README.md ===
# EOL publishing core in Dafny

This project models the core of the Encyclopedia of Life web application: the parts that publish a harvested resource, and the helpers around its pages, traits and downloads. Each Ruby or JavaScript source file is one Dafny module, except the bulk publisher, which is split in two, and each operation is a pure function over immutable data:

- `PublishingFast` models the bulk publisher's data rules: the relationship table and load order, foreign-key propagation, the `LOAD DATA` row check, and the attribute-update key lookup.
- `ReferenceIds` models the bulk publisher's `propagate_reference_ids`: the 100,000-id windows and the statements issued for each.
- `PublishingRun` models the publisher's control flow: the concurrent-run guard, the purge, the import of every type, the collaborator stages, trait publishing and its clean-up rule, and the `rescue`/`ensure` blocks.
- `ImportLogs` models the import log: events chopped into text chunks, `fail_on_error`'s backtrace selection and address scrubbing, the running-import guard and `all_clear!`.
- `MediaContent` models `MediaContentCreator`: the per-batch position counters, the page-content rows for a page and its ancestors, and icon selection.
- `Pages` models these parts of `Page`:
  - native-node healing;
  - the removal of nodeless pages;
  - ancestry ids and autocomplete weights;
  - the trophic web: relationships, grouping, the prey sort and the culls.
- `TraitBankStats` and `TraitBankQuery` model query validation for counts and histograms, the object-count filter, and query pairs.
- `Articles`, `Nodes` and `TermNodes` model article value cleaning and section order, landmark children and siblings, and term kinds.
- `UserDownloads` models download reuse, the pending and display lists, and failure.
- `ApplicationHelpers` models page names and term-search titles.
- `TraitsController` models the visualisation choice, GBIF URLs, placeholder stripping and filter editing.
- `EditorPageContents` models drafts and publishing.
- `HashParams` models `EOL.parseHashParams`.

Database reads, the harvest repository, the file system, the clock and the collaborators the code calls are all parameters. Every function that raises in the source returns a `Result`, and the `Raise` case carries Ruby's message, worded as Ruby 3.3 words `NoMethodError` ("undefined method `x' for nil", "… for an instance of C").

Three behaviours of the code are easy to misread, and the model keeps them as written:
- `ImportLog#chop_into_text_chunks` (app/models/import_log.rb:57-65) takes `str[0..65_500]`, which is 65,501 characters, and then continues from index 65,500. Consecutive chunks therefore overlap by one character.
- `fail_on_error` (app/models/import_log.rb:89-106) walks the backtrace in reverse. Its filters apply only from the fourth frame on (`if i > 2`), so the first three frames are logged unless a `/bundler` frame stops the walk first.
- `Publishing::Fast#by_resource` (app/models/publishing/fast.rb:129-180) rescues a failure in the main block, logs it and does not re-raise it (lines 172-174). A failure of `remove_non_trait_content` is logged and re-raised (lines 138-141).

## Model

| member | source | states |
|---|---|---|
| PublishingFast.Relationships | app/models/publishing/fast.rb:110-126 | the thirteen types in declaration order, each exactly once, with their foreign-key fields and source types |
| PublishingFast.RelationshipsLoadTargetsFirst | app/models/publishing/fast.rb:110-126 | every type a foreign key points at is declared, and so loaded, no later than the type that holds the key |
| PublishingFast.LoadOrder | app/models/publishing/fast.rb:110-149 | every type is loaded exactly once, and every type a foreign key points at is loaded no later than the type holding the key |
| PublishingFast.FieldCalls | app/models/publishing/fast.rb:283-288 | one `propagate_id` call per source type of a field, in order, each setting the field from the source's `harv_db_id` |
| PublishingFast.PropagateCalls | app/models/publishing/fast.rb:281-290 | a call is issued exactly when it is the call for some field and one of its source types; all are scoped to the type and resource |
| PublishingFast.PropagateIds | app/models/publishing/fast.rb:279-291 | one call per (field, source) pair of the type, all for this type and resource |
| PublishingFast.AttributionPropagatesAgainstMediaThenArticles | app/models/publishing/fast.rb:122-125 | the polymorphic `content_id` of attributions is rewritten against media and then against articles |
| PublishingFast.SingleFieldCalls | app/models/publishing/fast.rb:281-288 | a type with one single-source field gets exactly one call |
| PublishingFast.MatchIn | app/models/publishing/fast.rb:284-288 | a join match exists exactly when some row of the other table in the resource has that `harv_db_id`, and it is such a row's id |
| PublishingFast.PropagateId | app/models/publishing/fast.rb:284-288 | only the type's table changes, row count and identity are kept, rows of other resources are unchanged, and no field but the destination changes |
| PublishingFast.PropagateResolves | app/models/publishing/fast.rb:284-288 | a key naming a unique harvest id in the other table is replaced by that row's real id |
| PublishingFast.PolymorphicPassesCanCollide | app/models/publishing/fast.rb:122-125 | the second polymorphic pass rewrites a key already rewritten by the first whenever the new id happens to equal a `harv_db_id` of the second table |
| PublishingFast.NodeParentResolved | app/models/publishing/fast.rb:279-291 | a node's `parent_id` ends as the real id of the parent node with that harvest id |
| PublishingFast.LoadedColumns | app/models/publishing/fast.rb:253-254 | the load lists every column but `id` |
| PublishingFast.ImportCheck | app/models/publishing/fast.rb:261-276 | a failed load re-raises; otherwise a warning, naming the data file, exactly when the file line count is neither the new row count nor one more |
| PublishingFast.ImportToleratesTrailingNewline | app/models/publishing/fast.rb:266-267 | a load with as many rows as lines, or one fewer, is accepted silently |
| ReferenceIds.Windows | app/models/publishing/fast.rb:306-314 | windows start at min, are 100,000 wide, follow each other, start below max, and reach at least max |
| ReferenceIds.WindowsDisjoint | app/models/publishing/fast.rb:307-313 | windows never overlap |
| ReferenceIds.WindowsCover | app/models/publishing/fast.rb:307-313 | every id from min to below max falls in some window |
| ReferenceIds.WindowsCoverMaxIff | app/models/publishing/fast.rb:307-313 | the largest id is in a window exactly when max - min is not a multiple of 100,000 |
| ReferenceIds.WindowCount | app/models/publishing/fast.rb:307-313 | there are ceil((max - min) / 100,000) windows |
| ReferenceIds.ReferenceBounds | app/models/publishing/fast.rb:306-318 | one unbounded update when max - min is at most 100,000, otherwise one bounded update per window |
| ReferenceIds.ReferenceBoundsCoverBelowMax | app/models/publishing/fast.rb:306-318 | when paged, every id from min up to but excluding max lies in some window |
| ReferenceIds.ReferenceBoundsCoverMaxIff | app/models/publishing/fast.rb:306-318 | when paged, every reference below max is updated, and the one at max exactly when max - min is not a multiple of 100,000 |
| ReferenceIds.IdsOf | app/models/publishing/fast.rb:297-299 | exactly the ids of the resource's references of that parent type |
| ReferenceIds.MinOf | app/models/publishing/fast.rb:298 | the minimum of the ids |
| ReferenceIds.MaxOf | app/models/publishing/fast.rb:299 | the maximum of the ids |
| ReferenceIds.PairedUpdates | app/models/publishing/fast.rb:306-329 | each bound gives the parent update followed by the referent update with the same bound, and no other statement |
| ReferenceIds.PairedUpdatesCover | app/models/publishing/fast.rb:306-329 | an id gets both its parent and its referent update exactly when one of the bounds holds it |
| ReferenceIds.TypeReferenceUpdates | app/models/publishing/fast.rb:296-319 | no statement for a type without references; otherwise every reference of the type below its largest id is rewritten, and the largest exactly when it is not paged or max - min is not a multiple of 100,000 |
| ReferenceIds.BoundsForIds | app/models/publishing/fast.rb:306-318 | the bounds for ids from min to max hold every id below max, and max exactly when unpaged or max - min is not a multiple of 100,000 |
| ReferenceIds.AllTypeUpdates | app/models/publishing/fast.rb:296-319 | the statements are exactly those of each listed type's own updates |
| ReferenceIds.UpdatedAmong | app/models/publishing/fast.rb:296-319 | among the statements of several types, a reference of one type is rewritten exactly when that type's own statements rewrite it |
| ReferenceIds.PropagateReferenceIds | app/models/publishing/fast.rb:293-320 | nothing without references in the resource; otherwise only updates of Node, ScientificName, Medium and Article scoped to it, every reference of those types below its type's largest id gets its parent and referent ids rewritten by one window, and the largest exactly when unpaged or max - min is not a multiple of 100,000 |
| PublishingFast.ChooseKey | app/models/publishing/fast.rb:72-73 | the first candidate key the table has, or none when it has none |
| PublishingFast.UpdateAttributesKey | app/models/publishing/fast.rb:72-74 | raises exactly when the table has no candidate key; otherwise the first one and its file position, one less than its column index |
| PublishingFast.FieldPositions | app/models/publishing/fast.rb:58-61 | raises exactly when a field is not a column; otherwise each field's file position, one less than its first column index |
| PublishingRun.RemoveFiles | app/models/publishing/fast.rb:231-238 | one step per staged file; the first visit of a present file removes it, and the disk loses exactly the staged files |
| PublishingRun.CleanUp | app/models/publishing/fast.rb:229-240 | a no-op once clean-up is off; otherwise staged files leave the disk and clean-up turns off |
| PublishingRun.CleanUpOnce | app/models/publishing/fast.rb:229-240 | cleaning up twice is cleaning up once, and no staged file survives the first |
| PublishingRun.Call | app/models/publishing/fast.rb:149-171 | a collaborator stage is recorded and raises exactly when the environment says it does |
| PublishingRun.FetchOne | app/models/publishing/fast.rb:218-227 | a type the repository does not serve changes nothing; a served one lands on disk and is loaded, and is staged for removal only when import and propagation both return |
| PublishingRun.AppFrames | app/models/publishing/fast.rb:204 | exactly the backtrace frames that mention `app` |
| PublishingRun.TraitBacktrace | app/models/publishing/fast.rb:204 | nil exactly when no frame mentions `app`; otherwise the first frame, then the app frames after the first one, up to five of them: min(app frames, 6) entries in all |
| PublishingRun.PublishTraitsWithCleanup | app/models/publishing/fast.rb:199-209 | success cleans up; a failure with an app frame is a warning and turns clean-up off; without one, building the warning raises a TypeError before clean-up |
| PublishingRun.Act | app/models/publishing/fast.rb:145-171 | one step of the main block: trace extended, loads only what it fetches, clean-up never turns back on |
| PublishingRun.Exec | app/models/publishing/fast.rb:145-171 | a sequence of steps stops at the first exception, loads only served types, and completes when none of its stages raises |
| PublishingRun.FetchPlan | app/models/publishing/fast.rb:149 | one fetch per type, in order |
| PublishingRun.FetchOneCompletes | app/models/publishing/fast.rb:218-227 | without failures a fetch loads and stages the type exactly when it is served |
| PublishingRun.FetchAllLoadsEveryServedType | app/models/publishing/fast.rb:218-227 | without failures the loads put every served type on disk, loaded and staged |
| PublishingRun.StagesKeepState | app/models/publishing/fast.rb:150-158 | collaborator stages that return leave disk, staged files and loads alone |
| PublishingRun.PrepareLoadsEveryServedType | app/models/publishing/fast.rb:149-159 | when only the purge or trait publishing can fail, preparation loads, stages and writes every served type |
| PublishingRun.Body | app/models/publishing/fast.rb:145-171 | the main block extends the trace and loads only served types |
| PublishingRun.Finish | app/models/publishing/fast.rb:172-179 | the rescue cleans up and logs the failure, nothing escapes, and the `ensure` always ends the log and clears the import logs so no run stays open |
| PublishingRun.ByResource | app/models/publishing/fast.rb:129-180 | an active run aborts it; only a failed purge escapes; every other path ends and clears the logs, and only served types are loaded |
| PublishingRun.TraitsByResource | app/models/publishing/fast.rb:182-197 | the same guard; otherwise it runs trait publishing and always ends and clears the logs without raising |
| PublishingRun.MissingNodesFileIsLoggedNotRaised | app/models/publishing/fast.rb:145-179 | a missing `nodes.tsv` loads nothing and is logged, not raised |
| PublishingRun.CleanRunRemovesStagedFiles | app/models/publishing/fast.rb:145-179 | a run where nothing fails loads every served type and leaves no data file on disk |
| PublishingRun.TraitFailureKeepsFiles | app/models/publishing/fast.rb:199-209 | a trait failure with an app frame is only a warning, and every loaded file is still on disk at the end |
| PublishingRun.TraitFailureWithoutAppFrame | app/models/publishing/fast.rb:199-209 | a trait failure without an app frame is logged as a TypeError, and its clean-up removes every staged file |
| PublishingRun.AllTypesLoaded | app/models/publishing/fast.rb:110-149 | every type is in the load order |
| ImportLogs.ChopIntoTextChunks | app/models/import_log.rb:57-65 | at least one chunk; every chunk but the last is 65,501 characters long, the last at most 65,500; no chunk is empty unless the input is; the first chunk is the start of the input |
| ImportLogs.ChunkCountCorrect | app/models/import_log.rb:57-65 | the number of chunks is max(1, ceil(n / 65,500)) |
| ImportLogs.ThreeChunksFor150000 | app/models/import_log.rb:57-65 | a 150,000-character message is stored as three chunks |
| ImportLogs.ChopStep | app/models/import_log.rb:59-62 | a long input yields its first 65,501 characters, then the chunks of what follows its first 65,500 |
| ImportLogs.RejoinChop | app/models/import_log.rb:60-61 | the chunks overlap by exactly one character: the first chunk followed by every later chunk without its first character is the input |
| ImportLogs.RejoinStep | app/models/import_log.rb:60-61 | one chunking step, seen through the rejoining: 65,500 characters, then the rejoined rest |
| ImportLogs.EventsFor | app/models/import_log.rb:40-42 | one event per chunk, in chunk order, each of the given category |
| ImportLogs.Log | app/models/import_log.rb:37-43 | only events change: at least one event is appended, all of the given category (`:starts` by default) and nothing before them is touched; the appended bodies rejoin to the message; a short message adds exactly one event |
| ImportLogs.LogUpdate | app/models/import_log.rb:45-55 | raises for a body over 65,500 characters (and for a log with no events); otherwise the events are the old ones without a trailing update event, followed by one `:updates` event with the body, and nothing else changes |
| ImportLogs.LogUpdateOverwrites | app/models/import_log.rb:48-51 | two updates in a row leave the log as the second alone would |
| ImportLogs.Running | app/models/import_log.rb:67-73 | both timestamps cleared, status "currently running", and one 'Running' event appended |
| ImportLogs.Complete | app/models/import_log.rb:75-80 | unless destroyed, status "completed" and a completion time; the failure time is untouched and a 'Complete' event is appended |
| ImportLogs.Truncated | app/models/import_log.rb:83 | `error[0..250]`: the first 251 characters, the whole message when it is shorter |
| ImportLogs.Fail | app/models/import_log.rb:82-87 | status is the truncated message, the failure time is set, and one error event quoting it is appended |
| ImportLogs.FirstBundler | app/models/import_log.rb:91-92 | the walk stops at the first frame of the reversed backtrace that contains `/bundler` |
| ImportLogs.SelectFrom | app/models/import_log.rb:91-98 | the frames from `j` before the stop index that pass the filter, in walk order |
| ImportLogs.LoggedFrameIndices | app/models/import_log.rb:90-98 | exactly the frames before the first frame containing `/bundler` that the filter keeps, in walk order |
| ImportLogs.FirstThreeFramesLogged | app/models/import_log.rb:93-98 | the first three frames the walk visits are always logged |
| ImportLogs.Reverse | app/models/import_log.rb:91 | the reversed backtrace |
| ImportLogs.LastEndFrom | app/models/import_log.rb:99-101 | the end of the last occurrence of the marker at or before a position |
| ImportLogs.StripThrough | app/models/import_log.rb:99-101 | `gsub(/^.*marker/, repl)`: a frame with the marker loses everything through its last occurrence, which is replaced; one without is unchanged |
| ImportLogs.WordRun | app/models/import_log.rb:105 | the greedy `\w+` run at the start |
| ImportLogs.HexRun | app/models/import_log.rb:105 | the greedy `[0-9a-f]+` run at the start |
| ImportLogs.MatchAddress | app/models/import_log.rb:105 | a match of `#<(\w+):0x[0-9a-f]+>` starts at '#', with a non-empty name |
| ImportLogs.ScrubAddresses | app/models/import_log.rb:105 | rewriting inspected objects never lengthens the message |
| ImportLogs.ScrubWithoutHashIsIdentity | app/models/import_log.rb:105 | a message without '#' is left as it is |
| ImportLogs.ScrubObjectInspection | app/models/import_log.rb:105 | `#<Name:0xhex>` becomes `Name` |
| ImportLogs.MatchObjectInspection | app/models/import_log.rb:105 | the whole of `#<Name:0xhex>` matches, capturing `Name` |
| ImportLogs.LogFrames | app/models/import_log.rb:91-103 | only events change: the chunks of every frame, frame after frame, each as an error event, are appended after the old ones |
| ImportLogs.ShortFramesOneEventEach | app/models/import_log.rb:91-103 | frames no longer than 65,500 characters are logged one error event each, in order |
| ImportLogs.FailOnError | app/models/import_log.rb:89-106 | the status is the truncated message with inspected objects rewritten, the failure time is set, and the events appended are exactly the chunks of the kept frames in walk order, each rewritten by the three path substitutions, then the failure event |
| ImportLogs.FailOnErrorWithoutBacktrace | app/models/import_log.rb:89-106 | without a backtrace only the failure event is appended |
| ImportLogs.OpenLogs | app/models/import_log.rb:21 | exactly the logs with neither timestamp set |
| ImportLogs.RunningInfos | app/models/import_log.rb:23-30 | one block value per open log, each extending the accumulated `info` string |
| ImportLogs.AlreadyRunning | app/models/import_log.rb:16-34 | no message exactly when every run is completed and no log is open; an open run gives the active-run message; otherwise the message starts with "Currently publishing: " |
| ImportLogs.ClearLog | app/models/import_log.rb:10-12 | a cleared log is not open |
| ImportLogs.AllClear | app/models/import_log.rb:9-14 | open logs get both timestamps now, "currently running" becomes "stopped", other fields and events are kept, and every open run is completed now |
| ImportLogs.AllClearIdempotent | app/models/import_log.rb:9-14 | a second `all_clear!`, at any time, changes no log and no run |
| ImportLogs.AllClearUnblocks | app/models/import_log.rb:9-34 | after `all_clear!` the guard lets a new run start |
| MediaContent.PageIds | app/models/media_content_creator.rb:72 | exactly the non-nil page ids of the batch |
| MediaContent.InsertImagesAfter | app/models/media_content_creator.rb:82-86 | 0 for nil or zero, 1 for any positive count |
| MediaContent.CountMediaIn | app/models/media_content_creator.rb:71-80 | only the counters change: every batch page without a counter gets one seeded from `insert_images_after`, existing counters are never overwritten, and no other page gets one |
| MediaContent.AddContent | app/models/media_content_creator.rb:98-107 | appends one row on the page, for the item, with the class and resource id, the source page (the page itself unless one is passed), and the page's counter moved on by one (0 for an untracked page); an image sets the pending icon of its page when that page is icon-less |
| MediaContent.Without | app/models/media_content_creator.rb:112 | the ancestors other than the item's own page |
| MediaContent.AddToAncestors | app/models/media_content_creator.rb:111-113 | one row per ancestor other than the item's page, each of this class and resource, earlier rows kept; an image becomes the pending icon of each icon-less ancestor it reaches |
| MediaContent.AncestorRow | app/models/media_content_creator.rb:111-113 | the i-th ancestor row is on the i-th ancestor other than the item's page, with the item's page as its source |
| MediaContent.AddAncestryContent | app/models/media_content_creator.rb:109-115 | nothing for an item whose page has no ancestry entry; otherwise the ancestor rows |
| MediaContent.AddItem | app/models/media_content_creator.rb:49-52 | one iteration of the batch loop: at least the item's own row, earlier rows kept, every new row of this class and resource |
| MediaContent.AddAll | app/models/media_content_creator.rb:49-52 | the batch loop: at least one row per item, earlier rows kept, every new row of this class and resource |
| MediaContent.LearnAncestry | app/models/media_content_creator.rb:88-96 | every existing page of the batch has its ancestry recorded; for Medium, exactly the batch pages with a nil `medium_id` become icon candidates, with no icon pending |
| MediaContent.PositionsForAppend | app/models/media_content_creator.rb:102 | appending a row adds its position to its page's positions only |
| MediaContent.AddContentTracks | app/models/media_content_creator.rb:99-102 | after `add_content`, every page's positions are still consecutive from where its counter started and end at its counter |
| MediaContent.AddToAncestorsTracks | app/models/media_content_creator.rb:109-115 | the ancestor rows keep every page's positions consecutive |
| MediaContent.AddAllTracks | app/models/media_content_creator.rb:49-52 | the whole batch loop keeps every page's positions consecutive |
| MediaContent.LastImage | app/models/media_content_creator.rb:104-105 | the last image of the batch that reaches the page, if any |
| MediaContent.LastImageWins | app/models/media_content_creator.rb:98-107 | every image reaching an icon-less page overwrites its pending icon, so the last such image wins; non-images never change it |
| MediaContent.ItemIcon | app/models/media_content_creator.rb:104-106 | one item sets the pending icon of every icon-less page it reaches, when it is an image |
| MediaContent.RunBatch | app/models/media_content_creator.rb:43-56 | a batch from a reset state emits at least one row per item, all of this class and resource; Article batches set no icons; icons go only to pages whose `medium_id` was nil |
| MediaContent.BatchPositionsConsecutive | app/models/media_content_creator.rb:71-103 | within a batch each page's positions are consecutive, starting at 1 + `insert_images_after` for a batch page and at 0 for an ancestor page, because counters are reset every batch |
| MediaContent.BatchIconIsLastImage | app/models/media_content_creator.rb:98-107 | in a Medium batch, an icon-less page of the batch ends with the last image that reaches it |
| MediaContent.ArticlesSkipAncestry | app/models/media_content_creator.rb:46-51 | Article batches emit exactly one row per item, on its own page and as its own source |
| MediaContent.Chunks | app/models/media_content_creator.rb:39-43 | ceil(count / 1000) batches of 1 to 1000 items that concatenate to the items |
| MediaContent.SetIcons | app/models/media_content_creator.rb:136-141 | pages with a pending icon get it as their `medium_id`; every other page is unchanged |
| MediaContent.AddCounts | app/models/media_content_creator.rb:133 | importing rows never lowers a page's content count |
| MediaContent.RunBatches | app/models/media_content_creator.rb:38-57 | batch after batch: the pages keep their keys, pages that had an icon keep it, Article runs change no page, and every row is of this class and resource |
| MediaContent.ByResource | app/models/media_content_creator.rb:21-36 | Medium then Article, with counters seeded as intended: at least one row per item, every row of this resource, and pages that had an icon keep it |
| MediaContent.RowsCoverItems | app/models/media_content_creator.rb:49-52 | a run emits at least one row per item across all batches |
| MediaContent.ByResourceAsWritten | app/models/media_content_creator.rb:21-57 | as written: when it does not raise it imports nothing and changes no page |
| MediaContent.AsWrittenRaisesOnAnyContent | app/models/media_content_creator.rb:48 | the as-written run raises exactly when the resource has any medium or article, while the intended run then emits rows |
| MediaContent.ImportLogLineAsWritten | app/models/media_content_creator.rb:132 | the log line as written reads `page_id` from a Hash and always raises |
| MediaContent.ImportLogLine | app/models/media_content_creator.rb:132 | the intended log line succeeds exactly when there is a row, and names the row count and the first row's page, class and content |
| MediaContent.BatchLogLineSucceeds | app/models/media_content_creator.rb:129-134 | a batch always has rows, so the intended log line succeeds while the as-written one raises |
| Pages.HealWindows | app/models/page.rb:103-110 | batch starts go up from the first in steps of 10,000, all below the upper id, and the last reaches the upper id |
| Pages.FixAllWindows | app/models/page.rb:101-110 | raises exactly when there are no pages; otherwise the batch starts from 1 up to the largest id |
| Pages.HealWindowsCoverBelow | app/models/page.rb:106-109 | every page id below the largest falls in some batch |
| Pages.HealWindowsMissMax | app/models/page.rb:103-109 | the page with the largest id is checked exactly when that id is not 1 more than a multiple of 10,000 |
| Pages.HealWindowsReachUpper | app/models/page.rb:106-109 | from any start, the upper id is in a batch exactly when its distance from the start is not a multiple of 10,000 |
| Pages.Heal | app/models/page.rb:114-131 | untouched exactly when the native node exists; a nodeless page is destroyed without content or name and retained with either; otherwise healed to its first node |
| Pages.FixMissingNativeNodes | app/models/page.rb:114-131 | the pages left are exactly those that survive healing, each in its healed form |
| Pages.HealingKeepsReferencedPages | app/models/page.rb:115-130 | a page with nodes, content, a name or a live native node is never destroyed, and one with a live native node is untouched |
| Pages.NodelessIn | app/models/page.rb:182-184 | exactly the group's pages that no node points at |
| Pages.RemoveIfNodelessExact | app/models/page.rb:179-193 | over all groups of 10,000, exactly the pages no node points at are deleted |
| Pages.Compact | app/models/page.rb:344-346 | the non-nil entries |
| Pages.AncestryIds | app/models/page.rb:339-348 | always ends with the page's own id; just that without a native node; otherwise preceded by exactly the ancestors' non-nil page ids |
| Pages.AutocompleteWeight | app/models/page.rb:944 | between 1 and the base weight, the base weight minus the length for names shorter than it |
| Pages.AutocompleteWeightNonIncreasing | app/models/page.rb:944 | shorter names never weigh less |
| Pages.KeepExisting | app/models/page.rb:788-790 | exactly the relationships whose source and target pages exist |
| Pages.TrophicRelationshipsAsWritten | app/models/page.rb:779-791 | as written: any unknown type raises a NameError for `row`; otherwise the relationships between existing pages |
| Pages.FirstUnknown | app/models/page.rb:786-787 | a relationship of unknown type exists exactly when this finds one |
| Pages.TrophicRelationships | app/models/page.rb:779-791 | raises exactly when some type is unknown, naming such a relationship; otherwise exactly the relationships between existing pages |
| Pages.MessagesDiffer | app/models/page.rb:786 | the as-written error never carries the intended message |
| Pages.TrophicRelationshipsAgree | app/models/page.rb:779-791 | the two versions fail on the same inputs, agree when they succeed, and differ only in the message |
| Pages.Uniq | app/models/page.rb:810 | the same members without repeats |
| Pages.IdsByType | app/models/page.rb:809-811 | exactly the chosen end of every relationship of the type |
| Pages.Keep | app/models/page.rb:810 | exactly the relationships of the type |
| Pages.CollectByGroup | app/models/page.rb:921-934 | raises exactly when an unseen id has no loaded page; otherwise the unseen species with icons, each once, in order, all marked seen |
| Pages.BuildPreyToCompIds | app/models/page.rb:831-859 | only kept prey get entries, each non-empty; a competitor is listed for a prey exactly when some link pairs them |
| Pages.PairingEitherDirection | app/models/page.rb:840-849 | a link pairs a prey and a competitor in either direction |
| Pages.InsertByCount | app/models/page.rb:869-873 | the node is added to the list, nothing lost |
| Pages.InsertByCountSorted | app/models/page.rb:869-873 | inserting keeps the list ordered by competitor count, descending |
| Pages.SortByCount | app/models/page.rb:869-873 | a permutation of the prey ordered by competitor count, descending |
| Pages.KeptComps | app/models/page.rb:875-878 | exactly the competitors linked to a kept prey |
| Pages.SelectComps | app/models/page.rb:879-881 | exactly the competitors that are kept, in order |
| Pages.KeepLinks | app/models/page.rb:890-892 | exactly the links with both ends among the nodes |
| Pages.CollectGroups | app/models/page.rb:862-865 | predators, prey and competitors are collected in turn, each group skipping the pages the earlier ones marked seen; it raises only for an unloaded page |
| Pages.CollectAll | app/models/page.rb:862-898 | fails exactly when collecting fails; otherwise the first 7 predators; min(collected, 7) prey sorted by decreasing competitor count, none dropped outranking one kept; at most 10 competitors in collection order, each linked to a kept prey, and every such one when fewer than 10; only links between kept nodes; the groups disjoint from each other and from what was seen, each drawn from its ids |
| Pages.CullIsCulled | app/models/page.rb:867-898 | the cull keeps the first 7 predators, the best-linked prey in decreasing order, the linked competitors in order up to 10, and only the links between kept nodes |
| Pages.KeptPreyCulled | app/models/page.rb:869-873 | `sort` then `[0, 7]` keeps min(prey, 7) prey from the collected ones, in decreasing competitor count, none dropped outranking one kept |
| Pages.KeptCompsCulled | app/models/page.rb:875-881 | `select` then `[0, 10]` keeps competitors in collection order, each linked to a kept prey, and all such when fewer than 10 |
| Pages.CullKeepsBestPrey | app/models/page.rb:867-873 | the kept prey come from the prey, and each has at least as many competitors as any dropped one |
| Pages.KeepTop | app/models/page.rb:873 | the first n of a sorted permutation are sorted, drawn from the original nodes, and count at least as much as every node left out |
| Pages.TopOfSorted | app/models/page.rb:873 | a prefix of a sorted permutation outranks the rest |
| Pages.CullKeepsLinkedComps | app/models/page.rb:875-881 | every kept competitor is linked to some kept prey |
| Pages.TrophicWeb | app/models/page.rb:779-807 | raises, before collecting anything, whenever the relationship check raises, with its message (so any unknown type raises); a non-empty web has the page itself as its only source and the page in no other group; every predator, prey and competitor comes from a relationship of that type between existing pages, on the matching end, and every link joins the two pages of such a relationship |
| Pages.WebOf | app/models/page.rb:795-807 | over the kept relationships: the page is the only source of a non-empty web; each node comes from the ids of its type; each link is that of a kept relationship |
| TraitBankStats.Invalid | app/models/trait_bank/stats.rb:3-15 | `CheckResult.invalid(r)` is not valid and carries r as its reason (`CheckResult.valid` is the constant `Valid`, valid with no reason) |
| TraitBankStats.CheckPredicate | app/models/trait_bank/stats.rb:270-282 | raises (RecordNotFound from `TermNode.find`) exactly when a uri is given that no term has; otherwise valid exactly when the uri is given and its term is a "measurement"; a nil uri fails with the "failed to retrieve" reason; an invalid result always has a reason |
| TraitBankStats.CheckCounts | app/models/trait_bank/stats.rb:172-201 | fails first when there is not exactly one filter; raises exactly when the single filter's present predicate raises in the lookup; otherwise valid exactly when that predicate passes the predicate check and has no units, and the filter is not numeric; a failing predicate check's own result is returned |
| TraitBankStats.HistogramChecks | app/models/trait_bank/stats.rb:143-169 | the six histogram checks, in the order the source runs them |
| TraitBankStats.CheckHistogram | app/models/trait_bank/stats.rb:143-169 | raises exactly when, past the record-count and single-predicate checks, the predicate lookup raises, or the predicate passes with no object terms and there is no filter to read units from; every failure has a reason |
| TraitBankStats.HistogramFirstFailure | app/models/trait_bank/stats.rb:143-169 | the result is the first failing check in the fixed order (record count, single predicate filter, predicate, object terms, units, direct records), and valid exactly when none fails |
| TraitBankStats.RaiseIfInvalidForCounts | app/models/trait_bank/stats.rb:254-260 | succeeds exactly when the counts check succeeds and is valid; a failing check's reason is the TypeError message |
| TraitBankStats.ObjsToFilter | app/models/trait_bank/stats.rb:45-58 | exactly the uris of rows that share their count with another row whose term is their descendant |
| TraitBankStats.Reject | app/models/trait_bank/stats.rb:60 | exactly the rows whose uri is not filtered, in their original order |
| TraitBankStats.FilterIdenticalCountAncestors | app/models/trait_bank/stats.rb:44-62 | the first limit + 1 rows that survive the filter (`filtered[0..limit]`), or all when fewer: an order-preserving subsequence of the input, none of them filtered |
| TraitBankStats.FilterDropsOnlyShadowed | app/models/trait_bank/stats.rb:45-60 | a row missing from a result that was not cut by the limit has a same-uri row shadowed by a different row with the same count whose term is a descendant |
| TraitBankStats.UniqueCountsSurvive | app/models/trait_bank/stats.rb:48-49 | a row whose count no other row shares is never filtered out |
| TraitBankStats.Fetched | app/models/trait_bank/stats.rb:19-36 | under `LIMIT limit + 5` the query returns the first limit + 5 rows, or all when fewer |
| TraitBankStats.ObjCountsAsWritten | app/models/trait_bank/stats.rb:24-25 | `obj_counts` as written always raises, because it passes two arguments to a one-argument checker |
| TraitBankStats.ObjCounts | app/models/trait_bank/stats.rb:24-40 | with the checker called as intended: raises exactly for queries the counts check rejects or whose predicate lookup raises; otherwise at most limit + 1 rows, a subsequence of the first limit + 5 rows in their order, none shadowed within them |
| TraitBankStats.ObjCountsArityBreaksValidQueries | app/models/trait_bank/stats.rb:24-25 | on every query the counts check accepts, the as-written method raises while the intended one succeeds |
| TraitBankQuery.PairsAttributes | app/models/trait_bank/query.rb:9-15 | existing pairs (none when nil) are kept in place; every appended pair has a present predicate; every submitted pair with a present predicate is appended; at most one pair per submission is added |
| TraitBankQuery.PairsAttributesAppends | app/models/trait_bank/query.rb:9-15 | the result is the existing pairs followed by the submitted pairs with a present predicate, in submission order, whatever was there before |
| TraitBankQuery.FillOutPairs | app/models/trait_bank/query.rb:17-21 | the length becomes max(old length, 4), existing pairs stay in order, and only blank pairs are appended |
| TraitBankQuery.FillOutPairsIdempotent | app/models/trait_bank/query.rb:17-21 | filling out an already filled-out list changes nothing |
| Articles.CollapseQuotes | app/models/article.rb:46 | after `gsub(/""+/, '"')` no two double quotes are adjacent, and a leading quote survives only if the input had one |
| Articles.CollapseKeepsText | app/models/article.rb:46 | collapsing quote runs loses nothing but double quotes: the text with quotes removed is unchanged |
| Articles.CollapseUnquotedPrefix | app/models/article.rb:46 | a quote-free prefix passes through collapsing untouched |
| Articles.QuoteRun | app/models/article.rb:46 | the run of quotes a value starts with: every character in it is a quote and the next one is not |
| Articles.UnquotedSkipsQuotes | app/models/article.rb:46 | dropping a leading run of quotes does not change the quote-free text |
| Articles.LeadingSpaces | app/models/article.rb:46 | the leading white-space run `^\s+` matches: all white space, followed by a non-space |
| Articles.TrailingSpaces | app/models/article.rb:46 | the trailing white-space run `\s+$` matches: all white space, preceded by a non-space |
| Articles.Trim | app/models/article.rb:46 | after the two white-space substitutions neither end is white space, and the result is a contiguous piece of the input |
| Articles.Unwrap | app/models/article.rb:46 | the quote-unwrapping substitution yields a contiguous piece of its input |
| Articles.CleanLine | app/models/article.rb:46 | cleaning a one-line value leaves no adjacent quotes and keeps a contiguous piece of the collapsed value |
| Articles.CleanVal | app/models/article.rb:44-47 | nil stays nil and a string stays a string; a cleaned string has no adjacent quotes and is a piece of the collapsed input |
| Articles.CleanValKeepsCleanValue | app/models/article.rb:44-47 | a one-line, quote-free, trimmed value is a fixed point of `clean_val` |
| Articles.CleanValUnwraps | app/models/article.rb:44-47 | a trimmed, quote-free value wrapped in double quotes comes back without them |
| Articles.InfixNoAdjacent | app/models/article.rb:46 | a contiguous piece of a value without adjacent quotes has none either |
| Articles.FirstSectionOf | app/models/article.rb:10-18 | `sort_by` raises exactly when nil and integer positions are mixed; otherwise `first_section` is an `EmptySection` exactly when there are no sections, else a section of the article whose position is no greater than any other section's, and which has a position whenever any section does |
| Articles.LeastPositioned | app/models/article.rb:15 | among sections that all have a position, one whose position is no greater than any other's |
| Articles.FirstSectionSortOrder | app/models/article.rb:20-22 | raises exactly when nil and integer positions are mixed; 9999 without sections or when no section has a position; otherwise the least position of any section |
| Articles.SortOrderIgnoresListing | app/models/article.rb:15-21 | the sort order depends only on the sections, not on the order they are listed in |
| Articles.SortOrderByMembers | app/models/article.rb:15-21 | two section lists with the same members, however often or in whatever order listed, have the same sort order, or both raise |
| Articles.SortableName | app/models/article.rb:49-52 | a blank or missing name sorts as "ZZZZ", any other as itself; the key is never blank |
| Articles.IsImage | app/models/article.rb:54-56 | an article is never an image |
| Nodes.Ordinal | app/models/node.rb:24 | the enum stores the five landmarks as 0 to 4, in declaration order |
| Nodes.FromOrdinal | app/models/node.rb:24 | a stored integer reads back as a landmark exactly when it lies in 0..4, and as the landmark stored under it |
| Nodes.OrdinalRoundTrip | app/models/node.rb:24 | storing a landmark and reading it back gives the same landmark |
| Nodes.AnyLandmarkIsPositiveOrdinal | app/models/node.rb:99-101 | `any_landmark?` holds exactly when a landmark is set and its stored value is above `no_landmark`'s |
| Nodes.BreadcrumbIsAbbreviated | app/models/node.rb:40-46 | a node that uses the breadcrumb also uses the abbreviated view and has a real landmark |
| Nodes.WithLandmarkMembers | app/models/node.rb:89-94 | one landmark group holds only children of the node with that landmark |
| Nodes.WithLandmarkComplete | app/models/node.rb:89-94 | one landmark group holds every child of the node with that landmark |
| Nodes.ByLandmarkFrom | app/models/node.rb:89-95 | the children with a stored landmark from `k` up, each a child of the node, in non-decreasing landmark order |
| Nodes.ByLandmarkGroups | app/models/node.rb:89-95 | ordering by landmark lists the minimal, abbreviated, extended and full groups one after another |
| Nodes.OrderingKeepsCount | app/models/node.rb:89-95 | the ordered list is as long as the list of landmarked children |
| Nodes.LandmarkedChildrenMembers | app/models/node.rb:89-94 | the selection holds exactly the children with a real landmark |
| Nodes.LandmarkChildren | app/models/node.rb:88-97 | at most `limit` children, each a child of the node with a real landmark, in non-decreasing landmark order |
| Nodes.LandmarkChildrenComplete | app/models/node.rb:88-97 | the ordering holds exactly the landmarked children; `landmark_children` returns min(their number, limit) of them, and all of them when they fit |
| Nodes.LandmarkChildrenLowest | app/models/node.rb:88-97 | every landmarked child the limit leaves out has a landmark no lower than the last one returned |
| Nodes.RankedAfterPrefix | app/models/node.rb:88-97 | in an ordering by landmark, a node outside a non-empty prefix ranks no lower than the prefix's last node |
| Nodes.Siblings | app/models/node.rb:103-105 | the other children of the node's parent, all of them, never the node itself; none when the parent is not found |
| Nodes.OtherChildren | app/models/node.rb:104 | exactly the rows under the parent other than the node itself |
| Nodes.NotOwnSibling | app/models/node.rb:103-105 | a node is never its own sibling |
| TermNodes.NumericValuePredicate | app/models/term_node.rb:109-111 | an ordinal term, and a term with a units term, takes numeric values; a term whose `is_ordinal` is nil or false and that has no units term does not |
| TermNodes.NumericOnlyFromOrdinalAndUnits | app/models/term_node.rb:109-111 | two terms with the same ordinal flag and units term agree on taking numeric values, whatever their type, uri, count or inverse |
| TermNodes.ExactlyOneKind | app/models/term_node.rb:97-107 | every term is exactly one of predicate and object term, an object term is one whose type is "value", and so `known_type?` always holds |
| TermNodes.SearchFieldsAgree | app/models/term_node.rb:113-123 | `uri_for_search` and `trait_row_count_for_search` both read the inverse term when there is one (a term other than itself) and the term itself otherwise |
| UserDownloads.ReusableFor | app/models/user_download.rb:48-51 | exactly the downloads of the query that are completed, unexpired originals of the current version created within thirty days |
| UserDownloads.Newest | app/models/user_download.rb:52 | `order("created_at DESC").first`: a member of the candidates no younger than any other |
| UserDownloads.ValidationErrors | app/models/user_download.rb:5-8 | no error exactly when the user id and count are given and the search URL is present; at most three errors, each "… can't be blank" |
| UserDownloads.CreateAndRunIfNeeded | app/models/user_download.rb:43-70 | `save!` raises `RecordInvalid`, with the validation messages, exactly when a presence validation fails; otherwise the new download is saved with the current version; it is a duplicate exactly when `force_new` is off and a reusable original exists, and then it is completed now and shares the newest such original's file; otherwise it is an original with no file; a build is queued exactly when it is not completed |
| UserDownloads.DuplicatesNeverDelete | app/models/user_download.rb:116-125 | destroying a duplicate never deletes the file it shares |
| UserDownloads.MarkAsFailed | app/models/user_download.rb:79-85 | the download becomes failed, completed now, with the message and backtrace recorded, and nothing else changes |
| UserDownloads.Pending | app/models/user_download.rb:17-20 | exactly the downloads still being created that are younger than thirty days |
| UserDownloads.ForUserDisplay | app/models/user_download.rb:22-24 | exactly the completed downloads and the others younger than thirty days |
| UserDownloads.DisplayCoversPending | app/models/user_download.rb:17-24 | every pending download is displayed, every completed one is, and a failed one is displayed exactly while younger than thirty days |
| UserDownloads.FailedIsSettled | app/models/user_download.rb:79-85 | a download marked failed is not pending and owns no file |
| ApplicationHelpers.Upcase | app/helpers/application_helper.rb:5 | `capitalize` on one character: an ASCII lower-case letter becomes upper case, anything else is unchanged |
| ApplicationHelpers.FirstCap | app/helpers/application_helper.rb:4-6 | raises exactly on the empty string; otherwise the first character is upper-cased and the rest is unchanged |
| ApplicationHelpers.FirstCapIdempotent | app/helpers/application_helper.rb:4-6 | capitalising twice is capitalising once |
| ApplicationHelpers.SetTermSearchVars | app/helpers/application_helper.rb:68-103 | an object array sets object = true, the term to its first element and `and_object` to its last unless it has one element; otherwise a predicate array does the same with object = false; species list and clade are copied; only an object array can leave an array in `and_predicate` |
| ApplicationHelpers.TitleBody | app/helpers/application_helper.rb:12-33 | the title without clade starts with "All pages matching" for a species list and "All data records for" otherwise, and raises whenever no term is set |
| ApplicationHelpers.Title | app/helpers/application_helper.rb:12-33 | the same opening words; no term always raises; a non-object search reads the term first and so raises the nil error when there is none; an object search reads `@and_predicate` first and so raises its error (an array's, say) before the missing term's |
| ApplicationHelpers.Subject | app/helpers/application_helper.rb:18-25 | the subject part extends the opening words, and outside an object search exists only with a term |
| ApplicationHelpers.WithValues | app/helpers/application_helper.rb:26-33 | the value part only appends to what came before |
| ApplicationHelpers.TermSearchName | app/helpers/application_helper.rb:8-38 | with options the variables are first reset from them; a title starts with the opening words its species-list flag selects |
| ApplicationHelpers.NameFrom | app/helpers/application_helper.rb:12-37 | the title from the current variables starts with the opening words the species-list flag selects |
| ApplicationHelpers.CladeAppendsSuffix | app/helpers/application_helper.rb:34-36 | setting a clade succeeds exactly when the title without it does, and then appends ", for <clade>" and changes nothing else |
| ApplicationHelpers.TitleNeedsATerm | app/helpers/application_helper.rb:96-99 | with neither object nor predicate there is no term and reading its name raises |
| ApplicationHelpers.Labelled | app/helpers/application_helper.rb:44-64 | the main name alone when the common name equals the scientific name, otherwise the main name followed by " (name)" |
| ApplicationHelpers.NameForPage | app/helpers/application_helper.rb:44-51 | "[MISSING]" for nil, otherwise a label starting with the scientific name |
| ApplicationHelpers.NameForPageCanonical | app/helpers/application_helper.rb:57-64 | "MISSING" for nil, otherwise a label starting with the canonical name |
| ApplicationHelpers.NameHelpersAgree | app/helpers/application_helper.rb:44-64 | both helpers add the common name exactly when it differs from the scientific name, and then add the same suffix |
| TraitsController.FirstValid | app/controllers/traits_controller.rb:141-151 | the reference reading of the if-chain: the first type on the ladder whose check passed, none exactly when no check on it passed |
| TraitsController.DataVizTypeIsFirstValid | app/controllers/traits_controller.rb:138-151 | the chain picks the first valid type in the order assoc, bar, hist, sankey, taxon summary: nothing before the chosen type is valid, and nothing is chosen exactly when no check passed |
| TraitsController.FallbackVizType | app/controllers/traits_controller.rb:153-155 | the fallback is the taxon summary exactly when the taxon summary is valid and was not the chosen type, and nothing otherwise |
| TraitsController.FallbackAccompaniesChoice | app/controllers/traits_controller.rb:138-155 | a fallback is only offered next to a different chosen type, never instead of one |
| TraitsController.SetViewType | app/controllers/traits_controller.rb:158-165 | a present `view` parameter in {list, gallery} is shown and stored in the session; otherwise the session is left alone and its value, or "list", is shown |
| TraitsController.ViewTypeStaysRecognised | app/controllers/traits_controller.rb:158-165 | a session that only held recognised view types keeps doing so, and the view shown is always recognised |
| TraitsController.TaxonKeyParams | app/controllers/traits_controller.rb:124-127 | one parameter per trait with a GBIF key, so none exactly when no trait has a key |
| TraitsController.FirstParamIsTaxonKey | app/controllers/traits_controller.rb:126 | the first parameter, when there is one, starts with "taxon_key=" |
| TraitsController.BuildGbifUrl | app/controllers/traits_controller.rb:121-136 | a map link exactly for taxa queries with a GBIF resource, 0 < count <= 50 and at least one key; a download link exactly for such queries with 50 < count <= 100,000 and an enabled user; never both; the link is the base URL with "?taxon_key=" and ends with "&occurrence_status=present" |
| TraitsController.GbifUrl | app/controllers/traits_controller.rb:130 | the map link starts with the base URL and "?taxon_key=" and ends with "&occurrence_status=present" |
| TraitsController.JoinStartsWithFirst | app/controllers/traits_controller.rb:130 | a joined parameter list starts with its first parameter |
| TraitsController.LeadingBlanks | app/controllers/traits_controller.rb:170 | the run of spaces `^\ +` matches at the start of a line |
| TraitsController.StripLineIndents | app/controllers/traits_controller.rb:170 | every line keeps its count and order, loses its leading spaces and nothing else, and gains no line break |
| TraitsController.IndentsStripped | app/controllers/traits_controller.rb:170 | after stripping, the text has the same number of lines and none begins with a space |
| TraitsController.SplitJoin | app/controllers/traits_controller.rb:170 | lines joined by a separator none of them contains split back into the same lines |
| TraitsController.Shown | app/controllers/traits_controller.rb:173-174 | a string value is put in between double quotes with its text unchanged; an integer in decimal, with a minus sign exactly when negative and no quote; nil as the empty text |
| TraitsController.Substitute | app/controllers/traits_controller.rb:172-175 | a query without any `$` is left as it is whatever the parameters |
| TraitsController.BuildQueryForDisplay | app/controllers/traits_controller.rb:169-178 | a raw query without placeholders is shown with the same lines in the same order, each without its leading spaces |
| TraitsController.StripKeepsChars | app/controllers/traits_controller.rb:170 | stripping indents introduces no character the raw query lacked |
| TraitsController.SubstituteOne | app/controllers/traits_controller.rb:172-175 | in a query whose only `$` before and after the placeholder `$k` is the placeholder's, that placeholder becomes the string value between double quotes, the integer value in decimal, or nothing for nil, and the text before and after it is kept |
| TraitsController.ShownBetween | app/controllers/traits_controller.rb:173-174 | the shown value between two texts is the string between double quotes, the integer in decimal, or nothing for nil |
| TraitsController.PlaceholderReplaced | app/controllers/traits_controller.rb:174 | the single placeholder is replaced by the shown value and the surrounding text is kept |
| TraitsController.NoPlaceholdersNoChange | app/controllers/traits_controller.rb:172-175 | a query with no `$k` placeholder for any parameter is left as it is by the substitutions |
| TraitsController.Position | app/controllers/traits_controller.rb:98-100 | Ruby's `a[i]`: an index in -n..n-1 names a position, counted from the end when negative; any other names none |
| TraitsController.EditFilters | app/controllers/traits_controller.rb:98-101 | raises exactly when `show_extra_fields`, `hide_extra_fields` or `remove_filter` is given an index naming no filter, with the message of the first of them in source order; otherwise the filter at `remove_filter` goes and every other keeps its order, `add_filter` appends exactly one `is_any` filter at the end, and as a collection the result is the kept filters plus that one new filter |
| TraitsController.Kept | app/controllers/traits_controller.rb:100 | `filters.delete(filters[i])` on the association: when the index names a filter, that filter goes and the others keep their order, so as a collection exactly that one is removed; an index naming none deletes nil, which raises `AssociationTypeMismatch` |
| EditorPageContents.DraftFor | app/controllers/admin/editor_page_contents_controller.rb:5-23 | an existing draft is used as is; otherwise a new content titled with the page name, which for a non-default locale takes the default locale's draft content and (when present) its title |
| EditorPageContents.PublishCurrentDraft | app/controllers/admin/editor_page_contents_controller.rb:124-140 | fails exactly when the locale has no draft; otherwise the draft, marked published, replaces that locale's published content, every other locale and all drafts are unchanged, and well-formed pages stay well-formed |
| EditorPageContents.PublishIdempotent | app/controllers/admin/editor_page_contents_controller.rb:124-140 | publishing twice without editing is publishing once |
| EditorPageContents.Unpublish | app/controllers/admin/editor_page_contents_controller.rb:95-98 | fails exactly when nothing is published for the locale; otherwise removes that locale's published content and nothing else |
| EditorPageContents.UnpublishUndoesPublish | app/controllers/admin/editor_page_contents_controller.rb:95-98 | unpublishing right after publishing leaves the locale unpublished and everything else as before |
| EditorPageContents.Apply | app/controllers/admin/editor_page_contents_controller.rb:29 | `update(editor_page_content_params)` replaces exactly the submitted fields, keeping the others, the locale and the status |
| EditorPageContents.ApplyIdempotent | app/controllers/admin/editor_page_contents_controller.rb:29 | submitting the same parameters twice is submitting them once, and submitting none changes nothing |
| EditorPageContents.SaveDraft | app/controllers/admin/editor_page_contents_controller.rb:25-47 | a failed save changes nothing and renders the form; a successful one updates or creates only that locale's draft, whose title and content are the submitted ones, else the existing draft's, else nil, and whose locale is the request's for a new draft; it then publishes it when `publish` is "true" and otherwise redirects to the preview with publications untouched |
| EditorPageContents.SaveDraftKeepsFiled | app/controllers/admin/editor_page_contents_controller.rb:25-47 | saving keeps every content filed under its own locale and status, and publications change only when publishing was asked for |
| HashParams.RemoveFirst | app/webpacker/src/main.js:18 | `replace('#', '')` on a string pattern drops exactly one '#', the first (the result with that '#' put back at a point before which it has no '#' is the input), and changes nothing when there is none |
| HashParams.ParseHashParams | app/webpacker/src/main.js:12-28 | no parameters for an empty fragment; otherwise exactly the keys the '&'-separated segments name, each holding the value of the last segment that names it |
| HashParams.EmptyHashGivesNothing | app/webpacker/src/main.js:15-17 | the parameters are empty exactly when the fragment is empty; a non-empty fragment always yields at least one key |
| HashParams.CollectNonEmpty | app/webpacker/src/main.js:21-24 | assigning at least one key/value pair leaves at least one key |
| HashParams.OnlyFirstHashRemoved | app/webpacker/src/main.js:18-19 | for a fragment "#" + rest, the segments are exactly rest split on '&': a later '#' stays in place |
| HashParams.CollectKeys | app/webpacker/src/main.js:21-24 | a key is present exactly when some assigned pair names it |
| HashParams.SegmentKeys | app/webpacker/src/main.js:21-24 | a key is present exactly when some segment names it |
| HashParams.LastOccurrenceWins | app/webpacker/src/main.js:21-24 | a repeated key holds the value of the last pair that names it |
| HashParams.LastSegmentWins | app/webpacker/src/main.js:21-24 | a key holds the value of the last segment that names it |
| HashParams.KeyAndValue | app/webpacker/src/main.js:22-23 | the key is the text before the first '=' (all of it without one); the value is the text between the first and second '=' (to the end without a second), and undefined without any '=' |

## Left out

- SQL statements, `LOAD DATA`, CSV reading, HTTP fetches from the harvest repository, and file writes and unlinks are left out. They are I/O. Their results are inputs: row tables, served files, the files on disk.
- `propagate_id` is defined in `config/initializers/propagate_ids.rb`, which is not part of this model. `PublishingFast.PropagateId` models it as the join on `harv_db_id` within the resource.
- `update_attributes`' batch loop (groups of 2,000 rows, `changed?`, `import`) is left out. It writes to the database. Only its key and position lookups are modelled.
- `load_local_file` is left out. It is a manual one-shot entry point into the same import and propagation.
- Collaborators such as `PageCreator`, `TraitBank::Slurp`, `VernacularPreference`, `fix_native_nodes`, `Denormalizer`, `DynamicWorkingHierarchy` and `Page.fix_missing_icons` are modelled as stages. Each stage either returns or raises, as the environment says. Their own work is not part of this model.
- Log output other than the steps the model records (timings, `puts`, info lines) is left out. It is I/O.
- `ImportLogs.AllClear` takes the clock as a parameter.
- `MediaContent.AddCounts`: the content counts are modelled as a monotone input map. The `position = position + count` update of `push_content_down` and the `fix_counter_culture_counts` step are left out.
- `by_media_ids` and `by_article_ids` are left out. `by_media_ids` (app/models/media_content_creator.rb:59-63) runs the same batches over the resource's media with the given ids. `by_article_ids` (:65-69) sets the content class to `Article` but still queries `Medium.where(resource: …, id: article_ids)`, so it loads media whose ids happen to equal the article ids and files them as article contents; it is not an article import, and this model does not cover it.
- `Pages.Heal` records what `fix_missing_native_nodes` does to a page. The healing log is left out.
- `Pages.CollectByGroup`: whether a page is a species with an icon is an input. `trophic_hash`'s display fields (names, translated group description, coordinates) are left out, because they are presentation only.
- `Pages.SortByCount`: Ruby's `sort` is not stable. The order among prey with equal counts is this model's choice.
- `UserDownloads.Newest`: among downloads created at the same moment, the model picks the first. The database's order is not determined.
- `UserDownloads.ValidationErrors`: only the four presence validations are modelled. Whether `belongs_to :user` also demands an existing user depends on the application's configuration, which is not part of this model.
- `UserDownloads`: `background_build`, `all_clear` and `user_has_pending_for_query?` are left out. They queue jobs and query the database. `expire_old` is left out. It is declared with `def self.` inside `class << self`, so `UserDownload.expire_old` does not reach it.
- `ApplicationHelpers.Upcase` models ASCII capitalisation only. Ruby's Unicode case mapping is left out.
- `ApplicationHelpers.SetTermSearchVars`: `TraitBank::Term.term_as_hash` is taken as the identity on the term's name.
- `TraitsController`: whether a query suits each visualisation is an input. `show_extra_fields` and `hide_extra_fields` set or clear a display flag on the filter record they name (app/controllers/traits_controller.rb:98-99); filter records' extra fields are not modelled, so only their raise on an index naming no filter is.
- `TraitsController.EditFilters`: `filters` is an ActiveRecord association (app/controllers/traits_controller.rb:101 calls `build` on it), so line 100 there is `CollectionProxy#delete`. It removes only the filter at the named position, because unsaved records compare by identity. An index out of range makes `filters[i]` nil, and deleting nil raises `ActiveRecord::AssociationTypeMismatch`. Rails' message for it names the expected class and object ids, which are not part of this model, so the model uses one fixed message.
- `TraitsController.Shown`: only string, integer and nil parameter values are modelled. Arrays, floats and symbols, which `to_s` shows as `[1, 2]`, `1.5` and `sym`, are left out.
- `TraitsController.Substitute`: `gsub` with a string replacement gives `\0`, `\&`, `\\` and the other backslash sequences in the replacement their special meaning. The model puts the shown value in literally, so a string parameter holding a backslash is not modelled.
- `TraitBankStats.CheckPredicate`: `TermNode`'s id property is `eol_id` (app/models/term_node.rb:23), so `TermNode.find(uri)` looks a term up by `eol_id`. The term table is keyed by whatever that lookup matches. The not-found message paraphrases ActiveGraph's `RecordNotFound`.
- `EditorPageContents.SaveDraft`: whether validation lets the save through is an input. The `create`, `update`, `destroy`, `preview` and `upload_image` actions are left out, because they are plain CRUD and file upload.
- `EditorPageContents.PublishCurrentDraft`: the not-found message paraphrases ActiveRecord's `RecordNotFound`.
- `HashParams.ParseHashParams`: `window.location.hash` is a parameter. JavaScript object-key quirks such as `__proto__` are not modelled.
- `Articles.FirstSectionOf`: the `ArgumentError` message names the classes or values `sort_by` happened to compare, which depends on Ruby's sort. The model uses one fixed message. `EmptySection` is not part of this model; it is taken to have no position, so its sort order is 9999.
- `Articles.CleanVal` models single-line values only. The multi-line behaviour of Ruby's `^` and `$` anchors is left out.
- `TermNodes.Term.isOrdinal`: `is_ordinal` is an `Option<bool>`. A non-boolean truthy value of the property is not modelled.
- `ReferenceIds.Windows` and `Pages.HealWindows` are modelled as written. That includes the bound that can skip the largest id. Lemmas state exactly when this happens.
- The rest of `app/webpacker/src/main.js` is left out. It is DOM and event handling. Only `parseHashParams` holds logic.

## Findings

| source | as written | input that shows it | evidently intended | confidence | as-written member | corrected member |
|---|---|---|---|---|---|---|
| app/models/media_content_creator.rb:48 | each batch calls `count_images_in(batch)`, which is not defined | any resource with at least one medium or article: the first batch raises NoMethodError and no content is imported | call `count_media_in(batch)` (lines 71-80) to seed the position counters | high (not executed) | MediaContent.AsWrittenRaisesOnAnyContent | MediaContent.ByResource |
| app/models/media_content_creator.rb:132 | the log line reads `@contents.first.page_id`, but the contents are Hashes | any batch: `Hash#page_id` raises NoMethodError before `PageContent.import` | read `@contents.first[:page_id]` (and likewise `content_type` and `content_id`) | high (not executed) | MediaContent.BatchLogLineSucceeds | MediaContent.ImportLogLine |
| app/models/page.rb:786-787 | the error message interpolates `row`, which is not defined in `trophic_relationships` | a relationship of type "parasite": NameError instead of the "Unrecognized relationship type" error | name the offending relationship in the message | high (not executed) | Pages.TrophicRelationshipsAgree | Pages.TrophicRelationships |
| app/models/trait_bank/stats.rb:25 | `obj_counts` calls `raise_if_query_invalid_for_counts(query, record_count)` | any query, including a valid one: ArgumentError (2 arguments for 1), because the method takes one argument (line 254) | call `raise_if_query_invalid_for_counts(query)` | high (not executed) | TraitBankStats.ObjCountsArityBreaksValidQueries | TraitBankStats.ObjCounts |

=== FILE: application_helper.dfy ===
/** The view helpers that build page names and term-search titles (app/helpers/application_helper.rb). */
module ApplicationHelpers {
  import opened Wrappers
  import opened Strings

  /** The upper-case form of an ASCII letter; other characters are unchanged. */
  function Upcase(c: char): (u: char)
    ensures 'a' <= c <= 'z' ==> u as int == c as int - 32
    ensures !('a' <= c <= 'z') ==> u == c
  {
    if 'a' <= c <= 'z' then (c as int - 32) as char else c
  }

  /** Ruby's `"" + nil`. */
  const NilConcatMessage: string := "no implicit conversion of nil into String"

  /** `first_cap`: the first character upper-cased, the rest as they were. On the empty string
      `slice(1..-1)` is nil and the concatenation raises. */
  function FirstCap(s: string): (r: Result<string>)
    ensures r.Ok? <==> |s| > 0
    ensures r.Raise? ==> r.message == NilConcatMessage
    ensures r.Ok? ==> |r.value| == |s| && r.value[0] == Upcase(s[0]) && r.value[1..] == s[1..]
  {
    if |s| == 0 then Raise(NilConcatMessage)
    else Ok([Upcase(s[0])] + s[1..])
  }

  /** Capitalising twice is capitalising once. */
  lemma FirstCapIdempotent(s: string)
    requires |s| > 0
    ensures FirstCap(FirstCap(s).value) == FirstCap(s)
  {
    var r := FirstCap(s).value;
    assert r[1..] == s[1..];
  }

  /** A term as `TraitBank::Term.term_as_hash` presents it: only its name is used here. */
  datatype TermRef = TermRef(name: string)

  /** An `:object` or `:predicate` option: one term, or an array of at least one. */
  datatype TermArg = One(term: TermRef) | Many(first: TermRef, rest: seq<TermRef>)

  datatype Options = Options(
    speciesList: bool,
    obj: Option<TermArg>,
    pred: Option<TermArg>,
    clade: Option<string>)

  /** The instance variables `set_term_search_instance_variables_from_options` sets. The second
      predicate keeps whatever the option held, so it may still be an array. */
  datatype SearchVars = SearchVars(
    speciesList: bool,
    term: Option<TermRef>,
    andObject: Option<TermRef>,
    andPredicate: Option<TermArg>,
    isObject: bool,
    clade: Option<string>)

  /** The last element of an array option. */
  function Last(a: TermArg): TermRef {
    match a
    case One(t) => t
    case Many(f, rest) => if |rest| == 0 then f else rest[|rest| - 1]
  }

  /** A single-term option (or none) as `term_as_hash` gives it; only called on non-arrays. */
  function AsTerm(a: Option<TermArg>): Option<TermRef> {
    match a
    case Some(One(t)) => Some(t)
    case _ => None
  }

  /** `set_term_search_instance_variables_from_options`. */
  function SetTermSearchVars(o: Options): (v: SearchVars)
    ensures v.speciesList == o.speciesList && v.clade == o.clade
    ensures o.obj.Some? && o.obj.value.Many? ==>
      v.isObject && v.term == Some(o.obj.value.first)
      && (v.andObject.None? <==> |o.obj.value.rest| == 0)
      && (|o.obj.value.rest| > 0 ==> v.andObject == Some(o.obj.value.rest[|o.obj.value.rest| - 1]))
    ensures !(o.obj.Some? && o.obj.value.Many?) && o.pred.Some? && o.pred.value.Many? ==>
      !v.isObject && v.term == Some(o.pred.value.first)
      && (v.andPredicate.None? <==> |o.pred.value.rest| == 0)
      && (|o.pred.value.rest| > 0 ==> v.andPredicate == Some(One(o.pred.value.rest[|o.pred.value.rest| - 1])))
    ensures v.andPredicate.Some? && v.andPredicate.value.Many? ==> o.obj.Some? && o.obj.value.Many?
  {
    match (o.obj, o.pred)
    case (Some(Many(first, rest)), _) =>
      SearchVars(o.speciesList, Some(first), if |rest| == 0 then None else Some(Last(Many(first, rest))),
        o.pred, true, o.clade)
    case (_, Some(Many(first, rest))) =>
      SearchVars(o.speciesList, Some(first), AsTerm(o.obj),
        if |rest| == 0 then None else Some(One(Last(Many(first, rest)))), false, o.clade)
    case _ =>
      if o.pred.Some? then
        SearchVars(o.speciesList, AsTerm(o.pred), AsTerm(o.obj), None, o.obj.Some? && o.pred.None?, o.clade)
      else
        SearchVars(o.speciesList, AsTerm(o.obj), None, None, o.obj.Some?, o.clade)
  }

  /** Ruby's `nil[:name]` and `[...][:name]`. */
  const NilIndexMessage: string := "undefined method `[]' for nil"
  const ArrayIndexMessage: string := "no implicit conversion of Symbol into Integer"

  /** `x[:name]` on what an instance variable holds. */
  function NameOf(a: Option<TermArg>): Result<string> {
    match a
    case None => Raise(NilIndexMessage)
    case Some(One(t)) => Ok(t.name)
    case Some(Many(_, _)) => Raise(ArrayIndexMessage)
  }

  const PagesPrefix: string := "All pages matching"
  const RecordsPrefix: string := "All data records for"

  /** `term_search_name` without its clade suffix, which reads every instance variable but
      the clade. */
  function TitleBody(v: SearchVars): (r: Result<string>)
    ensures r.Ok? ==> IsPrefix(if v.speciesList then PagesPrefix else RecordsPrefix, r.value)
    ensures v.term.None? ==> r.Raise?
  {
    Title(v.speciesList, v.term, v.andObject, v.andPredicate, v.isObject)
  }

  function Title(speciesList: bool, term: Option<TermRef>, andObject: Option<TermRef>, andPredicate: Option<TermArg>,
                 isObject: bool): (r: Result<string>)
    ensures r.Ok? ==> IsPrefix(if speciesList then PagesPrefix else RecordsPrefix, r.value)
    ensures term.None? ==> r.Raise?
    ensures !isObject && term.None? ==> r == Raise(NilIndexMessage)
    ensures isObject && NameOf(andPredicate).Raise? && andPredicate.Some? ==> r == NameOf(andPredicate).PropagateFailure()
    ensures !isObject && term.Some? && andPredicate.Some? && NameOf(andPredicate).Raise? ==>
      r == NameOf(andPredicate).PropagateFailure()
  {
    var start := if speciesList then PagesPrefix else RecordsPrefix;
    var what :- Subject(start, term, andPredicate, isObject);
    if term.None? then Raise(NilIndexMessage)
    else
      var t := WithValues(what, term.value.name, andObject, speciesList, isObject);
      PrefixTrans(start, what, t);
      Ok(t)
  }

  /** The title up to its values: what is searched for. An object search reads `@and_predicate`
      (or nothing) here; any other search reads `@term` first, then `@and_predicate`. */
  function Subject(start: string, term: Option<TermRef>, andPredicate: Option<TermArg>, isObject: bool): (r: Result<string>)
    ensures r.Ok? ==> IsPrefix(start, r.value)
    ensures !isObject ==> (r.Ok? ==> term.Some?)
  {
    if isObject && andPredicate.Some? then
      var p :- NameOf(andPredicate); Ok(start + " " + p)
    else if isObject then Ok(start + " any attribute")
    else if term.None? then Raise(NilIndexMessage)
    else if andPredicate.Some? then
      var p :- NameOf(andPredicate); Ok(start + " " + term.value.name + " and " + p)
    else Ok(start + " " + term.value.name)
  }

  /** The values the title names after the subject. */
  function WithValues(s: string, name: string, andObject: Option<TermRef>, speciesList: bool, isObject: bool): (t: string)
    ensures IsPrefix(s, t)
  {
    var t :=
      if isObject then
        var withValue := s + " with " + (if andObject.Some? then " values" else " value") + " \"" + name + "\"";
        if andObject.Some? then
          withValue + " " + (if speciesList then "and" else "or") + " \"" + andObject.value.name + "\""
        else withValue
      else if andObject.Some? then s + " with value " + andObject.value.name
      else s;
    assert t[..|s|] == s;
    t
  }

  /** `term_search_name(options)`: with options it first resets the instance variables from
      them; without, it reuses the ones already set. */
  function TermSearchName(current: SearchVars, options: Option<Options>): (r: Result<string>)
    ensures var v := if options.Some? then SetTermSearchVars(options.value) else current;
      r.Ok? ==> IsPrefix(if v.speciesList then PagesPrefix else RecordsPrefix, r.value)
  {
    NameFrom(if options.Some? then SetTermSearchVars(options.value) else current)
  }

  /** The title from the instance variables, with ", for <clade>" when a clade is set. */
  function NameFrom(v: SearchVars): (r: Result<string>)
    ensures r.Ok? ==> IsPrefix(if v.speciesList then PagesPrefix else RecordsPrefix, r.value)
  {
    var body :- TitleBody(v);
    if v.clade.Some? then
      var t := body + ", for " + v.clade.value;
      PrefixTrans(if v.speciesList then PagesPrefix else RecordsPrefix, body, t);
      Ok(t)
    else Ok(body)
  }

  /** Setting a clade appends ", for <clade>" to the title and changes nothing else. */
  lemma CladeAppendsSuffix(v: SearchVars, clade: string)
    ensures var with := TermSearchName(v.(clade := Some(clade)), None);
      var without := TermSearchName(v.(clade := None), None);
      with.Ok? == without.Ok?
      && (with.Ok? ==> with.value == without.value + ", for " + clade && IsSuffix(", for " + clade, with.value))
  {
    var body := TitleBody(v.(clade := None));
    assert TitleBody(v.(clade := Some(clade))) == body;
    assert TermSearchName(v.(clade := Some(clade)), None) == NameFrom(v.(clade := Some(clade)));
    assert TermSearchName(v.(clade := None), None) == NameFrom(v.(clade := None));
    if body.Ok? {
      SuffixOfConcat(body.value, ", for " + clade);
      assert body.value + ", for " + clade == body.value + (", for " + clade);
    }
  }

  /** The title needs a first term: with neither an object nor a predicate there is none. */
  lemma TitleNeedsATerm(o: Options)
    ensures o.obj.None? && o.pred.None? ==> TermSearchName(SetTermSearchVars(o), Some(o)).Raise?
  {
  }

  /** A page's names as the helpers read them. */
  datatype PageNames = PageNames(scientificName: string, name: string, canonical: string)

  /** "main (name)", or just "main" when the page's common name is its scientific name. */
  function Labelled(main: string, p: PageNames): (r: string)
    ensures IsPrefix(main, r)
    ensures p.scientificName == p.name ==> r == main
    ensures p.scientificName != p.name ==> IsSuffix(" (" + p.name + ")", r) && |r| == |main| + |p.name| + 3
  {
    if p.scientificName == p.name then main
    else
      var r := main + " (" + p.name + ")";
      assert r[..|main|] == main;
      assert r[|r| - |p.name| - 3..] == " (" + p.name + ")";
      r
  }

  /** `name_for_page`. */
  function NameForPage(page: Option<PageNames>): (r: string)
    ensures page.None? ==> r == "[MISSING]"
    ensures page.Some? ==> IsPrefix(page.value.scientificName, r)
  {
    match page
    case None => "[MISSING]"
    case Some(p) => Labelled(p.scientificName, p)
  }

  /** `name_for_page_canonical`: the same rule, showing the canonical form. */
  function NameForPageCanonical(page: Option<PageNames>): (r: string)
    ensures page.None? ==> r == "MISSING"
    ensures page.Some? ==> IsPrefix(page.value.canonical, r)
  {
    match page
    case None => "MISSING"
    case Some(p) => Labelled(p.canonical, p)
  }

  /** The two helpers decide the same way: both add the common name exactly when it differs from
      the scientific name, and then add the same suffix. */
  lemma NameHelpersAgree(p: PageNames)
    ensures var a := NameForPage(Some(p));
      var b := NameForPageCanonical(Some(p));
      (a == p.scientificName <==> p.scientificName == p.name) && (b == p.canonical <==> p.scientificName == p.name)
    ensures var a := NameForPage(Some(p));
      var b := NameForPageCanonical(Some(p));
      a[|p.scientificName|..] == b[|p.canonical|..]
  {
  }
}

=== FILE: article.dfy ===
/** String cleanup and section ordering of `Article` (app/models/article.rb). */
module Articles {
  import opened Wrappers
  import opened Strings

  /** A section attached to an article, with its position (nil when unset). */
  datatype Section = Section(id: nat, position: Option<int>)

  /** What `first_section` returns: a real section, or an `EmptySection` placeholder. */
  datatype FirstSection = Found(section: Section) | EmptySection

  /** The sort order of an article whose first section has no position. */
  const NoSectionSortOrder: int := 9999

  /** `sort_by`'s `ArgumentError` when it compares a nil position with an integer one. */
  const IncomparablePositions: string := "comparison of Integer with nil failed"

  /** The name an article with a blank name sorts under. */
  const BlankNameSortKey: string := "ZZZZ"

  predicate NoAdjacentQuotes(s: string) {
    forall i :: 0 < i < |s| ==> !(s[i - 1] == '"' && s[i] == '"')
  }

  /** `s` with every double quote removed: the text `clean_val` must not lose. */
  function Unquoted(s: string): string
    decreases |s|
  {
    if |s| == 0 then ""
    else if s[0] == '"' then Unquoted(s[1..])
    else [s[0]] + Unquoted(s[1..])
  }

  /** `r` is a contiguous piece of `s`. */
  ghost predicate Infix(r: string, s: string) {
    exists i, j :: 0 <= i <= j <= |s| && s[i..j] == r
  }

  /** Neither end of `s` is white space. */
  predicate Trimmed(s: string) {
    |s| == 0 || (!IsSpace(s[0]) && !IsSpace(s[|s| - 1]))
  }

  /** The length of the run of double quotes `s` starts with. */
  function QuoteRun(s: string): (n: nat)
    ensures n <= |s|
    ensures forall i :: 0 <= i < n ==> s[i] == '"'
    ensures n < |s| ==> s[n] != '"'
    decreases |s|
  {
    if |s| == 0 || s[0] != '"' then 0 else 1 + QuoteRun(s[1..])
  }

  lemma {:induction false} UnquotedSkipsQuotes(s: string, n: nat)
    requires n <= |s|
    requires forall i :: 0 <= i < n ==> s[i] == '"'
    ensures Unquoted(s[n..]) == Unquoted(s)
    decreases n
  {
    if n > 0 {
      assert s[1..][n - 1..] == s[n..];
      UnquotedSkipsQuotes(s[1..], n - 1);
    }
  }

  /** `gsub(/""+/, '"')`: every run of double quotes collapses to a single one. */
  function CollapseQuotes(s: string): (r: string)
    ensures NoAdjacentQuotes(r)
    ensures |r| > 0 && r[0] == '"' ==> |s| > 0 && s[0] == '"'
    decreases |s|
  {
    if |s| == 0 then ""
    else if s[0] == '"' then "\"" + CollapseQuotes(s[QuoteRun(s)..])
    else [s[0]] + CollapseQuotes(s[1..])
  }

  /** Collapsing loses no text other than double quotes. */
  lemma {:induction false} CollapseKeepsText(s: string)
    ensures Unquoted(CollapseQuotes(s)) == Unquoted(s)
    decreases |s|
  {
    if |s| > 0 {
      if s[0] == '"' {
        var n := QuoteRun(s);
        UnquotedSkipsQuotes(s, n);
        CollapseKeepsText(s[n..]);
        assert ("\"" + CollapseQuotes(s[n..]))[1..] == CollapseQuotes(s[n..]);
      } else {
        CollapseKeepsText(s[1..]);
        assert ([s[0]] + CollapseQuotes(s[1..]))[1..] == CollapseQuotes(s[1..]);
      }
    }
  }

  /** Text without double quotes passes through collapsing untouched. */
  lemma {:induction false} CollapseUnquotedPrefix(x: string, y: string)
    requires '"' !in x
    ensures CollapseQuotes(x + y) == x + CollapseQuotes(y)
    decreases |x|
  {
    if |x| == 0 {
      assert x + y == y;
    } else {
      assert (x + y)[1..] == x[1..] + y;
      assert (x + y)[0] == x[0];
      assert '"' !in x[1..] by { assert forall c :: c in x[1..] ==> c in x; }
      CollapseUnquotedPrefix(x[1..], y);
      assert x == [x[0]] + x[1..];
    }
  }

  /** The number of white-space characters `s` starts with. */
  function LeadingSpaces(s: string): (n: nat)
    ensures n <= |s|
    ensures forall i :: 0 <= i < n ==> IsSpace(s[i])
    ensures n < |s| ==> !IsSpace(s[n])
    decreases |s|
  {
    if |s| == 0 || !IsSpace(s[0]) then 0 else 1 + LeadingSpaces(s[1..])
  }

  /** The number of white-space characters `s` ends with. */
  function TrailingSpaces(s: string): (n: nat)
    ensures n <= |s|
    ensures forall i :: |s| - n <= i < |s| ==> IsSpace(s[i])
    ensures n < |s| ==> !IsSpace(s[|s| - n - 1])
    decreases |s|
  {
    if |s| == 0 || !IsSpace(s[|s| - 1]) then 0 else 1 + TrailingSpaces(s[..|s| - 1])
  }

  /** `gsub(/^\s+/, '')` then `gsub(/\s+$/, '')` on one line: white space at both ends goes. */
  function Trim(s: string): (r: string)
    ensures Trimmed(r)
    ensures Infix(r, s)
  {
    var a := LeadingSpaces(s);
    var b := TrailingSpaces(s[a..]);
    assert s[a..][..|s| - a - b] == s[a..|s| - b];
    s[a..|s| - b]
  }

  /** `gsub(/^"\s*(.*)\s*"$/, '\1')` on one line: a value wrapped in double quotes loses them,
      and the white space after the opening quote. */
  function Unwrap(s: string): (r: string)
    ensures Infix(r, s)
  {
    if |s| >= 2 && s[0] == '"' && s[|s| - 1] == '"' then
      var inner := s[1..|s| - 1];
      var k := LeadingSpaces(inner);
      assert s[1 + k..|s| - 1] == inner[k..];
      inner[k..]
    else
      assert s[0..|s|] == s;
      s
  }

  lemma InfixTrans(r: string, s: string, t: string)
    requires Infix(r, s) && Infix(s, t)
    ensures Infix(r, t)
  {
    var i, j :| 0 <= i <= j <= |s| && s[i..j] == r;
    var k, l :| 0 <= k <= l <= |t| && t[k..l] == s;
    SliceOfSlice(t, k, l, i, j);
    assert 0 <= k + i <= k + j <= |t| && t[k + i..k + j] == r;
  }

  lemma SliceOfSlice(t: string, k: nat, l: nat, i: nat, j: nat)
    requires k <= l <= |t| && i <= j <= l - k
    ensures t[k..l][i..j] == t[k + i..k + j]
  {
    assert forall m :: 0 <= m < j - i ==> t[k..l][i..j][m] == t[k + i + m];
  }

  lemma InfixNoAdjacent(r: string, s: string)
    requires Infix(r, s) && NoAdjacentQuotes(s)
    ensures NoAdjacentQuotes(r)
  {
    var i, j :| 0 <= i <= j <= |s| && s[i..j] == r;
    forall k | 0 < k < |r|
      ensures !(r[k - 1] == '"' && r[k] == '"')
    {
      assert r[k - 1] == s[i + k - 1] && r[k] == s[i + k];
    }
  }

  /** `clean_val` on a value without line breaks: collapse quote runs, trim white space at both
      ends, then strip one pair of enclosing quotes. */
  function CleanLine(s: string): (r: string)
    requires '\n' !in s
    ensures NoAdjacentQuotes(r)
    ensures Infix(r, CollapseQuotes(s))
  {
    var c := CollapseQuotes(s);
    var r := Unwrap(Trim(c));
    InfixTrans(r, Trim(c), c);
    InfixNoAdjacent(r, c);
    r
  }

  /** `Article.clean_val`: nil stays nil; a string is cleaned line by line. */
  function CleanVal(val: Option<string>): (r: Option<string>)
    requires val.Some? ==> '\n' !in val.value
    ensures r.Some? <==> val.Some?
    ensures r.Some? ==> NoAdjacentQuotes(r.value) && Infix(r.value, CollapseQuotes(val.value))
  {
    match val
    case None => None
    case Some(s) => Some(CleanLine(s))
  }

  /** A value that is already clean (one line, no double quotes, trimmed) is left unchanged. */
  lemma CleanValKeepsCleanValue(s: string)
    requires '\n' !in s && '"' !in s && Trimmed(s)
    ensures CleanVal(Some(s)) == Some(s)
  {
    CollapseUnquotedPrefix(s, "");
    assert s + "" == s;
    if |s| > 0 {
      assert LeadingSpaces(s) == 0;
      assert s[0..] == s;
      assert TrailingSpaces(s) == 0;
      assert s[0] != '"' by { assert s[0] in s; }
    }
  }

  /** A trimmed, quote-free value wrapped in double quotes comes back without them, the repair
      the cleanup exists for. */
  lemma CleanValUnwraps(x: string)
    requires |x| > 0 && '"' !in x && '\n' !in x && Trimmed(x)
    ensures CleanVal(Some("\"" + x + "\"")) == Some(x)
  {
    var s := "\"" + x + "\"";
    assert s[1..] == x + "\"";
    assert QuoteRun(s) == 1 by { assert s[1] == x[0]; assert x[0] in x; }
    CollapseUnquotedPrefix(x, "\"");
    assert CollapseQuotes("\"") == "\"" by { assert "\""[1..] == ""; }
    assert CollapseQuotes(s) == s;
    assert LeadingSpaces(s) == 0;
    assert s[0..] == s;
    assert TrailingSpaces(s) == 0;
    assert Trim(s) == s;
    assert s[1..|s| - 1] == x;
    assert LeadingSpaces(x) == 0;
    assert x[0..] == x;
  }

  /** Some sections have a position and some do not: `sort_by` then compares nil with an
      integer, which raises. */
  predicate MixedPositions(sections: seq<Section>) {
    (exists s :: s in sections && s.position.None?) && (exists s :: s in sections && s.position.Some?)
  }

  /** `first_section`: an `EmptySection` when there are no sections; otherwise the first
      section of `sort_by { |s| s.position }`, which raises when nil and integer positions are
      mixed. It is one of least position when all have one, and a section without position
      when none has one. */
  function FirstSectionOf(sections: seq<Section>): (r: Result<FirstSection>)
    ensures r.Raise? <==> MixedPositions(sections)
    ensures r.Ok? ==> (r.value.EmptySection? <==> |sections| == 0)
    ensures r.Ok? && r.value.Found? ==> r.value.section in sections
    ensures r.Ok? && r.value.Found? ==> forall s :: s in sections && s.position.Some? ==>
      r.value.section.position.Some? && r.value.section.position.value <= s.position.value
  {
    if |sections| == 0 then Ok(EmptySection)
    else if forall s :: s in sections ==> s.position.Some? then Ok(Found(LeastPositioned(sections)))
    else if forall s :: s in sections ==> s.position.None? then Ok(Found(sections[0]))
    else Raise(IncomparablePositions)
  }

  /** A section of least position among sections that all have one. Ruby's `sort_by` is not
      stable, so which of several tied sections comes first is this model's choice. */
  function LeastPositioned(sections: seq<Section>): (r: Section)
    requires |sections| > 0 && forall s :: s in sections ==> s.position.Some?
    ensures r in sections && r.position.Some?
    ensures forall s :: s in sections ==> r.position.value <= s.position.value
    decreases |sections|
  {
    if |sections| == 1 then sections[0]
    else
      assert forall s :: s in sections ==> s == sections[0] || s in sections[1..];
      var rest := LeastPositioned(sections[1..]);
      if sections[0].position.value <= rest.position.value then sections[0] else rest
  }

  /** `first_section_sort_order`: the first section's position, or 9999 when it has none (`nil
      || 9999`) or there is no section (an `EmptySection` carries no position). */
  function FirstSectionSortOrder(sections: seq<Section>): (r: Result<int>)
    ensures r.Raise? <==> MixedPositions(sections)
    ensures (forall s :: s in sections ==> s.position.None?) ==> r == Ok(NoSectionSortOrder)
    ensures r.Ok? && (exists s :: s in sections && s.position.Some?) ==>
      (exists s :: s in sections && s.position == Some(r.value))
      && forall s :: s in sections && s.position.Some? ==> r.value <= s.position.value
  {
    var first :- FirstSectionOf(sections);
    match first
    case EmptySection => Ok(NoSectionSortOrder)
    case Found(s) => Ok(s.position.GetOr(NoSectionSortOrder))
  }

  /** The sort order does not depend on the order the sections are listed in. */
  lemma SortOrderIgnoresListing(a: seq<Section>, b: seq<Section>)
    requires multiset(a) == multiset(b)
    ensures FirstSectionSortOrder(a) == FirstSectionSortOrder(b)
  {
    forall s ensures s in a <==> s in b {
      assert s in a <==> s in multiset(a);
      assert s in b <==> s in multiset(b);
    }
    SortOrderByMembers(a, b);
  }

  /** Nor on how often a section is listed: the sections present decide it. */
  lemma {:induction false} SortOrderByMembers(a: seq<Section>, b: seq<Section>)
    requires forall s :: s in a <==> s in b
    ensures FirstSectionSortOrder(a) == FirstSectionSortOrder(b)
  {
    var ra := FirstSectionSortOrder(a);
    var rb := FirstSectionSortOrder(b);
    assert |a| == 0 <==> |b| == 0 by {
      if |a| > 0 {
        assert a[0] in b;
      }
      if |b| > 0 {
        assert b[0] in a;
      }
    }
    if ra.Ok? && rb.Ok? && exists s :: s in a && s.position.Some? {
      var sa :| sa in a && sa.position == Some(ra.value);
      var sb :| sb in b && sb.position == Some(rb.value);
      assert sa in b && sb in a;
    }
  }

  /** `sortable_name`: blank (or nil) names sort as "ZZZZ", others as themselves. */
  function SortableName(name: Option<string>): (r: string)
    ensures !Present(name) ==> r == BlankNameSortKey
    ensures Present(name) ==> r == name.value
    ensures !Blank(r)
  {
    if !Present(name) then
      assert !IsWhiteSpace(BlankNameSortKey[0]);
      BlankNameSortKey
    else name.value
  }

  /** `image?`: an article is never an image. */
  function IsImage(): (r: bool)
    ensures !r
  {
    false
  }
}

=== FILE: editor_page_contents.dfy ===
/** Drafting and publishing the per-locale content of an editor page
    (app/controllers/admin/editor_page_contents_controller.rb). */
module EditorPageContents {
  import opened Wrappers
  import opened Strings

  type Locale = string

  datatype ContentStatus = Draft | Published

  datatype PageContent = PageContent(title: Option<string>, content: Option<string>, locale: Locale,
                                     status: ContentStatus)

  /** An editor page: its name, and at most one draft and one published content per locale. */
  datatype EditorPage = EditorPage(name: string, drafts: map<Locale, PageContent>,
                                   published: map<Locale, PageContent>)

  /** The permitted `editor_page_content` parameters; an absent key leaves the field alone. */
  datatype ContentParams = ContentParams(title: Option<string>, content: Option<string>)

  /** Where a request ends. */
  datatype Response = PreviewRedirect | PagesRedirect | RenderDraft

  /** A `find_*` lookup that finds nothing raises. */
  const NotFound: string := "Couldn't find EditorPageContent"

  /** Well-formed pages file each content under its own locale, with its own status. */
  predicate Filed(p: EditorPage) {
    (forall l :: l in p.drafts ==> p.drafts[l].locale == l && p.drafts[l].status == Draft)
    && (forall l :: l in p.published ==> p.published[l].locale == l && p.published[l].status == Published)
  }

  /** `draft`: the locale's draft if there is one; otherwise a new content titled with the page
      name which, for a non-default locale, starts from the default locale's draft (its content,
      and its title when present). */
  function DraftFor(p: EditorPage, locale: Locale, defaultLocale: Locale): (c: PageContent)
    ensures locale in p.drafts ==> c == p.drafts[locale]
    ensures locale !in p.drafts && (locale == defaultLocale || defaultLocale !in p.drafts) ==>
      c.title == Some(p.name) && c.content.None?
    ensures locale !in p.drafts && locale != defaultLocale && defaultLocale in p.drafts ==>
      c.content == p.drafts[defaultLocale].content
      && c.title == (if Present(p.drafts[defaultLocale].title) then p.drafts[defaultLocale].title else Some(p.name))
  {
    if locale in p.drafts then p.drafts[locale]
    else
      var blank := PageContent(Some(p.name), None, locale, Draft);
      if locale != defaultLocale && defaultLocale in p.drafts then
        var base := p.drafts[defaultLocale];
        blank.(content := base.content, title := if Present(base.title) then base.title else blank.title)
      else blank
  }

  /** Applying the submitted parameters to a content: a submitted field replaces the
      content's, an absent one leaves it, and locale and status never change. */
  function Apply(c: PageContent, ps: ContentParams): (a: PageContent)
    ensures a.locale == c.locale && a.status == c.status
    ensures ps.title.Some? ==> a.title == ps.title
    ensures ps.title.None? ==> a.title == c.title
    ensures ps.content.Some? ==> a.content == ps.content
    ensures ps.content.None? ==> a.content == c.content
  {
    c.(title := if ps.title.Some? then ps.title else c.title,
       content := if ps.content.Some? then ps.content else c.content)
  }

  /** Submitting the same parameters twice has the effect of submitting them once, and
      submitting none changes nothing. */
  lemma ApplyIdempotent(c: PageContent, ps: ContentParams)
    ensures Apply(Apply(c, ps), ps) == Apply(c, ps)
    ensures Apply(c, ContentParams(None, None)) == c
  {
  }

  /** `publish_current_draft`: the locale's draft, copied and marked published, replaces whatever
      was published for that locale; the draft stays. */
  function PublishCurrentDraft(p: EditorPage, locale: Locale): (r: Result<EditorPage>)
    ensures r.Ok? <==> locale in p.drafts
    ensures r.Ok? ==> r.value.name == p.name && r.value.drafts == p.drafts
    ensures r.Ok? ==> (locale in r.value.published
      && r.value.published[locale] == p.drafts[locale].(status := Published))
    ensures r.Ok? ==> forall l :: l != locale ==>
      (l in r.value.published <==> l in p.published)
      && (l in p.published ==> r.value.published[l] == p.published[l])
    ensures r.Ok? && Filed(p) ==> Filed(r.value)
  {
    if locale !in p.drafts then Raise(NotFound)
    else
      var copy := p.drafts[locale].(status := Published);
      Ok(p.(published := p.published[locale := copy]))
  }

  /** Publishing again without editing the draft changes nothing. */
  lemma PublishIdempotent(p: EditorPage, locale: Locale)
    requires locale in p.drafts
    ensures PublishCurrentDraft(PublishCurrentDraft(p, locale).value, locale) == PublishCurrentDraft(p, locale)
  {
    var copy := p.drafts[locale].(status := Published);
    assert p.published[locale := copy][locale := copy] == p.published[locale := copy];
  }

  /** `unpublish`: the locale's published content is destroyed; there must be one. */
  function Unpublish(p: EditorPage, locale: Locale): (r: Result<EditorPage>)
    ensures r.Ok? <==> locale in p.published
    ensures r.Ok? ==> r.value.drafts == p.drafts && r.value.published == p.published - {locale}
  {
    if locale !in p.published then Raise(NotFound)
    else Ok(p.(published := p.published - {locale}))
  }

  /** Unpublishing right after publishing leaves the locale unpublished and everything else as it
      was before. */
  lemma UnpublishUndoesPublish(p: EditorPage, locale: Locale)
    requires locale in p.drafts
    ensures var q := PublishCurrentDraft(p, locale).value;
      Unpublish(q, locale) == Ok(p.(published := p.published - {locale}))
  {
    var q := PublishCurrentDraft(p, locale).value;
    assert q.published - {locale} == p.published - {locale};
  }

  /** `save_draft`: update the locale's draft, or create one with that locale and draft status;
      `saved` is whether validation let the save through. When it did, publish if asked with
      `publish` == "true", otherwise go to the preview; when it did not, show the form again. */
  function SaveDraft(p: EditorPage, locale: Locale, ps: ContentParams, saved: bool, publish: Option<string>)
    : (r: (EditorPage, Response))
    ensures !saved ==> r == (p, RenderDraft)
    ensures saved && publish != Some("true") ==> r.1 == PreviewRedirect && r.0.published == p.published
    ensures saved ==> (locale in r.0.drafts && r.0.drafts == p.drafts[locale := r.0.drafts[locale]]
      && r.0.drafts[locale].status == (if locale in p.drafts then p.drafts[locale].status else Draft))
    ensures saved ==> r.0.drafts[locale].locale == (if locale in p.drafts then p.drafts[locale].locale else locale)
    ensures saved ==> (r.0.drafts[locale].title ==
      if ps.title.Some? then ps.title else if locale in p.drafts then p.drafts[locale].title else None)
    ensures saved ==> (r.0.drafts[locale].content ==
      if ps.content.Some? then ps.content else if locale in p.drafts then p.drafts[locale].content else None)
    ensures saved && publish == Some("true") ==> (r.1 == PagesRedirect
      && r.0.published == p.published[locale := r.0.drafts[locale].(status := Published)])
  {
    if !saved then (p, RenderDraft)
    else
      var draft := if locale in p.drafts then Apply(p.drafts[locale], ps)
        else Apply(PageContent(None, None, locale, Draft), ps);
      var q := p.(drafts := p.drafts[locale := draft]);
      if publish == Some("true") then (PublishCurrentDraft(q, locale).value, PagesRedirect)
      else (q, PreviewRedirect)
  }

  /** Saving keeps pages well-formed, and nothing is published unless it was asked for. */
  lemma SaveDraftKeepsFiled(p: EditorPage, locale: Locale, ps: ContentParams, saved: bool, publish: Option<string>)
    requires Filed(p)
    ensures var r := SaveDraft(p, locale, ps, saved, publish);
      Filed(r.0) && (r.0.published != p.published ==> saved && publish == Some("true"))
  {
    var r := SaveDraft(p, locale, ps, saved, publish);
    if saved {
      var q := p.(drafts := r.0.drafts);
      assert Filed(q);
    }
  }
}

=== FILE: hash_params.dfy ===
/** `EOL.parseHashParams`: reading key/value pairs from the URL fragment
    (app/webpacker/src/main.js). */
module HashParams {
  import opened Wrappers
  import opened Strings

  /** The parsed parameters: `None` stands for JavaScript's `undefined`. */
  type Params = map<string, Option<string>>

  /** `s.replace('#', '')`: only the first '#' goes. */
  function RemoveFirst(s: string, c: char): (r: string)
    ensures c !in s ==> r == s
    ensures c in s ==> |r| == |s| - 1 && exists i :: 0 <= i <= |r| && s == r[..i] + [c] + r[i..] && c !in r[..i]
  {
    if c in s then
      var i := IndexOf(s, c);
      var r := s[..i] + s[i + 1..];
      assert r[..i] == s[..i] && r[i..] == s[i + 1..];
      assert s == r[..i] + [c] + r[i..];
      r
    else s
  }

  /** `pair.split('=')[0]`. */
  function Key(segment: string): string {
    Split(segment, '=')[0]
  }

  /** `pair.split('=')[1]`: undefined when the segment has no '='. */
  function Value(segment: string): Option<string> {
    var parts := Split(segment, '=');
    if |parts| > 1 then Some(parts[1]) else None
  }

  /** A segment read as `keyAndVal[0]` and `keyAndVal[1]`. */
  type Pair = (string, Option<string>)

  /** Every segment's key and value, in order. */
  function Pairs(segments: seq<string>): (ps: seq<Pair>)
    ensures |ps| == |segments|
    ensures forall i :: 0 <= i < |segments| ==> ps[i] == (Key(segments[i]), Value(segments[i]))
  {
    seq(|segments|, i requires 0 <= i < |segments| => (Key(segments[i]), Value(segments[i])))
  }

  /** Assigning every pair in turn, so a later one overwrites an earlier one. */
  function Collect(pairs: seq<Pair>): Params
    decreases |pairs|
  {
    if |pairs| == 0 then map[]
    else
      var last := pairs[|pairs| - 1];
      Collect(pairs[..|pairs| - 1])[last.0 := last.1]
  }

  /** The '&'-separated segments of a non-empty fragment. */
  function Segments(hash: string): seq<string> {
    Split(RemoveFirst(hash, '#'), '&')
  }

  /** `EOL.parseHashParams` on `window.location.hash`: nothing for an empty fragment;
      otherwise exactly the keys the '&'-separated segments name, each holding the value
      of the last segment that names it. */
  function ParseHashParams(hash: string): (ps: Params)
    ensures |hash| == 0 ==> ps == map[]
    ensures forall k :: k in ps <==> |hash| > 0 && exists i :: 0 <= i < |Segments(hash)| && Key(Segments(hash)[i]) == k
    ensures forall i :: |hash| > 0 && 0 <= i < |Segments(hash)| && LastNaming(Segments(hash), i) ==>
      Key(Segments(hash)[i]) in ps && ps[Key(Segments(hash)[i])] == Value(Segments(hash)[i])
  {
    if |hash| == 0 then map[]
    else
      var segs := Segments(hash);
      var pairs := Pairs(segs);
      SegmentKeys(segs);
      forall i | 0 <= i < |segs| && LastNaming(segs, i)
        ensures Key(segs[i]) in Collect(pairs) && Collect(pairs)[Key(segs[i])] == Value(segs[i])
      {
        LastSegmentWins(segs, i);
      }
      Collect(pairs)
  }

  /** The keys collected from the segments' pairs are the keys the segments name. */
  lemma {:induction false} SegmentKeys(segs: seq<string>)
    ensures forall k :: k in Collect(Pairs(segs)) <==> exists i :: 0 <= i < |segs| && Key(segs[i]) == k
  {
    var pairs := Pairs(segs);
    CollectKeys(pairs);
    forall k
      ensures k in Collect(pairs) <==> exists i :: 0 <= i < |segs| && Key(segs[i]) == k
    {
      if k in Collect(pairs) {
        var i :| 0 <= i < |pairs| && pairs[i].0 == k;
        assert Key(segs[i]) == k;
      }
      if exists i :: 0 <= i < |segs| && Key(segs[i]) == k {
        var i :| 0 <= i < |segs| && Key(segs[i]) == k;
        assert pairs[i].0 == k;
      }
    }
  }

  /** The last segment naming a key gives that key its value. */
  lemma {:induction false} LastSegmentWins(segs: seq<string>, i: nat)
    requires i < |segs| && LastNaming(segs, i)
    ensures Key(segs[i]) in Collect(Pairs(segs)) && Collect(Pairs(segs))[Key(segs[i])] == Value(segs[i])
  {
    var pairs := Pairs(segs);
    forall j | i < j < |pairs|
      ensures pairs[j].0 != pairs[i].0
    {
      assert pairs[j].0 == Key(segs[j]);
    }
    LastOccurrenceWins(pairs, i);
  }

  /** No later segment names the same key as segment i. */
  predicate LastNaming(segments: seq<string>, i: nat)
    requires i < |segments|
  {
    forall j :: i < j < |segments| ==> Key(segments[j]) != Key(segments[i])
  }

  /** An empty fragment gives no parameters; a non-empty one always gives at least one. */
  lemma EmptyHashGivesNothing(hash: string)
    ensures ParseHashParams(hash) == map[] <==> |hash| == 0
  {
    if |hash| > 0 {
      CollectNonEmpty(Pairs(Segments(hash)));
    }
  }

  lemma CollectNonEmpty(pairs: seq<Pair>)
    requires |pairs| > 0
    ensures Collect(pairs) != map[]
  {
    assert pairs[|pairs| - 1].0 in Collect(pairs);
  }

  /** Only the leading '#' is dropped: any later '#' stays part of a key or value. */
  lemma OnlyFirstHashRemoved(rest: string)
    ensures Segments("#" + rest) == Split(rest, '&')
  {
    var s := "#" + rest;
    assert s[0] == '#';
    assert IndexOf(s, '#') == 0;
    assert s[1..] == rest;
    assert RemoveFirst(s, '#') == rest;
  }

  /** Exactly the keys the pairs name are present. */
  lemma {:induction false} CollectKeys(pairs: seq<Pair>)
    ensures forall k :: k in Collect(pairs) <==> exists i :: 0 <= i < |pairs| && pairs[i].0 == k
    decreases |pairs|
  {
    if |pairs| > 0 {
      var n := |pairs| - 1;
      var init := pairs[..n];
      CollectKeys(init);
      forall k
        ensures k in Collect(pairs) <==> exists i :: 0 <= i < |pairs| && pairs[i].0 == k
      {
        if k in Collect(init) {
          var i :| 0 <= i < |init| && init[i].0 == k;
          assert pairs[i] == init[i];
        }
        if exists i :: 0 <= i < |pairs| && pairs[i].0 == k {
          var i :| 0 <= i < |pairs| && pairs[i].0 == k;
          if i < n {
            assert init[i] == pairs[i];
          }
        }
      }
    }
  }

  /** A key holds the value of the last pair that names it. */
  lemma {:induction false} LastOccurrenceWins(pairs: seq<Pair>, i: nat)
    requires i < |pairs|
    requires forall j :: i < j < |pairs| ==> pairs[j].0 != pairs[i].0
    ensures pairs[i].0 in Collect(pairs)
    ensures Collect(pairs)[pairs[i].0] == pairs[i].1
    decreases |pairs|
  {
    var n := |pairs| - 1;
    if i < n {
      var init := pairs[..n];
      assert init[i] == pairs[i];
      forall j | i < j < |init|
        ensures init[j].0 != init[i].0
      {
        assert init[j] == pairs[j];
      }
      LastOccurrenceWins(init, i);
    }
  }

  /** The key is the text before the first '=' (all of it when there is none), and the value
      the text between the first and the second '=' (to the end when there is no second). */
  lemma KeyAndValue(segment: string)
    ensures '=' !in segment ==> Key(segment) == segment && Value(segment).None?
    ensures '=' in segment ==>
      var i := IndexOf(segment, '=');
      var after := segment[i + 1..];
      Key(segment) == segment[..i]
      && Value(segment) == Some(if '=' in after then after[..IndexOf(after, '=')] else after)
  {
    if '=' in segment {
      var i := IndexOf(segment, '=');
      var after := segment[i + 1..];
      if '=' in after {
        var j := IndexOf(after, '=');
        assert Split(after, '=')[0] == after[..j];
      }
    }
  }
}

=== FILE: import_log.dfy ===
/** The per-resource import log of the publishing pipeline (app/models/import_log.rb):
    a status record with a small state machine (running, completed, failed, and the
    administrative "all clear"), an append-only event list that splits long messages
    into overlapping chunks, and the run guard that refuses to start a second run.

    Database rows are values: a log is an `ImportLog`, the tables the guard inspects are
    sequences, and `now` is a parameter. */
module ImportLogs {
  import opened Wrappers
  import opened Strings

  /** Longest event body the log accepts in one piece. */
  const ChunkSize: nat := 65500
  /** `error[0..250]` keeps this many characters. */
  const StatusLimit: nat := 251

  const RunningStatus := "currently running"
  const CompletedStatus := "completed"
  const StoppedStatus := "stopped"
  const ClearHint := "rake publish:clear if you are SURE these are in an acceptable state."
  const ActiveRunMessage := "A Publishing run appears to be active. " + ClearHint
  const BusyPrefix := "Currently publishing: "
  const UpdateTooLong := "Updates limited to 65,500 characters"
  const NoLastEvent := "undefined method `updates?' for nil"

  datatype Category = Starts | Infos | Warns | Errors | Updates | Ends

  datatype Event = Event(cat: Category, body: string)

  datatype ImportLog = ImportLog(
    id: nat,
    resourceId: nat,
    status: string,
    completedAt: Option<int>,
    failedAt: Option<int>,
    destroyed: bool,
    events: seq<Event>)

  /** An `ImportRun` row: only its completion time matters to the guard. */
  datatype ImportRun = ImportRun(id: nat, completedAt: Option<int>)

  // ---------------------------------------------------------------------------
  // Chunking

  /** `chop_into_text_chunks`: while more than 65,500 characters remain, emit the next
      65,501 characters and continue from the 65,500th, so consecutive chunks share one
      character. */
  function ChopIntoTextChunks(s: string): (chunks: seq<string>)
    ensures |chunks| >= 1
    ensures forall i :: 0 <= i < |chunks| ==> |chunks[i]| <= ChunkSize + 1
    ensures forall i :: 0 <= i < |chunks| - 1 ==> |chunks[i]| == ChunkSize + 1
    ensures |chunks[|chunks| - 1]| <= ChunkSize
    ensures |s| > 0 ==> forall i :: 0 <= i < |chunks| ==> |chunks[i]| > 0
    ensures chunks[0] == s[..if |s| > ChunkSize then ChunkSize + 1 else |s|]
    decreases |s|
  {
    if |s| > ChunkSize then [s[..ChunkSize + 1]] + ChopIntoTextChunks(s[ChunkSize..])
    else [s]
  }

  /** max(1, ceil(n / 65500)). */
  function ChunkCount(n: nat): nat {
    if n == 0 then 1 else (n + ChunkSize - 1) / ChunkSize
  }

  lemma {:induction false} ChunkCountCorrect(s: string)
    ensures |ChopIntoTextChunks(s)| == ChunkCount(|s|)
    decreases |s|
  {
    if |s| > ChunkSize {
      ChunkCountCorrect(s[ChunkSize..]);
      var n := |s|;
      assert (n + ChunkSize - 1) / ChunkSize == (n - ChunkSize + ChunkSize - 1) / ChunkSize + 1;
    }
  }

  /** A 150,000-character message is stored as exactly three events. */
  lemma ThreeChunksFor150000(s: string)
    requires |s| == 150000
    ensures |ChopIntoTextChunks(s)| == 3
  {
    ChunkCountCorrect(s);
  }

  function DropFirst(c: string): string {
    if |c| == 0 then "" else c[1..]
  }

  function DropFirsts(chunks: seq<string>): string {
    if |chunks| == 0 then "" else DropFirst(chunks[0]) + DropFirsts(chunks[1..])
  }

  /** The inverse of the chunking: the first chunk whole, then every later chunk
      without the character it shares with its predecessor. */
  function Rejoin(chunks: seq<string>): string {
    if |chunks| == 0 then "" else chunks[0] + DropFirsts(chunks[1..])
  }

  /** Gluing a chunk that starts with the character at `k` onto `s[..k + 1]` without that
      character is gluing it onto `s[..k]`. */
  lemma SharedCharacter(s: string, k: nat, u: string)
    requires k < |s| && |u| > 0 && u[0] == s[k]
    ensures s[..k + 1] + u[1..] == s[..k] + u
  {
    assert s[..k + 1] == s[..k] + [u[0]];
    assert u == [u[0]] + u[1..];
  }

  /** `Rejoin` on a first chunk followed by the rest. */
  lemma RejoinCons(c: string, cs: seq<string>)
    requires |cs| > 0
    ensures Rejoin([c] + cs) == c + DropFirst(cs[0]) + DropFirsts(cs[1..])
    ensures Rejoin(cs) == cs[0] + DropFirsts(cs[1..])
  {
    assert ([c] + cs)[1..] == cs;
  }

  lemma ChopStep(s: string)
    requires |s| > ChunkSize
    ensures ChopIntoTextChunks(s) == [s[..ChunkSize + 1]] + ChopIntoTextChunks(s[ChunkSize..])
  {
  }

  lemma ChopHead(t: string)
    requires |t| > 0
    ensures |ChopIntoTextChunks(t)[0]| > 0 && ChopIntoTextChunks(t)[0][0] == t[0]
  {
  }

  /** Gluing a chunk that overlaps its predecessor by one character. */
  lemma RejoinGlue(s: string, k: nat, cs: seq<string>)
    requires k < |s| && |cs| > 0 && |cs[0]| > 0 && cs[0][0] == s[k]
    ensures Rejoin([s[..k + 1]] + cs) == s[..k] + Rejoin(cs)
  {
    RejoinCons(s[..k + 1], cs);
    SharedCharacter(s, k, cs[0]);
  }

  /** One step of the chunking, seen from `Rejoin`. */
  lemma RejoinStep(s: string)
    requires |s| > ChunkSize
    ensures Rejoin(ChopIntoTextChunks(s)) == s[..ChunkSize] + Rejoin(ChopIntoTextChunks(s[ChunkSize..]))
  {
    var t := s[ChunkSize..];
    ChopStep(s);
    ChopHead(t);
    RejoinGlue(s, ChunkSize, ChopIntoTextChunks(t));
  }

  lemma {:induction false} RejoinChop(s: string)
    ensures Rejoin(ChopIntoTextChunks(s)) == s
    decreases |s|
  {
    if |s| > ChunkSize {
      RejoinChop(s[ChunkSize..]);
      RejoinStep(s);
      assert s[..ChunkSize] + s[ChunkSize..] == s;
    }
  }

  // ---------------------------------------------------------------------------
  // Events

  function EventsFor(cat: Category, chunks: seq<string>): (es: seq<Event>)
    ensures |es| == |chunks|
    ensures forall i :: 0 <= i < |es| ==> es[i] == Event(cat, chunks[i])
  {
    seq(|chunks|, i requires 0 <= i < |chunks| => Event(cat, chunks[i]))
  }

  function Bodies(es: seq<Event>): (bs: seq<string>)
    ensures |bs| == |es| && forall i :: 0 <= i < |es| ==> bs[i] == es[i].body
  {
    seq(|es|, i requires 0 <= i < |es| => es[i].body)
  }

  /** `after` keeps `before` as it was and only adds events of category `cat`. */
  predicate AppendsOnly(before: seq<Event>, after: seq<Event>, cat: Category) {
    |after| >= |before| && after[..|before|] == before
    && forall i :: |before| <= i < |after| ==> after[i].cat == cat
  }

  lemma AppendsOnlyTrans(a: seq<Event>, b: seq<Event>, c: seq<Event>, cat: Category)
    requires AppendsOnly(a, b, cat) && AppendsOnly(b, c, cat)
    ensures AppendsOnly(a, c, cat)
  {
    assert c[..|a|] == c[..|b|][..|a|];
  }

  /** `log(body, cat:)`: one event per chunk, in chunk order, all of category `cat`
      (`:starts` when none is given). Earlier events and every other field are kept,
      and the new bodies rejoin to `body`. */
  function Log(l: ImportLog, body: string, cat: Option<Category>): (r: ImportLog)
    ensures r.(events := l.events) == l
    ensures |r.events| >= |l.events| + 1 && AppendsOnly(l.events, r.events, cat.GetOr(Starts))
    ensures Rejoin(Bodies(r.events[|l.events|..])) == body
    ensures |body| <= ChunkSize ==> r.events == l.events + [Event(cat.GetOr(Starts), body)]
  {
    var chunks := ChopIntoTextChunks(body);
    var added := EventsFor(cat.GetOr(Starts), chunks);
    AppendEvents(l.events, added, cat.GetOr(Starts));
    EventsForBodies(cat.GetOr(Starts), chunks);
    RejoinChop(body);
    l.(events := l.events + added)
  }

  lemma AppendEvents(before: seq<Event>, added: seq<Event>, cat: Category)
    requires forall i :: 0 <= i < |added| ==> added[i].cat == cat
    ensures AppendsOnly(before, before + added, cat) && (before + added)[|before|..] == added
  {
  }

  lemma EventsForBodies(cat: Category, chunks: seq<string>)
    ensures Bodies(EventsFor(cat, chunks)) == chunks
  {
  }

  /** `log_update`: too long a body raises; so does a log without events (its last event is
      nil). If the last event is an update only its body changes, otherwise one update
      event is appended. */
  function LogUpdate(l: ImportLog, body: string): (r: Result<ImportLog>)
    ensures r.Ok? <==> |body| <= ChunkSize && |l.events| > 0
    ensures |body| > ChunkSize ==> r == Raise(UpdateTooLong)
    ensures r.Ok? ==> r.value.(events := l.events) == l
    ensures r.Ok? ==> (r.value.events ==
      (if l.events[|l.events| - 1].cat == Updates then l.events[..|l.events| - 1] else l.events) + [Event(Updates, body)])
  {
    if |body| > ChunkSize then Raise(UpdateTooLong)
    else if |l.events| == 0 then Raise(NoLastEvent)
    else
      var n := |l.events|;
      if l.events[n - 1].cat == Updates then Ok(l.(events := l.events[..n - 1] + [Event(Updates, body)]))
      else Ok(l.(events := l.events + [Event(Updates, body)]))
  }

  /** Updates overwrite rather than accumulate: two updates in a row leave the log as the
      second one alone would have. */
  lemma LogUpdateOverwrites(l: ImportLog, a: string, b: string)
    requires LogUpdate(l, a).Ok? && |b| <= ChunkSize
    ensures LogUpdate(LogUpdate(l, a).value, b) == LogUpdate(l, b)
  {
    var n := |l.events|;
    var la := LogUpdate(l, a).value;
    if l.events[n - 1].cat == Updates {
      assert la.events[..n - 1] == l.events[..n - 1];
    } else {
      assert la.events[..n] == l.events;
    }
  }

  // ---------------------------------------------------------------------------
  // Status transitions

  /** `running`: both timestamps cleared, status "currently running", and a 'Running'
      start event appended. */
  function Running(l: ImportLog): (r: ImportLog)
    ensures r.completedAt.None? && r.failedAt.None? && r.status == RunningStatus
    ensures r.events == l.events + [Event(Starts, "Running")]
    ensures r.id == l.id && r.resourceId == l.resourceId && r.destroyed == l.destroyed
  {
    Log(l.(completedAt := None, failedAt := None, status := RunningStatus), "Running", Some(Starts))
  }

  /** `complete`: unless the record is destroyed, status "completed" and a completion
      time; a 'Complete' end event is appended either way. */
  function Complete(l: ImportLog, now: int): (r: ImportLog)
    ensures !l.destroyed ==> r.status == CompletedStatus && r.completedAt == Some(now)
    ensures l.destroyed ==> r.status == l.status && r.completedAt == l.completedAt
    ensures r.failedAt == l.failedAt
    ensures r.events == l.events + [Event(Ends, "Complete")]
  {
    var l1 := if l.destroyed then l else l.(completedAt := Some(now), status := CompletedStatus);
    Log(l1, "Complete", Some(Ends))
  }

  /** Ruby's `error[0..250]`. */
  function Truncated(error: string): (msg: string)
    ensures |msg| <= StatusLimit && IsPrefix(msg, error)
    ensures |error| <= StatusLimit ==> msg == error
  {
    if |error| <= StatusLimit then error else error[..StatusLimit]
  }

  const FailurePreamble := "Manual failure called, process must have died. ("

  /** `fail`: the status becomes the first 251 characters of the message, the failure
      time is set, the completion time is untouched, and one error event is appended. */
  function Fail(l: ImportLog, error: string, now: int): (r: ImportLog)
    ensures r.status == Truncated(error) && r.failedAt == Some(now)
    ensures r.completedAt == l.completedAt && r.id == l.id && r.resourceId == l.resourceId
    ensures r.events == l.events + [Event(Errors, FailurePreamble + Truncated(error) + ")")]
  {
    var msg := Truncated(error);
    Log(l, FailurePreamble + msg + ")", Some(Errors)).(failedAt := Some(now), status := msg)
  }

  // ---------------------------------------------------------------------------
  // fail_on_error: backtrace filtering and message scrubbing

  /** `/kernel_require.rb/`: the unescaped dot matches any character but a newline. */
  function MatchesKernelRequire(t: string): bool
    decreases |t|
  {
    if |t| < 17 then false
    else if t[..14] == "kernel_require" && t[14] != '\n' && t[15..17] == "rb" then true
    else MatchesKernelRequire(t[1..])
  }

  /** Frames after the third are logged only when they mention `publishing` and are
      neither a `bin/rails` nor a `kernel_require.rb` frame. */
  predicate KeepLaterFrame(t: string) {
    !Contains(t, "bin/rails") && !MatchesKernelRequire(t) && Contains(t, "publishing")
  }

  predicate KeepFrame(i: nat, t: string) {
    i <= 2 || KeepLaterFrame(t)
  }

  predicate IsBundlerFrame(t: string) {
    Contains(t, "/bundler")
  }

  /** Index of the first frame containing `/bundler`, where the walk stops; |rev| if there is none. */
  function FirstBundler(rev: seq<string>): (k: nat)
    ensures k <= |rev|
    ensures k < |rev| ==> IsBundlerFrame(rev[k])
    ensures forall j :: 0 <= j < k ==> !IsBundlerFrame(rev[j])
  {
    if |rev| == 0 then 0
    else if IsBundlerFrame(rev[0]) then 0
    else 1 + FirstBundler(rev[1..])
  }

  predicate StrictlyIncreasing(xs: seq<nat>) {
    forall i, j :: 0 <= i < j < |xs| ==> xs[i] < xs[j]
  }

  /** The walk of `each_with_index` from index `j` up to the stop index. */
  function SelectFrom(rev: seq<string>, j: nat, stop: nat): (idx: seq<nat>)
    requires stop <= |rev| && j <= stop
    ensures StrictlyIncreasing(idx)
    ensures forall i :: 0 <= i < |idx| ==> j <= idx[i] < stop
    ensures forall k :: j <= k < stop ==> (k in idx <==> KeepFrame(k, rev[k]))
    decreases stop - j
  {
    if j == stop then []
    else if KeepFrame(j, rev[j]) then [j] + SelectFrom(rev, j + 1, stop)
    else SelectFrom(rev, j + 1, stop)
  }

  /** Indices, in the reversed backtrace, of the frames `fail_on_error` logs. */
  function LoggedFrameIndices(rev: seq<string>): (idx: seq<nat>)
    ensures StrictlyIncreasing(idx)
    ensures forall i :: 0 <= i < |idx| ==> idx[i] < FirstBundler(rev)
    ensures forall k :: 0 <= k < FirstBundler(rev) ==> (k in idx <==> KeepFrame(k, rev[k]))
  {
    SelectFrom(rev, 0, FirstBundler(rev))
  }

  /** The first three frames the walk visits are always logged. */
  lemma FirstThreeFramesLogged(rev: seq<string>, k: nat)
    requires k <= 2 && k < FirstBundler(rev)
    ensures k in LoggedFrameIndices(rev)
  {
  }

  function Reverse<T>(s: seq<T>): (r: seq<T>)
    ensures |r| == |s| && forall i :: 0 <= i < |s| ==> r[i] == s[|s| - 1 - i]
  {
    seq(|s|, i requires 0 <= i < |s| => s[|s| - 1 - i])
  }

  /** `m` occurs in `s` ending just before index `e`. */
  predicate EndsAt(s: string, m: string, e: int) {
    |m| <= e <= |s| && s[e - |m|..e] == m
  }

  /** End of the last occurrence of `m` that ends at or before `j`. */
  function LastEndFrom(s: string, m: string, j: nat): (k: Option<nat>)
    requires |m| > 0 && j <= |s|
    ensures k.Some? ==> k.value <= j && EndsAt(s, m, k.value)
    ensures forall e :: (if k.Some? then k.value else 0) < e <= j ==> !EndsAt(s, m, e)
    decreases j
  {
    if j < |m| then None
    else if s[j - |m|..j] == m then Some(j)
    else LastEndFrom(s, m, j - 1)
  }

  /** `gsub(/^.*marker/, repl)` on a one-line frame: everything up to and including the last
      occurrence of the marker becomes `repl`; a frame without the marker is unchanged. */
  function StripThrough(t: string, marker: string, repl: string): (r: string)
    requires |marker| > 0
    ensures LastEndFrom(t, marker, |t|).None? ==> r == t
    ensures LastEndFrom(t, marker, |t|).Some? ==>
      var k := LastEndFrom(t, marker, |t|).value; r == repl + t[k..]
  {
    match LastEndFrom(t, marker, |t|)
    case None => t
    case Some(k) => repl + t[k..]
  }

  /** The three path rewrites applied to each logged frame. */
  function RewriteFrame(t: string): string {
    StripThrough(StripThrough(StripThrough(t, "/gems/", "gem:"), "/ruby/", "ruby:"), "/publishing/", "./")
  }

  predicate IsWordChar(c: char) {
    ('a' <= c <= 'z') || ('A' <= c <= 'Z') || ('0' <= c <= '9') || c == '_'
  }

  predicate IsHexDigit(c: char) {
    ('0' <= c <= '9') || ('a' <= c <= 'f')
  }

  /** Length of the longest prefix of `s` made of word characters (`\w+` greedy). */
  function WordRun(s: string): (n: nat)
    ensures n <= |s| && (forall i :: 0 <= i < n ==> IsWordChar(s[i])) && (n < |s| ==> !IsWordChar(s[n]))
  {
    if |s| == 0 || !IsWordChar(s[0]) then 0 else 1 + WordRun(s[1..])
  }

  /** Length of the longest prefix of lower-case hexadecimal digits. */
  function HexRun(s: string): (n: nat)
    ensures n <= |s| && (forall i :: 0 <= i < n ==> IsHexDigit(s[i])) && (n < |s| ==> !IsHexDigit(s[n]))
  {
    if |s| == 0 || !IsHexDigit(s[0]) then 0 else 1 + HexRun(s[1..])
  }

  /** A match of `#<(\w+):0x[0-9a-f]+>` at the start of `s`: the captured name and the
      length of the match. Since neither run can be followed by a character of its own
      class, the greedy runs are the only way to match. */
  function MatchAddress(s: string): (m: Option<(string, nat)>)
    ensures m.Some? ==> 0 < |m.value.0| < m.value.1 <= |s| && s[0] == '#'
  {
    if |s| < 2 || s[..2] != "#<" then None
    else
      var w := WordRun(s[2..]);
      var rest := s[2 + w..];
      if w == 0 || |rest| < 3 || rest[..3] != ":0x" then None
      else
        var h := HexRun(rest[3..]);
        if h == 0 || 3 + h >= |rest| || rest[3 + h] != '>' then None
        else Some((s[2..2 + w], 2 + w + 3 + h + 1))
  }

  /** `gsub(/#<(\w+):0x[0-9a-f]+>/, '\1')`: every inspected object becomes its class name. */
  function ScrubAddresses(s: string): (r: string)
    ensures |r| <= |s|
    decreases |s|
  {
    if |s| == 0 then ""
    else match MatchAddress(s)
      case Some(m) => m.0 + ScrubAddresses(s[m.1..])
      case None => [s[0]] + ScrubAddresses(s[1..])
  }

  lemma {:induction false} ScrubWithoutHashIsIdentity(s: string)
    requires '#' !in s
    ensures ScrubAddresses(s) == s
    decreases |s|
  {
    if |s| > 0 {
      assert s == [s[0]] + s[1..];
      ScrubWithoutHashIsIdentity(s[1..]);
    }
  }

  /** `#<Name:0xhex>` becomes `Name`. */
  lemma ScrubObjectInspection(name: string, hex: string)
    requires |name| > 0 && forall i :: 0 <= i < |name| ==> IsWordChar(name[i])
    requires |hex| > 0 && forall i :: 0 <= i < |hex| ==> IsHexDigit(hex[i])
    ensures ScrubAddresses("#<" + name + ":0x" + hex + ">") == name
  {
    var s := "#<" + name + ":0x" + hex + ">";
    MatchObjectInspection(name, hex);
    assert ScrubAddresses(s) == name + ScrubAddresses(s[|s|..]);
    assert s[|s|..] == "";
  }

  lemma MatchObjectInspection(name: string, hex: string)
    requires |name| > 0 && forall i :: 0 <= i < |name| ==> IsWordChar(name[i])
    requires |hex| > 0 && forall i :: 0 <= i < |hex| ==> IsHexDigit(hex[i])
    ensures var s := "#<" + name + ":0x" + hex + ">"; MatchAddress(s) == Some((name, |s|))
  {
    var tail2 := hex + ">";
    var tail1 := ":0x" + tail2;
    var mid := name + tail1;
    var s := "#<" + mid;
    assert s == "#<" + name + ":0x" + hex + ">";
    WordRunOf(name, tail1);
    HexRunOf(hex, ">");
    MatchAddressAt(s, mid, name, tail1, tail2, hex);
  }

  /** The match of `#<(\w+):0x[0-9a-f]+>` read off the pieces of an inspected object. */
  lemma MatchAddressAt(s: string, mid: string, name: string, tail1: string, tail2: string, hex: string)
    requires s == "#<" + mid && mid == name + tail1 && tail1 == ":0x" + tail2 && tail2 == hex + ">"
    requires |name| > 0 && WordRun(mid) == |name|
    requires |hex| > 0 && HexRun(tail2) == |hex|
    ensures MatchAddress(s) == Some((name, |s|))
  {
    assert s[..2] == "#<" && s[2..] == mid;
    assert s[2 + |name|..] == tail1;
    assert tail1[..3] == ":0x" && tail1[3..] == tail2;
    assert tail1[3 + |hex|] == '>';
    assert s[2..2 + |name|] == name;
  }

  lemma {:induction false} WordRunOf(w: string, tail: string)
    requires forall i :: 0 <= i < |w| ==> IsWordChar(w[i])
    requires |tail| > 0 && !IsWordChar(tail[0])
    ensures WordRun(w + tail) == |w|
  {
    if |w| > 0 {
      assert (w + tail)[1..] == w[1..] + tail;
      WordRunOf(w[1..], tail);
    }
  }

  lemma {:induction false} HexRunOf(h: string, tail: string)
    requires forall i :: 0 <= i < |h| ==> IsHexDigit(h[i])
    requires |tail| > 0 && !IsHexDigit(tail[0])
    ensures HexRun(h + tail) == |h|
  {
    if |h| > 0 {
      assert (h + tail)[1..] == h[1..] + tail;
      HexRunOf(h[1..], tail);
    }
  }

  /** The error events logging each of `frames` in turn appends: every frame's chunks,
      frame after frame. */
  function FrameEvents(frames: seq<string>): seq<Event>
    decreases |frames|
  {
    if |frames| == 0 then []
    else EventsFor(Errors, ChopIntoTextChunks(frames[0])) + FrameEvents(frames[1..])
  }

  /** Frames no longer than a chunk are logged one event each. */
  lemma {:induction false} ShortFramesOneEventEach(frames: seq<string>)
    requires forall i :: 0 <= i < |frames| ==> |frames[i]| <= ChunkSize
    ensures FrameEvents(frames) == seq(|frames|, i requires 0 <= i < |frames| => Event(Errors, frames[i]))
    decreases |frames|
  {
    if |frames| > 0 {
      ShortFramesOneEventEach(frames[1..]);
      assert ChopIntoTextChunks(frames[0]) == [frames[0]];
    }
  }

  /** Logs each frame, in walk order, as its own error events. */
  function LogFrames(l: ImportLog, frames: seq<string>): (r: ImportLog)
    ensures r.(events := l.events) == l
    ensures r.events == l.events + FrameEvents(frames)
    ensures |r.events| >= |l.events| + |frames| && AppendsOnly(l.events, r.events, Errors)
    decreases |frames|
  {
    if |frames| == 0 then l
    else
      var l1 := Log(l, frames[0], Some(Errors));
      var r := LogFrames(l1, frames[1..]);
      AppendsOnlyTrans(l.events, l1.events, r.events, Errors);
      var first := EventsFor(Errors, ChopIntoTextChunks(frames[0]));
      assert l1.events == l.events + first;
      assert FrameEvents(frames) == first + FrameEvents(frames[1..]);
      assert r.events == l.events + (first + FrameEvents(frames[1..]));
      r
  }

  /** The frames `fail_on_error` logs, before rewriting, in walk order. */
  function LoggedFrames(backtrace: Option<seq<string>>): (frames: seq<string>) {
    if backtrace.None? then []
    else
      var rev := Reverse(backtrace.value);
      var idx := LoggedFrameIndices(rev);
      seq(|idx|, i requires 0 <= i < |idx| => rev[idx[i]])
  }

  function RewriteFrames(frames: seq<string>): (rs: seq<string>)
    ensures |rs| == |frames| && forall i :: 0 <= i < |frames| ==> rs[i] == RewriteFrame(frames[i])
  {
    seq(|frames|, i requires 0 <= i < |frames| => RewriteFrame(frames[i]))
  }

  /** `fail_on_error`: logs the selected frames (rewritten) as errors, then fails with the
      message scrubbed of memory addresses. */
  function FailOnError(l: ImportLog, message: string, backtrace: Option<seq<string>>, now: int): (r: ImportLog)
    ensures r.status == Truncated(ScrubAddresses(message)) && r.failedAt == Some(now)
    ensures r.completedAt == l.completedAt && r.id == l.id
    ensures r.events == l.events + FrameEvents(RewriteFrames(LoggedFrames(backtrace)))
      + [Event(Errors, FailurePreamble + Truncated(ScrubAddresses(message)) + ")")]
    ensures |r.events| >= |l.events| + |LoggedFrames(backtrace)| + 1
    ensures AppendsOnly(l.events, r.events, Errors)
  {
    var logged := LogFrames(l, RewriteFrames(LoggedFrames(backtrace)));
    var r := Fail(logged, ScrubAddresses(message), now);
    AppendsOnlyTrans(l.events, logged.events, r.events, Errors);
    r
  }

  /** Without a backtrace only the failure itself is logged. */
  lemma FailOnErrorWithoutBacktrace(l: ImportLog, message: string, now: int)
    ensures FailOnError(l, message, None, now).events ==
      l.events + [Event(Errors, FailurePreamble + Truncated(ScrubAddresses(message)) + ")")]
  {
    assert FrameEvents(RewriteFrames(LoggedFrames(None))) == [];
  }

  // ---------------------------------------------------------------------------
  // The run guard

  /** The `running` scope: neither timestamp set. */
  predicate IsOpen(l: ImportLog) {
    l.completedAt.None? && l.failedAt.None?
  }

  function OpenLogs(logs: seq<ImportLog>): (open: seq<ImportLog>)
    ensures forall l :: l in open <==> l in logs && IsOpen(l)
  {
    if |logs| == 0 then []
    else if IsOpen(logs[0]) then [logs[0]] + OpenLogs(logs[1..])
    else OpenLogs(logs[1..])
  }

  function LogEntry(l: ImportLog, resourceNames: map<nat, string>): string {
    if l.resourceId in resourceNames then
      "ImportLog#" + NatToString(l.id) + ": " + resourceNames[l.resourceId] + " (Resource#" + NatToString(l.resourceId) + ")"
    else
      "ImportLog#" + NatToString(l.id) + ": Missing Resource#" + NatToString(l.resourceId) + ")"
  }

  /** The values the block of `logging.map` returns: each is the running `info` string after
      `info += entry`, so entry k carries every entry before it. */
  function RunningInfos(acc: string, logs: seq<ImportLog>, resourceNames: map<nat, string>): (vs: seq<string>)
    ensures |vs| == |logs|
    ensures forall i :: 0 <= i < |vs| ==> IsPrefix(acc, vs[i])
    decreases |logs|
  {
    if |logs| == 0 then []
    else
      var acc1 := acc + LogEntry(logs[0], resourceNames);
      var rest := RunningInfos(acc1, logs[1..], resourceNames);
      assert forall i :: 0 <= i < |rest| ==> IsPrefix(acc, rest[i]) by {
        forall i | 0 <= i < |rest| ensures IsPrefix(acc, rest[i]) {
          assert IsPrefix(acc1, rest[i]);
          assert rest[i][..|acc|] == acc1[..|acc|];
        }
      }
      [acc1] + rest
  }

  function JoinWith(parts: seq<string>, sep: string): string {
    if |parts| == 0 then ""
    else if |parts| == 1 then parts[0]
    else parts[0] + sep + JoinWith(parts[1..], sep)
  }

  /** `already_running?`: the message naming what blocks a new run, or None (`false`). */
  function AlreadyRunning(runs: seq<ImportRun>, logs: seq<ImportLog>, resourceNames: map<nat, string>): (r: Option<string>)
    ensures r.None? <==>
      (forall i :: 0 <= i < |runs| ==> runs[i].completedAt.Some?) &&
      (forall i :: 0 <= i < |logs| ==> !IsOpen(logs[i]))
    ensures (exists i :: 0 <= i < |runs| && runs[i].completedAt.None?) ==> r == Some(ActiveRunMessage)
    ensures r.Some? && r != Some(ActiveRunMessage) ==> IsPrefix(BusyPrefix, r.value)
  {
    if exists i :: 0 <= i < |runs| && runs[i].completedAt.None? then Some(ActiveRunMessage)
    else
      var open := OpenLogs(logs);
      if |open| > 0 then
        assert open[0] in logs;
        Some(BusyPrefix + JoinWith(RunningInfos(BusyPrefix, open, resourceNames), " ; "))
      else
        assert forall i :: 0 <= i < |logs| ==> !IsOpen(logs[i]) by {
          forall i | 0 <= i < |logs| ensures !IsOpen(logs[i]) {
            assert logs[i] in logs;
          }
        }
        None
  }

  function ClearLog(l: ImportLog, now: int): (r: ImportLog)
    ensures !IsOpen(r)
  {
    var l1 := if IsOpen(l) then l.(completedAt := Some(now), failedAt := Some(now)) else l;
    if l1.status == RunningStatus then l1.(status := StoppedStatus) else l1
  }

  /** `all_clear!`: open logs get both timestamps, "currently running" becomes "stopped",
      open runs are completed; nothing else changes. */
  function AllClear(logs: seq<ImportLog>, runs: seq<ImportRun>, now: int): (r: (seq<ImportLog>, seq<ImportRun>))
    ensures |r.0| == |logs| && |r.1| == |runs|
    ensures forall i :: 0 <= i < |logs| ==>
      && r.0[i].events == logs[i].events && r.0[i].id == logs[i].id
      && (IsOpen(logs[i]) ==> r.0[i].completedAt == Some(now) && r.0[i].failedAt == Some(now))
      && (!IsOpen(logs[i]) ==> r.0[i].completedAt == logs[i].completedAt && r.0[i].failedAt == logs[i].failedAt)
      && r.0[i].status == (if logs[i].status == RunningStatus then StoppedStatus else logs[i].status)
    ensures forall i :: 0 <= i < |logs| ==>
      r.0[i] == logs[i].(completedAt := r.0[i].completedAt, failedAt := r.0[i].failedAt, status := r.0[i].status)
    ensures forall i :: 0 <= i < |runs| ==>
      r.1[i] == runs[i].(completedAt := Some(runs[i].completedAt.GetOr(now)))
  {
    (seq(|logs|, i requires 0 <= i < |logs| => ClearLog(logs[i], now)),
     seq(|runs|, i requires 0 <= i < |runs| => runs[i].(completedAt := Some(runs[i].completedAt.GetOr(now)))))
  }

  /** A second `all_clear!`, at any later time, finds nothing open or running and changes
      nothing. */
  lemma AllClearIdempotent(logs: seq<ImportLog>, runs: seq<ImportRun>, now: int, later: int)
    ensures var (ls, rs) := AllClear(logs, runs, now); AllClear(ls, rs, later) == (ls, rs)
  {
    var (ls, rs) := AllClear(logs, runs, now);
    var (ls2, rs2) := AllClear(ls, rs, later);
    assert ls2 == ls;
    assert rs2 == rs;
  }

  /** After `all_clear!` the guard lets a new run start. */
  lemma AllClearUnblocks(logs: seq<ImportLog>, runs: seq<ImportRun>, resourceNames: map<nat, string>, now: int)
    ensures var (ls, rs) := AllClear(logs, runs, now); AlreadyRunning(rs, ls, resourceNames).None?
  {
  }
}

=== FILE: media_content.dfy ===
/** The content aggregator (app/models/media_content_creator.rb): for every medium and
    article of a resource it emits page-content rows for the item's own page and, for
    media, for every ancestor page, numbering each page's rows with a per-batch counter,
    and it gives pages without an icon the last image added to them.

    Database reads are inputs: the resource's items in id order, the pages the items
    belong to (their icon and ancestry), and the number of page contents each page
    already has. Database writes are outputs: the rows imported and the pages' icons. */
module MediaContent {
  import opened Wrappers

  /** `@klass`: the two content classes the aggregator handles. */
  datatype Kind = MediumKind | ArticleKind

  function ClassName(k: Kind): string {
    match k
    case MediumKind => "Medium"
    case ArticleKind => "Article"
  }

  /** A medium or article: its id, its page (possibly nil) and `image?`. */
  datatype Content = Content(id: nat, pageId: Option<nat>, image: bool)

  /** One hash of `@contents`: a page-content row to import. */
  datatype Row = Row(pageId: Option<nat>, sourcePageId: Option<nat>, position: int, contentType: Kind, contentId: nat, resourceId: nat)

  /** A page as `learn_ancestry` sees it: its icon (`medium_id`) and `ancestry_ids`. */
  datatype PageInfo = PageInfo(mediumId: Option<nat>, ancestryIds: seq<nat>)

  /** The per-batch state: `@contents`, `@naked_pages` (each icon-less page with the icon
      assigned to it so far), `@ancestry` and `@position_by_page`. */
  datatype Batch = Batch(
    contents: seq<Row>,
    naked: map<nat, Option<nat>>,
    ancestry: map<nat, seq<nat>>,
    positions: map<Option<nat>, int>)

  /** `reset_batch`. */
  const EmptyBatch := Batch([], map[], map[], map[])

  const BatchSize: nat := 1000

  function Lookup(m: map<nat, nat>, k: nat): Option<nat> {
    if k in m then Some(m[k]) else None
  }

  /** The page ids of a batch, nil left out (`batch.map(&:page_id).compact`). */
  function PageIds(batch: seq<Content>): (ps: set<nat>)
    ensures forall p :: p in ps <==> exists i :: 0 <= i < |batch| && batch[i].pageId == Some(p)
  {
    set i | 0 <= i < |batch| && batch[i].pageId.Some? :: batch[i].pageId.value
  }

  // ---------------------------------------------------------------------------
  // Counters

  /** `insert_images_after`: a page that already has content of this class puts new items
      after its first one; any other page starts from the top. */
  function InsertImagesAfter(imgCount: Option<nat>): (n: nat)
    ensures n <= 1
    ensures n == 0 <==> imgCount.None? || imgCount == Some(0)
  {
    if imgCount.None? then 0
    else if imgCount.value == 0 then 0
    else 1
  }

  /** `count_media_in`: every page of the batch that has no counter yet gets one seeded
      from its existing content count; counters already present are never touched. */
  function CountMediaIn(b: Batch, batch: seq<Content>, counts: map<nat, nat>): (r: Batch)
    ensures r.contents == b.contents && r.naked == b.naked && r.ancestry == b.ancestry
    ensures forall p :: p in b.positions ==> p in r.positions && r.positions[p] == b.positions[p]
    ensures forall p :: p in PageIds(batch) && Some(p) !in b.positions ==>
      Some(p) in r.positions && r.positions[Some(p)] == InsertImagesAfter(Lookup(counts, p))
    ensures forall p :: p in r.positions ==> p in b.positions || (p.Some? && p.value in PageIds(batch))
    decreases |batch|
  {
    if |batch| == 0 then b
    else
      var last := batch[|batch| - 1];
      var b1 := CountMediaIn(b, batch[..|batch| - 1], counts);
      assert forall i :: 0 <= i < |batch| - 1 ==> batch[..|batch| - 1][i] == batch[i];
      if last.pageId.Some? && last.pageId !in b1.positions then
        b1.(positions := b1.positions[last.pageId := InsertImagesAfter(Lookup(counts, last.pageId.value))])
      else b1
  }

  // ---------------------------------------------------------------------------
  // Adding content

  /** Every row belongs to resource `rid` and class `k`. */
  predicate OfRun(rows: seq<Row>, k: Kind, rid: nat) {
    forall i :: 0 <= i < |rows| ==> rows[i].resourceId == rid && rows[i].contentType == k
  }

  /** `after` keeps the rows of `before` and adds only rows of resource `rid` and class `k`. */
  predicate Extends(before: seq<Row>, after: seq<Row>, k: Kind, rid: nat) {
    |after| >= |before| && after[..|before|] == before
    && forall i :: |before| <= i < |after| ==> after[i].resourceId == rid && after[i].contentType == k
  }

  lemma ExtendsTrans(a: seq<Row>, b: seq<Row>, c: seq<Row>, k: Kind, rid: nat)
    requires Extends(a, b, k, rid) && Extends(b, c, k, rid)
    ensures Extends(a, c, k, rid)
  {
    assert c[..|a|] == c[..|b|][..|a|];
  }

  lemma OfRunConcat(a: seq<Row>, b: seq<Row>, k: Kind, rid: nat)
    requires OfRun(a, k, rid) && OfRun(b, k, rid)
    ensures OfRun(a + b, k, rid)
  {
    forall i | 0 <= i < |a + b|
      ensures (a + b)[i].resourceId == rid && (a + b)[i].contentType == k
    {
      if i >= |a| {
        assert (a + b)[i] == b[i - |a|];
      }
    }
  }

  /** `add_content`: the page's counter moves on by one (an untracked page starts at 0),
      one row is emitted, and an icon-less page takes the item as its icon when it is an
      image. */
  function AddContent(b: Batch, pageId: Option<nat>, c: Content, source: Option<nat>, k: Kind, rid: nat): (r: Batch)
    ensures |r.contents| == |b.contents| + 1 && r.contents[..|b.contents|] == b.contents
    ensures var row := r.contents[|b.contents|];
      row.pageId == pageId && row.contentId == c.id && row.contentType == k && row.resourceId == rid &&
      row.sourcePageId == (if source.Some? then source else pageId) &&
      row.position == (if pageId in b.positions then b.positions[pageId] + 1 else 0) &&
      r.positions == b.positions[pageId := row.position]
    ensures r.ancestry == b.ancestry && r.naked.Keys == b.naked.Keys
    ensures forall p :: p in b.naked ==>
      r.naked[p] == (if c.image && pageId == Some(p) then Some(c.id) else b.naked[p])
  {
    var pos := if pageId in b.positions then b.positions[pageId] + 1 else 0;
    var src := if source.Some? then source else pageId;
    var naked := if pageId.Some? && pageId.value in b.naked && c.image then b.naked[pageId.value := Some(c.id)] else b.naked;
    Batch(b.contents + [Row(pageId, src, pos, k, c.id, rid)], naked, b.ancestry, b.positions[pageId := pos])
  }

  /** The ancestors of page q, q itself left out. */
  function Without(xs: seq<nat>, q: nat): (ys: seq<nat>)
    ensures forall a :: a in ys <==> a in xs && a != q
  {
    if |xs| == 0 then []
    else (if xs[0] == q then [] else [xs[0]]) + Without(xs[1..], q)
  }

  /** The loop of `add_ancestry_content`: one row per ancestor other than the item's page q,
      each with q as its source. */
  function AddToAncestors(b: Batch, ancestors: seq<nat>, c: Content, q: nat, k: Kind, rid: nat): (r: Batch)
    ensures |r.contents| == |b.contents| + |Without(ancestors, q)| && Extends(b.contents, r.contents, k, rid)
    ensures r.ancestry == b.ancestry && r.naked.Keys == b.naked.Keys
    ensures forall p :: p in b.naked ==>
      r.naked[p] == (if c.image && p in ancestors && p != q then Some(c.id) else b.naked[p])
    decreases |ancestors|
  {
    if |ancestors| == 0 then b
    else
      var a := ancestors[0];
      var b1 := if a == q then b else AddContent(b, Some(a), c, Some(q), k, rid);
      assert forall x :: x in ancestors <==> x == a || x in ancestors[1..];
      var r := AddToAncestors(b1, ancestors[1..], c, q, k, rid);
      ExtendsTrans(b.contents, b1.contents, r.contents, k, rid);
      r
  }

  /** The ancestor rows, in order: the i-th is on the page of the i-th ancestor other than q,
      with q as its source. */
  lemma {:induction false} AncestorRow(b: Batch, ancestors: seq<nat>, c: Content, q: nat, k: Kind, rid: nat, i: nat)
    requires i < |Without(ancestors, q)|
    ensures var row := AddToAncestors(b, ancestors, c, q, k, rid).contents[|b.contents| + i];
      row.pageId == Some(Without(ancestors, q)[i]) && row.sourcePageId == Some(q) && row.contentId == c.id
    decreases |ancestors|
  {
    var a := ancestors[0];
    var b1 := if a == q then b else AddContent(b, Some(a), c, Some(q), k, rid);
    var r := AddToAncestors(b1, ancestors[1..], c, q, k, rid);
    var w' := Without(ancestors[1..], q);
    var d := if a == q then 0 else 1;
    assert Without(ancestors, q) == (if a == q then [] else [a]) + w';
    if a != q && i == 0 {
      assert r.contents[..|b1.contents|] == b1.contents;
      assert r.contents[|b.contents|] == b1.contents[|b.contents|];
    } else {
      AncestorRow(b1, ancestors[1..], c, q, k, rid, i - d);
      assert |b.contents| + i == |b1.contents| + (i - d);
    }
  }

  /** `add_ancestry_content`: nothing for an item whose page has no ancestry entry. */
  function AddAncestryContent(b: Batch, c: Content, k: Kind, rid: nat): (r: Batch)
    ensures c.pageId.None? || c.pageId.value !in b.ancestry ==> r == b
    ensures c.pageId.Some? && c.pageId.value in b.ancestry ==>
      r == AddToAncestors(b, b.ancestry[c.pageId.value], c, c.pageId.value, k, rid)
  {
    if c.pageId.Some? && c.pageId.value in b.ancestry then
      AddToAncestors(b, b.ancestry[c.pageId.value], c, c.pageId.value, k, rid)
    else b
  }

  /** One item of the batch loop: its own page, then (for media) its ancestors. */
  function AddItem(b: Batch, c: Content, k: Kind, rid: nat): (r: Batch)
    ensures r.ancestry == b.ancestry && r.naked.Keys == b.naked.Keys
    ensures |r.contents| >= |b.contents| + 1 && Extends(b.contents, r.contents, k, rid)
  {
    var b1 := AddContent(b, c.pageId, c, None, k, rid);
    if k == ArticleKind then b1
    else
      var r := AddAncestryContent(b1, c, k, rid);
      ExtendsTrans(b.contents, b1.contents, r.contents, k, rid);
      r
  }

  /** The batch loop, items in order. */
  function AddAll(b: Batch, batch: seq<Content>, k: Kind, rid: nat): (r: Batch)
    ensures r.ancestry == b.ancestry && r.naked.Keys == b.naked.Keys
    ensures |r.contents| >= |b.contents| + |batch| && Extends(b.contents, r.contents, k, rid)
    decreases |batch|
  {
    if |batch| == 0 then b
    else
      var b0 := AddAll(b, batch[..|batch| - 1], k, rid);
      var r := AddItem(b0, batch[|batch| - 1], k, rid);
      ExtendsTrans(b.contents, b0.contents, r.contents, k, rid);
      r
  }

  /** `learn_ancestry`: every page of the batch that exists has its ancestry recorded, and
      the icon-less ones are noted (only when the class is Medium, whose field is `medium_id`). */
  function LearnAncestry(b: Batch, batch: seq<Content>, pages: map<nat, PageInfo>, k: Kind): (r: Batch)
    ensures r.ancestry.Keys == pages.Keys * PageIds(batch)
    ensures forall p :: p in r.ancestry ==> r.ancestry[p] == pages[p].ancestryIds
    ensures forall p :: p in r.naked <==> k == MediumKind && p in pages && p in PageIds(batch) && pages[p].mediumId.None?
    ensures forall p :: p in r.naked ==> r.naked[p].None?
    ensures r.contents == b.contents && r.positions == b.positions
  {
    var ids := PageIds(batch);
    b.(naked := map p | p in pages.Keys * ids && k == MediumKind && pages[p].mediumId.None? :: None,
       ancestry := map p | p in pages.Keys * ids :: pages[p].ancestryIds)
  }

  // ---------------------------------------------------------------------------
  // Row positions

  /** The positions of the rows emitted for page p, in order. */
  function PositionsFor(rows: seq<Row>, p: Option<nat>): seq<int> {
    if |rows| == 0 then []
    else PositionsFor(rows[..|rows| - 1], p) + (if rows[|rows| - 1].pageId == p then [rows[|rows| - 1].position] else [])
  }

  /** Where page p's counter starts given the seeded counters. */
  function Start(init: map<Option<nat>, int>, p: Option<nat>): int {
    if p in init then init[p] + 1 else 0
  }

  predicate Consecutive(xs: seq<int>) {
    forall i :: 0 < i < |xs| ==> xs[i] == xs[i - 1] + 1
  }

  /** Page p's rows are numbered consecutively from where its counter started, and its
      counter holds the last number given (or is as seeded when it has no rows yet). */
  ghost predicate TracksAt(b: Batch, init: map<Option<nat>, int>, p: Option<nat>) {
    var ps := PositionsFor(b.contents, p);
    (|ps| == 0 ==> (p in b.positions <==> p in init) && (p in init ==> b.positions[p] == init[p])) &&
    (|ps| > 0 ==> ps[0] == Start(init, p) && Consecutive(ps) && p in b.positions && b.positions[p] == ps[|ps| - 1])
  }

  /** Every page's counter is tracked. */
  ghost predicate Tracks(b: Batch, init: map<Option<nat>, int>) {
    forall p :: TracksAt(b, init, p)
  }

  lemma PositionsForAppend(rows: seq<Row>, row: Row, p: Option<nat>)
    ensures PositionsFor(rows + [row], p) == PositionsFor(rows, p) + (if row.pageId == p then [row.position] else [])
  {
    assert (rows + [row])[..|rows|] == rows;
  }

  /** Appending one row and moving its page's counter on keeps every page tracked. */
  lemma TracksAfterRow(b: Batch, r: Batch, row: Row, init: map<Option<nat>, int>, p: Option<nat>)
    requires TracksAt(b, init, p)
    requires r.contents == b.contents + [row]
    requires row.position == (if row.pageId in b.positions then b.positions[row.pageId] + 1 else 0)
    requires r.positions == b.positions[row.pageId := row.position]
    ensures TracksAt(r, init, p)
  {
    PositionsForAppend(b.contents, row, p);
    var ps := PositionsFor(b.contents, p);
    if p != row.pageId {
      assert PositionsFor(r.contents, p) == ps;
    } else if |ps| == 0 {
      assert PositionsFor(r.contents, p) == [row.position];
    } else {
      var qs := ps + [row.position];
      assert PositionsFor(r.contents, p) == qs;
      assert forall i :: 0 < i < |ps| ==> qs[i] == ps[i];
      assert Consecutive(qs);
    }
  }

  lemma AddContentTracksAt(b: Batch, init: map<Option<nat>, int>, pageId: Option<nat>, c: Content, source: Option<nat>,
                           k: Kind, rid: nat, p: Option<nat>)
    requires TracksAt(b, init, p)
    ensures TracksAt(AddContent(b, pageId, c, source, k, rid), init, p)
  {
    var r := AddContent(b, pageId, c, source, k, rid);
    var row := r.contents[|b.contents|];
    assert r.contents == b.contents + [row];
    TracksAfterRow(b, r, row, init, p);
  }

  lemma AddContentTracks(b: Batch, init: map<Option<nat>, int>, pageId: Option<nat>, c: Content, source: Option<nat>, k: Kind, rid: nat)
    requires Tracks(b, init)
    ensures Tracks(AddContent(b, pageId, c, source, k, rid), init)
  {
    forall p ensures TracksAt(AddContent(b, pageId, c, source, k, rid), init, p) {
      AddContentTracksAt(b, init, pageId, c, source, k, rid, p);
    }
  }

  lemma {:induction false} AddToAncestorsTracks(b: Batch, init: map<Option<nat>, int>, ancestors: seq<nat>, c: Content, q: nat, k: Kind, rid: nat)
    requires Tracks(b, init)
    ensures Tracks(AddToAncestors(b, ancestors, c, q, k, rid), init)
    decreases |ancestors|
  {
    if |ancestors| > 0 {
      var a := ancestors[0];
      var b1 := if a == q then b else AddContent(b, Some(a), c, Some(q), k, rid);
      if a != q {
        AddContentTracks(b, init, Some(a), c, Some(q), k, rid);
      }
      AddToAncestorsTracks(b1, init, ancestors[1..], c, q, k, rid);
    }
  }

  lemma {:induction false} AddAllTracks(b: Batch, init: map<Option<nat>, int>, batch: seq<Content>, k: Kind, rid: nat)
    requires Tracks(b, init)
    ensures Tracks(AddAll(b, batch, k, rid), init)
    decreases |batch|
  {
    if |batch| > 0 {
      var c := batch[|batch| - 1];
      var b0 := AddAll(b, batch[..|batch| - 1], k, rid);
      AddAllTracks(b, init, batch[..|batch| - 1], k, rid);
      AddContentTracks(b0, init, c.pageId, c, None, k, rid);
      var b1 := AddContent(b0, c.pageId, c, None, k, rid);
      if k != ArticleKind && c.pageId.Some? && c.pageId.value in b1.ancestry {
        AddToAncestorsTracks(b1, init, b1.ancestry[c.pageId.value], c, c.pageId.value, k, rid);
      }
    }
  }

  // ---------------------------------------------------------------------------
  // Icons

  /** Whether adding item c reaches page p: its own page, or an ancestor of it. */
  predicate Reaches(ancestry: map<nat, seq<nat>>, c: Content, p: nat, k: Kind) {
    c.pageId == Some(p) ||
    (k != ArticleKind && c.pageId.Some? && c.pageId.value in ancestry && p in ancestry[c.pageId.value] && p != c.pageId.value)
  }

  /** The last image of the batch that reaches page p. */
  function LastImage(ancestry: map<nat, seq<nat>>, batch: seq<Content>, p: nat, k: Kind): (m: Option<nat>)
    ensures m.Some? ==> exists i :: 0 <= i < |batch| && batch[i].id == m.value && batch[i].image && Reaches(ancestry, batch[i], p, k)
    ensures m.None? ==> forall i :: 0 <= i < |batch| ==> !(batch[i].image && Reaches(ancestry, batch[i], p, k))
    decreases |batch|
  {
    if |batch| == 0 then None
    else
      var c := batch[|batch| - 1];
      if c.image && Reaches(ancestry, c, p, k) then Some(c.id)
      else
        var m := LastImage(ancestry, batch[..|batch| - 1], p, k);
        assert forall i :: 0 <= i < |batch| - 1 ==> batch[..|batch| - 1][i] == batch[i];
        m
  }

  /** The last image added to an icon-less page is its icon; pages no image reaches keep
      what they had. */
  lemma {:induction false} LastImageWins(b: Batch, batch: seq<Content>, k: Kind, rid: nat)
    ensures var r := AddAll(b, batch, k, rid);
      forall p :: p in b.naked ==>
        r.naked[p] == (match LastImage(b.ancestry, batch, p, k) case Some(m) => Some(m) case None => b.naked[p])
    decreases |batch|
  {
    if |batch| > 0 {
      LastImageWins(b, batch[..|batch| - 1], k, rid);
      ItemIcon(AddAll(b, batch[..|batch| - 1], k, rid), batch[|batch| - 1], k, rid);
    }
  }

  /** One item sets the icon of every icon-less page it reaches, when it is an image. */
  lemma ItemIcon(b: Batch, c: Content, k: Kind, rid: nat)
    ensures forall p :: p in b.naked ==>
      AddItem(b, c, k, rid).naked[p] == (if c.image && Reaches(b.ancestry, c, p, k) then Some(c.id) else b.naked[p])
  {
  }

  // ---------------------------------------------------------------------------
  // A batch

  /** What a batch writes: its rows, and the icons of the pages that were icon-less. */
  datatype BatchOutput = BatchOutput(rows: seq<Row>, icons: map<nat, Option<nat>>)

  /** One iteration of `add_content_in_batches_for`, with the counter-seeding call as
      evidently intended (`count_media_in`). */
  function RunBatch(k: Kind, batch: seq<Content>, pages: map<nat, PageInfo>, counts: map<nat, nat>, rid: nat): (out: BatchOutput)
    ensures |out.rows| >= |batch| && OfRun(out.rows, k, rid)
    ensures k == ArticleKind ==> out.icons == map[]
    ensures forall p :: p in out.icons ==> p in pages && pages[p].mediumId.None?
  {
    var b1 := if k == ArticleKind then EmptyBatch else LearnAncestry(EmptyBatch, batch, pages, k);
    var b2 := CountMediaIn(b1, batch, counts);
    var b3 := AddAll(b2, batch, k, rid);
    assert b3.contents[..0] == [];
    BatchOutput(b3.contents, if k == MediumKind then b3.naked else map[])
  }

  /** Within a batch, each page's rows are numbered consecutively: from 1 plus
      `insert_images_after` for a page of the batch, from 0 for an ancestor page outside it. */
  lemma BatchPositionsConsecutive(k: Kind, batch: seq<Content>, pages: map<nat, PageInfo>, counts: map<nat, nat>, rid: nat, p: Option<nat>)
    ensures var ps := PositionsFor(RunBatch(k, batch, pages, counts, rid).rows, p);
      Consecutive(ps) &&
      (|ps| > 0 && p.Some? && p.value in PageIds(batch) ==> ps[0] == InsertImagesAfter(Lookup(counts, p.value)) + 1) &&
      (|ps| > 0 && (p.None? || p.value !in PageIds(batch)) ==> ps[0] == 0)
  {
    var b1 := if k == ArticleKind then EmptyBatch else LearnAncestry(EmptyBatch, batch, pages, k);
    var b2 := CountMediaIn(b1, batch, counts);
    forall q ensures TracksAt(b2, b2.positions, q) {
      assert PositionsFor(b2.contents, q) == [];
    }
    AddAllTracks(b2, b2.positions, batch, k, rid);
    var b3 := AddAll(b2, batch, k, rid);
    assert TracksAt(b3, b2.positions, p);
    assert b3.contents == RunBatch(k, batch, pages, counts, rid).rows;
  }

  /** In a Medium batch, an icon-less page of the batch ends with the last image that
      reached it, and stays without one when none did. */
  lemma BatchIconIsLastImage(batch: seq<Content>, pages: map<nat, PageInfo>, counts: map<nat, nat>, rid: nat, p: nat)
    requires p in pages && p in PageIds(batch) && pages[p].mediumId.None?
    ensures var out := RunBatch(MediumKind, batch, pages, counts, rid);
      var ancestry := map q | q in pages.Keys * PageIds(batch) :: pages[q].ancestryIds;
      p in out.icons && out.icons[p] == LastImage(ancestry, batch, p, MediumKind)
  {
    var b1 := LearnAncestry(EmptyBatch, batch, pages, MediumKind);
    var b2 := CountMediaIn(b1, batch, counts);
    LastImageWins(b2, batch, MediumKind, rid);
  }

  /** Article batches emit exactly one row per item, on the item's own page. */
  lemma {:induction false} ArticlesSkipAncestry(b: Batch, batch: seq<Content>, rid: nat)
    ensures var r := AddAll(b, batch, ArticleKind, rid);
      |r.contents| == |b.contents| + |batch| &&
      forall i :: 0 <= i < |batch| ==>
        r.contents[|b.contents| + i].pageId == batch[i].pageId && r.contents[|b.contents| + i].sourcePageId == batch[i].pageId &&
        r.contents[|b.contents| + i].contentId == batch[i].id
    decreases |batch|
  {
    if |batch| > 0 {
      var b0 := AddAll(b, batch[..|batch| - 1], ArticleKind, rid);
      ArticlesSkipAncestry(b, batch[..|batch| - 1], rid);
      var r := AddContent(b0, batch[|batch| - 1].pageId, batch[|batch| - 1], None, ArticleKind, rid);
      assert r.contents[..|b0.contents|] == b0.contents;
      assert forall i :: 0 <= i < |batch| - 1 ==> batch[..|batch| - 1][i] == batch[i];
    }
  }

  // ---------------------------------------------------------------------------
  // Batches and the whole resource

  /** `find_in_batches(batch_size: 1000)` over items in id order. */
  function Chunks(items: seq<Content>): (cs: seq<seq<Content>>)
    ensures |cs| == (|items| + BatchSize - 1) / BatchSize
    ensures forall i :: 0 <= i < |cs| ==> 0 < |cs[i]| <= BatchSize
    ensures Concat(cs) == items
    decreases |items|
  {
    if |items| == 0 then []
    else if |items| <= BatchSize then [items]
    else
      var rest := Chunks(items[BatchSize..]);
      assert items == items[..BatchSize] + items[BatchSize..];
      [items[..BatchSize]] + rest
  }

  function Concat(cs: seq<seq<Content>>): seq<Content> {
    if |cs| == 0 then [] else cs[0] + Concat(cs[1..])
  }

  /** The pages after a Medium batch: every icon assigned is written back. */
  function SetIcons(pages: map<nat, PageInfo>, icons: map<nat, Option<nat>>): (r: map<nat, PageInfo>)
    ensures r.Keys == pages.Keys
    ensures forall p :: p in pages && (p !in icons || icons[p].None?) ==> r[p] == pages[p]
    ensures forall p :: p in pages && p in icons && icons[p].Some? ==> r[p] == pages[p].(mediumId := icons[p])
  {
    map p | p in pages :: if p in icons && icons[p].Some? then pages[p].(mediumId := icons[p]) else pages[p]
  }

  /** Existing content counts after a batch's rows are imported. */
  function AddCounts(counts: map<nat, nat>, rows: seq<Row>): (r: map<nat, nat>)
    ensures forall p :: p in counts ==> p in r && r[p] >= counts[p]
    decreases |rows|
  {
    if |rows| == 0 then counts
    else
      var c1 := AddCounts(counts, rows[..|rows| - 1]);
      match rows[|rows| - 1].pageId
      case None => c1
      case Some(p) => c1[p := (if p in c1 then c1[p] else 0) + 1]
  }

  /** What a class's run leaves: the rows imported and the pages with their icons. */
  datatype KindOutput = KindOutput(rows: seq<Row>, pages: map<nat, PageInfo>, counts: map<nat, nat>)

  /** `add_content_in_batches_for`: batch after batch, each starting from a reset state but
      reading the pages and counts the earlier batches wrote. */
  function RunBatches(k: Kind, cs: seq<seq<Content>>, pages: map<nat, PageInfo>, counts: map<nat, nat>, rid: nat): (o: KindOutput)
    ensures o.pages.Keys == pages.Keys
    ensures forall p :: p in pages && pages[p].mediumId.Some? ==> o.pages[p] == pages[p]
    ensures k == ArticleKind ==> o.pages == pages
    ensures OfRun(o.rows, k, rid)
    decreases |cs|
  {
    if |cs| == 0 then KindOutput([], pages, counts)
    else
      var out := RunBatch(k, cs[0], pages, counts, rid);
      var pages1 := if k == MediumKind then SetIcons(pages, out.icons) else pages;
      var rest := RunBatches(k, cs[1..], pages1, AddCounts(counts, out.rows), rid);
      OfRunConcat(out.rows, rest.rows, k, rid);
      KindOutput(out.rows + rest.rows, rest.pages, rest.counts)
  }

  /** What `by_resource` writes: media first, then articles. */
  datatype Output = Output(rows: seq<Row>, pages: map<nat, PageInfo>)

  /** `by_resource` with the counter seeding as evidently intended: a page that had an icon
      keeps it, and every row belongs to the resource. */
  function ByResource(media: seq<Content>, articles: seq<Content>, pages: map<nat, PageInfo>,
                      mediaCounts: map<nat, nat>, articleCounts: map<nat, nat>, rid: nat): (o: Output)
    ensures o.pages.Keys == pages.Keys
    ensures forall p :: p in pages && pages[p].mediumId.Some? ==> o.pages[p] == pages[p]
    ensures forall i :: 0 <= i < |o.rows| ==> o.rows[i].resourceId == rid
    ensures |o.rows| >= |media| + |articles|
  {
    var m := RunBatches(MediumKind, Chunks(media), pages, mediaCounts, rid);
    var a := RunBatches(ArticleKind, Chunks(articles), m.pages, articleCounts, rid);
    RowsCoverItems(MediumKind, Chunks(media), pages, mediaCounts, rid);
    RowsCoverItems(ArticleKind, Chunks(articles), m.pages, articleCounts, rid);
    ResourceRows(m.rows, a.rows, rid);
    Output(m.rows + a.rows, a.pages)
  }

  lemma ResourceRows(m: seq<Row>, a: seq<Row>, rid: nat)
    requires OfRun(m, MediumKind, rid) && OfRun(a, ArticleKind, rid)
    ensures forall i :: 0 <= i < |m + a| ==> (m + a)[i].resourceId == rid
  {
    forall i | 0 <= i < |m + a|
      ensures (m + a)[i].resourceId == rid
    {
      if i >= |m| {
        assert (m + a)[i] == a[i - |m|];
      }
    }
  }

  /** Every item gets at least its own row. */
  lemma {:induction false} RowsCoverItems(k: Kind, cs: seq<seq<Content>>, pages: map<nat, PageInfo>, counts: map<nat, nat>, rid: nat)
    ensures |RunBatches(k, cs, pages, counts, rid).rows| >= |Concat(cs)|
    decreases |cs|
  {
    if |cs| > 0 {
      var out := RunBatch(k, cs[0], pages, counts, rid);
      var pages1 := if k == MediumKind then SetIcons(pages, out.icons) else pages;
      RowsCoverItems(k, cs[1..], pages1, AddCounts(counts, out.rows), rid);
    }
  }

  // ---------------------------------------------------------------------------
  // The code as written

  const NoCountImagesIn := "undefined method `count_images_in' for an instance of MediaContentCreator"

  /** `by_resource` as written: each batch calls `count_images_in`, which the class does not
      define, right after `learn_ancestry`; the first batch of either class therefore raises
      before any row is imported or any icon is set. */
  function ByResourceAsWritten(media: seq<Content>, articles: seq<Content>, pages: map<nat, PageInfo>): (r: Result<Output>)
    ensures r.Ok? ==> r.value.rows == [] && r.value.pages == pages
  {
    if |Chunks(media)| > 0 then Raise(NoCountImagesIn)
    else if |Chunks(articles)| > 0 then Raise(NoCountImagesIn)
    else Ok(Output([], pages))
  }

  /** The as-written run raises exactly when the resource has any medium or article, while
      the intended run imports at least one row per item. */
  lemma AsWrittenRaisesOnAnyContent(media: seq<Content>, articles: seq<Content>, pages: map<nat, PageInfo>,
                                    mediaCounts: map<nat, nat>, articleCounts: map<nat, nat>, rid: nat)
    ensures ByResourceAsWritten(media, articles, pages).Raise? <==> |media| + |articles| > 0
    ensures |media| + |articles| > 0 ==> |ByResource(media, articles, pages, mediaCounts, articleCounts, rid).rows| > 0
  {
  }

  /** `import_contents`'s log line as written reads `page_id` from the first hash of
      `@contents`; a Hash has no such method, so the line raises whenever it runs. */
  function ImportLogLineAsWritten(contents: seq<Row>): (r: Result<string>)
    ensures r.Raise?
  {
    if |contents| == 0 then Raise("undefined method `page_id' for nil")
    else Raise("undefined method `page_id' for an instance of Hash")
  }

  /** The log line reading the first row's fields: it names the first row's page and content. */
  function ImportLogLine(contents: seq<Row>): (r: Result<(nat, Option<nat>, Kind, nat)>)
    ensures r.Ok? <==> |contents| > 0
    ensures r.Ok? ==> r.value == (|contents|, contents[0].pageId, contents[0].contentType, contents[0].contentId)
  {
    if |contents| == 0 then Raise("undefined method `[]' for nil")
    else Ok((|contents|, contents[0].pageId, contents[0].contentType, contents[0].contentId))
  }

  /** A batch is never empty, so the intended log line never raises. */
  lemma BatchLogLineSucceeds(k: Kind, batch: seq<Content>, pages: map<nat, PageInfo>, counts: map<nat, nat>, rid: nat)
    requires |batch| > 0
    ensures ImportLogLine(RunBatch(k, batch, pages, counts, rid).rows).Ok?
    ensures ImportLogLineAsWritten(RunBatch(k, batch, pages, counts, rid).rows).Raise?
  {
  }
}

=== FILE: node.dfy ===
/** Landmarks, breadcrumbs and siblings of taxonomic `Node`s (app/models/node.rb). */
module Nodes {
  import opened Wrappers
  import opened Sequences

  /** The landmark enum, in declaration order: Rails stores each value as its position. */
  datatype Landmark = NoLandmark | Minimal | Abbreviated | ExtendedLandmark | Full

  /** The rank a node may have; only whether it is a family matters here. */
  datatype Rank = Rank(isFamily: bool)

  datatype NodeRec = NodeRec(
    id: nat,
    parentId: Option<nat>,
    landmark: Option<Landmark>,
    hasBreadcrumb: bool,
    rank: Option<Rank>)

  /** `landmark_children`' default limit. */
  const DefaultLandmarkLimit: nat := 10

  /** The integer the enum stores for a landmark. */
  function Ordinal(l: Landmark): (n: nat)
    ensures n < 5
  {
    match l
    case NoLandmark => 0
    case Minimal => 1
    case Abbreviated => 2
    case ExtendedLandmark => 3
    case Full => 4
  }

  /** Reading a stored integer back as a landmark. */
  function FromOrdinal(n: int): (r: Option<Landmark>)
    ensures r.Some? <==> 0 <= n < 5
    ensures r.Some? ==> Ordinal(r.value) == n
  {
    if n == 0 then Some(NoLandmark)
    else if n == 1 then Some(Minimal)
    else if n == 2 then Some(Abbreviated)
    else if n == 3 then Some(ExtendedLandmark)
    else if n == 4 then Some(Full)
    else None
  }

  /** Storing a landmark and reading it back gives the same landmark. */
  lemma OrdinalRoundTrip(l: Landmark)
    ensures FromOrdinal(Ordinal(l)) == Some(l)
  {
  }

  /** The stored landmark column, for ordering (MySQL sorts a NULL first). */
  function StoredLandmark(n: NodeRec): nat {
    match n.landmark
    case None => 0
    case Some(l) => Ordinal(l)
  }

  /** `any_landmark?`: a landmark is set and it is a real one. */
  predicate AnyLandmark(n: NodeRec) {
    n.landmark.Some? && n.landmark.value != NoLandmark
  }

  /** Having a real landmark is having a stored landmark above `no_landmark`'s. */
  lemma AnyLandmarkIsPositiveOrdinal(n: NodeRec)
    ensures AnyLandmark(n) <==> n.landmark.Some? && Ordinal(n.landmark.value) > Ordinal(NoLandmark)
  {
  }

  /** `use_breadcrumb?`. */
  predicate UseBreadcrumb(n: NodeRec) {
    n.hasBreadcrumb && (n.landmark == Some(Minimal) || n.landmark == Some(Abbreviated))
  }

  /** `use_abbreviated?`: minimal or abbreviated landmark, or a family-rank node. */
  predicate UseAbbreviated(n: NodeRec) {
    n.landmark == Some(Minimal) || n.landmark == Some(Abbreviated) || (n.rank.Some? && n.rank.value.isFamily)
  }

  /** A node shown in the breadcrumb is also shown in the abbreviated hierarchy. */
  lemma BreadcrumbIsAbbreviated(n: NodeRec)
    ensures UseBreadcrumb(n) ==> UseAbbreviated(n) && AnyLandmark(n)
  {
  }

  /** The children of node `id` with landmark `l`, in table order. */
  function WithLandmark(nodes: seq<NodeRec>, id: nat, l: Landmark): seq<NodeRec>
    decreases |nodes|
  {
    if |nodes| == 0 then []
    else
      (if nodes[0].parentId == Some(id) && nodes[0].landmark == Some(l) then [nodes[0]] else [])
        + WithLandmark(nodes[1..], id, l)
  }

  lemma {:induction false} WithLandmarkMembers(nodes: seq<NodeRec>, id: nat, l: Landmark)
    ensures forall x :: x in WithLandmark(nodes, id, l) ==> x in nodes && x.parentId == Some(id) && x.landmark == Some(l)
    decreases |nodes|
  {
    if |nodes| > 0 {
      WithLandmarkMembers(nodes[1..], id, l);
    }
  }

  /** The children of node `id` with a landmark of stored value `k` or higher, ordered by
      landmark (table order within one landmark). */
  function ByLandmarkFrom(nodes: seq<NodeRec>, id: nat, k: nat): (r: seq<NodeRec>)
    requires 1 <= k <= 5
    ensures forall x :: x in r ==> (x in nodes && x.parentId == Some(id) && StoredLandmark(x) >= k)
    ensures forall i, j :: 0 <= i < j < |r| ==> StoredLandmark(r[i]) <= StoredLandmark(r[j])
    decreases 5 - k
  {
    if k == 5 then []
    else
      var l := FromOrdinal(k).value;
      var here := WithLandmark(nodes, id, l);
      WithLandmarkMembers(nodes, id, l);
      var rest := ByLandmarkFrom(nodes, id, k + 1);
      assert forall i :: 0 <= i < |here| ==> here[i] in here;
      assert forall i :: 0 <= i < |rest| ==> rest[i] in rest;
      here + rest
  }

  /** The landmarked children of `id`, in table order: what `landmark_children` selects before
      ordering and limiting. */
  function LandmarkedChildren(nodes: seq<NodeRec>, id: nat): seq<NodeRec>
    decreases |nodes|
  {
    if |nodes| == 0 then []
    else
      (if nodes[0].parentId == Some(id) && AnyLandmark(nodes[0]) then [nodes[0]] else [])
        + LandmarkedChildren(nodes[1..], id)
  }

  /** `landmark_children(limit)`: children with one of the four real landmarks, ordered by
      landmark, at most `limit` of them. */
  function LandmarkChildren(nodes: seq<NodeRec>, node: NodeRec, limit: nat): (r: seq<NodeRec>)
    ensures |r| <= limit
    ensures forall x :: x in r ==> x in nodes && x.parentId == Some(node.id) && AnyLandmark(x)
    ensures forall i, j :: 0 <= i < j < |r| ==> StoredLandmark(r[i]) <= StoredLandmark(r[j])
  {
    var ordered := ByLandmarkFrom(nodes, node.id, 1);
    var r := Take(ordered, limit);
    assert forall x :: x in r ==> x in ordered;
    r
  }

  /** The ordering is the four landmark groups one after another. */
  lemma ByLandmarkGroups(nodes: seq<NodeRec>, id: nat)
    ensures ByLandmarkFrom(nodes, id, 1) == WithLandmark(nodes, id, Minimal) + WithLandmark(nodes, id, Abbreviated)
      + WithLandmark(nodes, id, ExtendedLandmark) + WithLandmark(nodes, id, Full)
  {
    assert ByLandmarkFrom(nodes, id, 4) == WithLandmark(nodes, id, Full);
    assert ByLandmarkFrom(nodes, id, 3) == WithLandmark(nodes, id, ExtendedLandmark) + ByLandmarkFrom(nodes, id, 4);
    assert ByLandmarkFrom(nodes, id, 2) == WithLandmark(nodes, id, Abbreviated) + ByLandmarkFrom(nodes, id, 3);
    assert ByLandmarkFrom(nodes, id, 1) == WithLandmark(nodes, id, Minimal) + ByLandmarkFrom(nodes, id, 2);
  }

  /** One table row's contribution to the four groups. */
  lemma GroupsStep(nodes: seq<NodeRec>, id: nat)
    requires |nodes| > 0
    ensures
      var x := nodes[0];
      var t := nodes[1..];
      |WithLandmark(nodes, id, Minimal)| + |WithLandmark(nodes, id, Abbreviated)|
        + |WithLandmark(nodes, id, ExtendedLandmark)| + |WithLandmark(nodes, id, Full)|
      == (if x.parentId == Some(id) && AnyLandmark(x) then 1 else 0)
        + |WithLandmark(t, id, Minimal)| + |WithLandmark(t, id, Abbreviated)|
        + |WithLandmark(t, id, ExtendedLandmark)| + |WithLandmark(t, id, Full)|
  {
  }

  lemma {:induction false} OrderingKeepsCount(nodes: seq<NodeRec>, id: nat)
    ensures |ByLandmarkFrom(nodes, id, 1)| == |LandmarkedChildren(nodes, id)|
    decreases |nodes|
  {
    ByLandmarkGroups(nodes, id);
    if |nodes| > 0 {
      OrderingKeepsCount(nodes[1..], id);
      ByLandmarkGroups(nodes[1..], id);
      GroupsStep(nodes, id);
    }
  }

  lemma {:induction false} LandmarkedChildrenMembers(nodes: seq<NodeRec>, id: nat)
    ensures forall x :: x in LandmarkedChildren(nodes, id) <==> x in nodes && x.parentId == Some(id) && AnyLandmark(x)
    decreases |nodes|
  {
    if |nodes| > 0 {
      LandmarkedChildrenMembers(nodes[1..], id);
      assert forall x :: x in nodes <==> x == nodes[0] || x in nodes[1..];
    }
  }

  lemma {:induction false} WithLandmarkComplete(nodes: seq<NodeRec>, id: nat, l: Landmark)
    ensures forall x :: x in nodes && x.parentId == Some(id) && x.landmark == Some(l) ==> x in WithLandmark(nodes, id, l)
    decreases |nodes|
  {
    if |nodes| > 0 {
      WithLandmarkComplete(nodes[1..], id, l);
      assert forall x :: x in nodes <==> x == nodes[0] || x in nodes[1..];
    }
  }

  /** The ordering loses and invents no child: it holds exactly the landmarked children, as
      many as there are, so `landmark_children` returns all of them when there are at most
      `limit`, and otherwise the first `limit` by landmark. */
  lemma LandmarkChildrenComplete(nodes: seq<NodeRec>, node: NodeRec, limit: nat)
    ensures forall x :: x in ByLandmarkFrom(nodes, node.id, 1) <==>
      x in nodes && x.parentId == Some(node.id) && AnyLandmark(x)
    ensures |ByLandmarkFrom(nodes, node.id, 1)| == |LandmarkedChildren(nodes, node.id)|
    ensures |LandmarkChildren(nodes, node, limit)| ==
      if |LandmarkedChildren(nodes, node.id)| < limit then |LandmarkedChildren(nodes, node.id)| else limit
    ensures |LandmarkedChildren(nodes, node.id)| <= limit ==>
      forall x :: x in nodes && x.parentId == Some(node.id) && AnyLandmark(x) ==> x in LandmarkChildren(nodes, node, limit)
  {
    OrderingKeepsCount(nodes, node.id);
    ByLandmarkGroups(nodes, node.id);
    WithLandmarkComplete(nodes, node.id, Minimal);
    WithLandmarkComplete(nodes, node.id, Abbreviated);
    WithLandmarkComplete(nodes, node.id, ExtendedLandmark);
    WithLandmarkComplete(nodes, node.id, Full);
  }

  /** The children left out by the limit rank no lower than the last one returned: the
      result is the lowest landmarks. */
  lemma LandmarkChildrenLowest(nodes: seq<NodeRec>, node: NodeRec, limit: nat)
    ensures var r := LandmarkChildren(nodes, node, limit);
      |r| > 0 ==> forall x :: x in nodes && x.parentId == Some(node.id) && AnyLandmark(x) && x !in r ==>
        StoredLandmark(r[|r| - 1]) <= StoredLandmark(x)
  {
    var ordered := ByLandmarkFrom(nodes, node.id, 1);
    var r := LandmarkChildren(nodes, node, limit);
    LandmarkChildrenComplete(nodes, node, limit);
    assert r == ordered[..|r|];
    forall x | x in nodes && x.parentId == Some(node.id) && AnyLandmark(x) && x !in r && |r| > 0
      ensures StoredLandmark(r[|r| - 1]) <= StoredLandmark(x)
    {
      RankedAfterPrefix(ordered, |r|, x);
    }
  }

  /** In an ordering by landmark, an element outside a non-empty prefix ranks no lower than the
      prefix's last element. */
  lemma {:induction false} RankedAfterPrefix(ordered: seq<NodeRec>, n: nat, x: NodeRec)
    requires 0 < n <= |ordered| && x in ordered && x !in ordered[..n]
    requires forall i, j :: 0 <= i < j < |ordered| ==> StoredLandmark(ordered[i]) <= StoredLandmark(ordered[j])
    ensures StoredLandmark(ordered[n - 1]) <= StoredLandmark(x)
  {
    var k :| 0 <= k < |ordered| && ordered[k] == x;
    AfterPrefix(ordered, n, k);
  }

  /** An element outside a prefix sits at an index past it. */
  lemma AfterPrefix(s: seq<NodeRec>, n: nat, k: nat)
    requires n <= |s| && k < |s| && s[k] !in s[..n]
    ensures k >= n
  {
  }

  /** The parent row `belongs_to :parent` finds, if any. */
  predicate ParentLoaded(n: NodeRec, nodes: seq<NodeRec>) {
    n.parentId.Some? && exists p :: p in nodes && p.id == n.parentId.value
  }

  /** `siblings`: the other children of this node's parent; none when the parent is missing. */
  function Siblings(n: NodeRec, nodes: seq<NodeRec>): (r: seq<NodeRec>)
    ensures forall x :: x in r ==> x in nodes && x.id != n.id && x.parentId == n.parentId
    ensures ParentLoaded(n, nodes) ==>
      forall x :: x in nodes && x.parentId == n.parentId && x.id != n.id ==> x in r
    ensures !ParentLoaded(n, nodes) ==> r == []
  {
    if !ParentLoaded(n, nodes) then []
    else OtherChildren(nodes, n.parentId.value, n.id)
  }

  /** The nodes under `parent` other than `self`, in table order. */
  function OtherChildren(nodes: seq<NodeRec>, parent: nat, self: nat): (r: seq<NodeRec>)
    ensures forall x :: x in r <==> x in nodes && x.parentId == Some(parent) && x.id != self
    decreases |nodes|
  {
    if |nodes| == 0 then []
    else
      assert forall x :: x in nodes <==> x == nodes[0] || x in nodes[1..];
      (if nodes[0].parentId == Some(parent) && nodes[0].id != self then [nodes[0]] else [])
        + OtherChildren(nodes[1..], parent, self)
  }

  /** A node is never its own sibling, whichever table it is looked up in. */
  lemma NotOwnSibling(n: NodeRec, nodes: seq<NodeRec>)
    ensures n !in Siblings(n, nodes)
  {
  }
}

=== FILE: page.dfy ===
/** Page maintenance and the trophic web (app/models/page.rb): the id windows of
    `fix_all_missing_native_nodes`, healing of pages whose native node is gone, removal
    of node-less pages, `ancestry_ids`, the autocomplete weight, and the culling of a
    page's predator/prey/competitor web.

    Database reads are inputs: page and node records, the trophic relationships the
    graph database returns, and for each page whether it is a species with an icon. */
module Pages {
  import opened Wrappers
  import opened Sequences

  // ---------------------------------------------------------------------------
  // Native-node windows

  const HealBatch: nat := 10000

  /** The windows `[s, s + 10000)` the loop visits from `start` while `start < upper`. */
  function HealWindows(start: int, upper: int): (ws: seq<int>)
    ensures forall i :: 0 <= i < |ws| ==> ws[i] == start + i * HealBatch && ws[i] < upper
    ensures |ws| > 0 ==> ws[|ws| - 1] + HealBatch >= upper
    decreases upper - start
  {
    if start < upper then [start] + HealWindows(start + HealBatch, upper) else []
  }

  /** `fix_all_missing_native_nodes`: with no pages `maximum(:id)` is nil and the first
      comparison raises; otherwise the window starts from 1. */
  function FixAllWindows(maxId: Option<int>): (r: Result<seq<int>>)
    ensures maxId.None? <==> r.Raise?
    ensures r.Ok? ==> r.value == HealWindows(1, maxId.value)
  {
    match maxId
    case None => Raise("comparison of Integer with nil failed")
    case Some(upper) => Ok(HealWindows(1, upper))
  }

  predicate InWindows(ws: seq<int>, x: int) {
    exists i :: 0 <= i < |ws| && ws[i] <= x < ws[i] + HealBatch
  }

  /** The windows are disjoint, contiguous from 1, and cover every id below the maximum. */
  lemma {:induction false} HealWindowsCoverBelow(start: int, upper: int, x: int)
    requires start <= x < upper
    ensures InWindows(HealWindows(start, upper), x)
    decreases upper - start
  {
    var ws := HealWindows(start, upper);
    if x >= start + HealBatch {
      HealWindowsCoverBelow(start + HealBatch, upper, x);
      var i :| 0 <= i < |ws| - 1 && ws[1..][i] <= x < ws[1..][i] + HealBatch;
      assert ws[i + 1] <= x < ws[i + 1] + HealBatch;
    } else {
      assert ws[0] <= x < ws[0] + HealBatch;
    }
  }

  /** The maximum id itself is visited exactly when it is not 1 more than a multiple of
      10000: at 10001, say, the loop stops after the window [1, 10001). */
  lemma HealWindowsMissMax(upper: int)
    requires upper >= 1
    ensures InWindows(HealWindows(1, upper), upper) <==> upper % HealBatch != 1
  {
    HealWindowsReachUpper(1, upper);
    assert (upper - 1) % HealBatch == 0 <==> upper % HealBatch == 1;
  }

  /** From any start, the windows reach `upper` itself unless it is a whole number of
      windows away. */
  lemma {:induction false} HealWindowsReachUpper(start: int, upper: int)
    requires start <= upper
    ensures InWindows(HealWindows(start, upper), upper) <==> (upper - start) % HealBatch != 0
    decreases upper - start
  {
    var ws := HealWindows(start, upper);
    if upper - start < HealBatch {
      ModSmall(upper - start);
      if start < upper {
        assert ws[0] <= upper < ws[0] + HealBatch;
      }
    } else {
      HealWindowsReachUpper(start + HealBatch, upper);
      InLaterWindows([start], HealWindows(start + HealBatch, upper), upper);
      ModShift(upper - start);
    }
  }

  /** Past a window that stops short of `x`, only the later windows can hold it. */
  lemma InLaterWindows(first: seq<int>, rest: seq<int>, x: int)
    requires |first| == 1 && first[0] + HealBatch <= x
    ensures InWindows(first + rest, x) <==> InWindows(rest, x)
  {
    var ws := first + rest;
    if InWindows(ws, x) {
      var i :| 0 <= i < |ws| && ws[i] <= x < ws[i] + HealBatch;
      assert rest[i - 1] == ws[i];
    }
    if InWindows(rest, x) {
      var i :| 0 <= i < |rest| && rest[i] <= x < rest[i] + HealBatch;
      assert ws[i + 1] == rest[i];
    }
  }

  /** Taking one window off leaves the remainder alone. */
  lemma ModSmall(x: int)
    requires 0 <= x < HealBatch
    ensures x % HealBatch == x
  {
    assert HealBatch == 10000;
  }

  lemma ModShift(x: int)
    requires x >= HealBatch
    ensures (x - HealBatch) % HealBatch == x % HealBatch
  {
    assert HealBatch == 10000;
    assert (x - 10000) % 10000 == x % 10000;
  }

  // ---------------------------------------------------------------------------
  // Healing and removal

  /** A page with its native node id, the ids of its nodes (in order), and whether any page
      content or scientific name points at it. */
  datatype PageRec = PageRec(id: nat, nativeNodeId: Option<nat>, nodeIds: seq<nat>, hasContent: bool, hasName: bool)

  datatype Healing = Untouched | Retained | Destroyed | Healed(nodeId: nat)

  /** `fix_missing_native_nodes` for one page: pages whose native node exists are not
      selected; a node-less page is destroyed only when nothing refers to it; otherwise its
      first node becomes its native node. */
  function Heal(p: PageRec, existingNodes: set<nat>): (h: Healing)
    ensures h.Untouched? <==> p.nativeNodeId.Some? && p.nativeNodeId.value in existingNodes
    ensures h.Destroyed? ==> |p.nodeIds| == 0 && !p.hasContent && !p.hasName
    ensures h.Retained? ==> |p.nodeIds| == 0 && (p.hasContent || p.hasName)
    ensures h.Healed? ==> |p.nodeIds| > 0 && h.nodeId == p.nodeIds[0]
  {
    if p.nativeNodeId.Some? && p.nativeNodeId.value in existingNodes then Untouched
    else if |p.nodeIds| == 0 then (if p.hasContent || p.hasName then Retained else Destroyed)
    else Healed(p.nodeIds[0])
  }

  /** A page after healing: gone when destroyed, pointing at its first node when healed. */
  function AfterHealing(p: PageRec, existingNodes: set<nat>): Option<PageRec> {
    match Heal(p, existingNodes)
    case Destroyed => None
    case Healed(n) => Some(p.(nativeNodeId := Some(n)))
    case _ => Some(p)
  }

  /** The pages after healing a scope, in order. */
  function FixMissingNativeNodes(pages: seq<PageRec>, existingNodes: set<nat>): (r: seq<PageRec>)
    ensures |r| <= |pages|
    ensures forall i :: 0 <= i < |pages| && AfterHealing(pages[i], existingNodes).Some? ==> AfterHealing(pages[i], existingNodes).value in r
    ensures forall q :: q in r ==> exists i :: 0 <= i < |pages| && AfterHealing(pages[i], existingNodes) == Some(q)
    decreases |pages|
  {
    if |pages| == 0 then []
    else
      var rest := FixMissingNativeNodes(pages[1..], existingNodes);
      assert forall i :: 1 <= i < |pages| ==> pages[i] == pages[1..][i - 1];
      match AfterHealing(pages[0], existingNodes)
      case None => rest
      case Some(q) => [q] + rest
  }

  /** Only pages that no node, content or name refers to disappear, and pages whose native
      node exists come through unchanged. */
  lemma HealingKeepsReferencedPages(pages: seq<PageRec>, existingNodes: set<nat>, i: nat)
    requires i < |pages|
    ensures (|pages[i].nodeIds| > 0 || pages[i].hasContent || pages[i].hasName ||
             (pages[i].nativeNodeId.Some? && pages[i].nativeNodeId.value in existingNodes)) ==>
      exists q :: q in FixMissingNativeNodes(pages, existingNodes) && q.id == pages[i].id && q.nodeIds == pages[i].nodeIds
    ensures pages[i].nativeNodeId.Some? && pages[i].nativeNodeId.value in existingNodes ==>
      pages[i] in FixMissingNativeNodes(pages, existingNodes)
  {
    var h := AfterHealing(pages[i], existingNodes);
    if h.Some? {
      assert h.value in FixMissingNativeNodes(pages, existingNodes);
    }
  }

  /** One `find_in_batches` group of `remove_if_nodeless`: the ids no node refers to. */
  function NodelessIn(group: seq<nat>, nodePageIds: set<nat>): (bad: set<nat>)
    ensures forall x :: x in bad <==> x in group && x !in nodePageIds
  {
    set x | x in group && x !in nodePageIds
  }

  /** `remove_if_nodeless`: pages are visited in groups of 10000 and each group's node-less
      pages are deleted. */
  function RemoveIfNodeless(pageIds: seq<nat>, nodePageIds: set<nat>): (deleted: set<nat>)
    decreases |pageIds|
  {
    if |pageIds| <= HealBatch then NodelessIn(pageIds, nodePageIds)
    else NodelessIn(pageIds[..HealBatch], nodePageIds) + RemoveIfNodeless(pageIds[HealBatch..], nodePageIds)
  }

  /** Whatever the batching, exactly the pages no node refers to are deleted. */
  lemma {:induction false} RemoveIfNodelessExact(pageIds: seq<nat>, nodePageIds: set<nat>)
    ensures forall x :: x in RemoveIfNodeless(pageIds, nodePageIds) <==> x in pageIds && x !in nodePageIds
    decreases |pageIds|
  {
    if |pageIds| > HealBatch {
      RemoveIfNodelessExact(pageIds[HealBatch..], nodePageIds);
      assert pageIds == pageIds[..HealBatch] + pageIds[HealBatch..];
      forall x ensures x in pageIds <==> x in pageIds[..HealBatch] || x in pageIds[HealBatch..] {
        if x in pageIds {
          var i :| 0 <= i < |pageIds| && pageIds[i] == x;
          if i >= HealBatch { assert pageIds[HealBatch..][i - HealBatch] == x; }
        }
      }
    }
  }

  // ---------------------------------------------------------------------------
  // Ancestry

  /** The page ids of a native node's ancestors, nil for nodes without a page. */
  function Compact(xs: seq<Option<nat>>): (ys: seq<nat>)
    ensures |ys| <= |xs|
    ensures forall y :: y in ys <==> Some(y) in xs
  {
    if |xs| == 0 then []
    else
      assert forall x :: x in xs <==> x == xs[0] || x in xs[1..];
      (if xs[0].Some? then [xs[0].value] else []) + Compact(xs[1..])
  }

  /** `ancestry_ids`: the ancestors' pages (nil ones dropped) followed by the page itself;
      just the page when it has no native node. */
  function AncestryIds(id: nat, ancestorPages: Option<seq<Option<nat>>>): (ids: seq<nat>)
    ensures |ids| >= 1 && ids[|ids| - 1] == id
    ensures ancestorPages.None? ==> ids == [id]
    ensures ancestorPages.Some? ==> (|ids| <= |ancestorPages.value| + 1 &&
      forall x :: x in ids[..|ids| - 1] <==> Some(x) in ancestorPages.value)
  {
    match ancestorPages
    case None => [id]
    case Some(a) =>
      var c := Compact(a);
      assert (c + [id])[..|c|] == c;
      c + [id]
  }

  // ---------------------------------------------------------------------------
  // Autocomplete

  const BaseAutocompleteWeight: int := 100

  function Min(a: int, b: int): int {
    if a <= b then a else b
  }

  /** `BASE_AUTOCOMPLETE_WEIGHT - [n.length, BASE_AUTOCOMPLETE_WEIGHT - 1].min`. */
  function AutocompleteWeight(length: nat): (w: int)
    ensures 1 <= w <= BaseAutocompleteWeight
    ensures length < BaseAutocompleteWeight ==> w == BaseAutocompleteWeight - length
  {
    BaseAutocompleteWeight - Min(length, BaseAutocompleteWeight - 1)
  }

  /** Shorter names never weigh less. */
  lemma AutocompleteWeightNonIncreasing(a: nat, b: nat)
    requires a <= b
    ensures AutocompleteWeight(b) <= AutocompleteWeight(a)
  {
  }

  // ---------------------------------------------------------------------------
  // Trophic web

  const PredPreyLimit: nat := 7
  const CompLimit: nat := 10

  /** A relationship from the graph database: its type, source page, target page and id. */
  datatype Rel = Rel(kind: string, source: nat, target: nat, id: nat)

  datatype Link = Link(source: nat, target: nat)

  datatype Group = SourceGroup | PredatorGroup | PreyGroup | CompetitorGroup

  /** A node of the web: the `trophic_hash` of a page, reduced to its id and group. */
  datatype TNode = TNode(id: nat, group: Group)

  predicate KnownType(k: string) {
    k == "prey" || k == "predator" || k == "competitor"
  }

  /** The error raised for an unknown type as written: the message interpolates `row`,
      which is not defined in that method, so building it raises a NameError. */
  /** Ruby's `NameError` message for a bare name that is neither a local nor a method. */
  function UndefinedName(name: string, receiver: string): (m: string)
    ensures |m| > 0 && m[0] == 'u'
  {
    "undefined local variable or method `" + name + "' for " + receiver
  }

  const UndefinedRow: string := UndefinedName("row", "an instance of Page")

  function KeepExisting(rels: seq<Rel>, existing: set<nat>): (r: seq<Rel>)
    ensures |r| <= |rels|
    ensures forall x :: x in r <==> x in rels && x.source in existing && x.target in existing
  {
    if |rels| == 0 then []
    else
      assert forall x :: x in rels <==> x == rels[0] || x in rels[1..];
      (if rels[0].source in existing && rels[0].target in existing then [rels[0]] else []) + KeepExisting(rels[1..], existing)
  }

  /** `trophic_relationships` as written: any relationship of an unknown type raises (a
      NameError, while building the intended message); otherwise relationships whose source
      or target page does not exist are dropped. */
  function TrophicRelationshipsAsWritten(rels: seq<Rel>, existing: set<nat>): (r: Result<seq<Rel>>)
    ensures r.Raise? <==> exists x :: x in rels && !KnownType(x.kind)
    ensures r.Raise? ==> r.message == UndefinedRow
    ensures r.Ok? ==> r.value == KeepExisting(rels, existing)
  {
    if exists x :: x in rels && !KnownType(x.kind) then Raise(UndefinedRow) else Ok(KeepExisting(rels, existing))
  }

  function UnknownTypeMessage(x: Rel): string {
    "Unrecognized relationship type `" + x.kind + "` in trophic relationship " + NatString(x.id)
  }

  function NatString(n: nat): string
    decreases n
  {
    if n < 10 then ["0123456789"[n]] else NatString(n / 10) + ["0123456789"[n % 10]]
  }

  /** The first relationship of an unknown type. */
  function FirstUnknown(rels: seq<Rel>): (x: Option<Rel>)
    ensures x.None? <==> forall y :: y in rels ==> KnownType(y.kind)
    ensures x.Some? ==> x.value in rels && !KnownType(x.value.kind)
  {
    if |rels| == 0 then None
    else if !KnownType(rels[0].kind) then Some(rels[0])
    else
      assert forall y :: y in rels <==> y == rels[0] || y in rels[1..];
      FirstUnknown(rels[1..])
  }

  /** `trophic_relationships` as evidently intended: the unknown type and the relationship
      id are named in the message; the filtering is the same. */
  function TrophicRelationships(rels: seq<Rel>, existing: set<nat>): (r: Result<seq<Rel>>)
    ensures r.Raise? <==> exists x :: x in rels && !KnownType(x.kind)
    ensures r.Raise? ==> exists x :: x in rels && !KnownType(x.kind) && r.message == UnknownTypeMessage(x)
    ensures r.Ok? ==> forall x :: x in r.value <==> x in rels && x.source in existing && x.target in existing
  {
    match FirstUnknown(rels)
    case Some(x) => Raise(UnknownTypeMessage(x))
    case None => Ok(KeepExisting(rels, existing))
  }

  lemma MessagesDiffer(x: Rel)
    ensures UndefinedRow != UnknownTypeMessage(x)
  {
    assert UnknownTypeMessage(x)[0] == 'U';
  }

  /** Both raise on the same inputs and agree when they do not; only the message differs. */
  lemma TrophicRelationshipsAgree(rels: seq<Rel>, existing: set<nat>)
    ensures TrophicRelationshipsAsWritten(rels, existing).Raise? <==> TrophicRelationships(rels, existing).Raise?
    ensures TrophicRelationships(rels, existing).Ok? ==>
      TrophicRelationshipsAsWritten(rels, existing) == TrophicRelationships(rels, existing)
    ensures TrophicRelationships(rels, existing).Raise? ==>
      TrophicRelationshipsAsWritten(rels, existing).message != TrophicRelationships(rels, existing).message
  {
    var r := TrophicRelationships(rels, existing);
    if r.Raise? {
      var x :| x in rels && !KnownType(x.kind) && r.message == UnknownTypeMessage(x);
      MessagesDiffer(x);
    }
  }

  /** A Ruby `Set` built from a list: first occurrences, in order. */
  function Uniq(xs: seq<nat>): (ys: seq<nat>)
    ensures forall y :: y in ys <==> y in xs
    ensures forall i, j :: 0 <= i < j < |ys| ==> ys[i] != ys[j]
    decreases |xs|
  {
    if |xs| == 0 then []
    else
      var rest := Uniq(xs[..|xs| - 1]);
      assert forall y :: y in xs <==> y == xs[|xs| - 1] || y in xs[..|xs| - 1];
      if xs[|xs| - 1] in rest then rest else rest + [xs[|xs| - 1]]
  }

  /** `trophic_relationship_ids_by_type`: the source (or target) pages of the relationships
      of one type. */
  function IdsByType(rels: seq<Rel>, kind: string, bySource: bool): (ids: seq<nat>)
    ensures forall x :: x in ids <==> exists r :: r in rels && r.kind == kind && x == (if bySource then r.source else r.target)
  {
    var ofKind := Keep(rels, kind);
    var ends := seq(|ofKind|, i requires 0 <= i < |ofKind| => if bySource then ofKind[i].source else ofKind[i].target);
    assert forall x :: x in ends <==> exists r :: r in ofKind && x == (if bySource then r.source else r.target) by {
      forall x | x in ends ensures exists r :: r in ofKind && x == (if bySource then r.source else r.target) {
        var i :| 0 <= i < |ends| && ends[i] == x;
        assert ofKind[i] in ofKind;
      }
      forall r | r in ofKind ensures (if bySource then r.source else r.target) in ends {
        var i :| 0 <= i < |ofKind| && ofKind[i] == r;
        assert ends[i] == (if bySource then r.source else r.target);
      }
    }
    Uniq(ends)
  }

  function Keep(rels: seq<Rel>, kind: string): (r: seq<Rel>)
    ensures forall x :: x in r <==> x in rels && x.kind == kind
  {
    if |rels| == 0 then []
    else
      assert forall x :: x in rels <==> x == rels[0] || x in rels[1..];
      (if rels[0].kind == kind then [rels[0]] else []) + Keep(rels[1..], kind)
  }

  function Ids(ns: seq<TNode>): set<nat> {
    set i | 0 <= i < |ns| :: ns[i].id
  }

  /** `collect_trophic_relationships_by_group`: each id not yet seen whose page is a species
      with an icon becomes a node of the group and is marked seen; a page that was not
      loaded (nil) raises. */
  function CollectByGroup(ids: seq<nat>, g: Group, seen: set<nat>, speciesWithIcon: map<nat, bool>): (r: Result<(seq<TNode>, set<nat>)>)
    ensures r.Ok? ==> Collected(ids, g, seen, speciesWithIcon, r.value.0, r.value.1)
    ensures r.Raise? <==> exists x :: x in ids && x !in seen && x !in speciesWithIcon
    decreases |ids|
  {
    if |ids| == 0 then Ok(([], seen))
    else
      var x := ids[0];
      assert forall y :: y in ids <==> y == x || y in ids[1..];
      if x in seen || (x in speciesWithIcon && !speciesWithIcon[x]) then
        var r :- CollectByGroup(ids[1..], g, seen, speciesWithIcon);
        CollectedSkip(ids, g, seen, speciesWithIcon, r.0, r.1);
        Ok(r)
      else if x !in speciesWithIcon then Raise("undefined method `rank' for nil")
      else
        var r :- CollectByGroup(ids[1..], g, seen + {x}, speciesWithIcon);
        CollectedTake(ids, g, seen, speciesWithIcon, r.0, r.1);
        Ok(([TNode(x, g)] + r.0, r.1))
  }

  /** What collecting a group promises: the nodes are new, distinct members of the group
      drawn from `ids` in their order, exactly the unseen species with an icon, and `seen2`
      marks them seen. */
  predicate Collected(ids: seq<nat>, g: Group, seen: set<nat>, speciesWithIcon: map<nat, bool>,
                      ns: seq<TNode>, seen2: set<nat>) {
    seen2 == seen + Ids(ns) && Ids(ns) !! seen && |ns| <= |ids| && SubseqOf(IdSeq(ns), ids) &&
    (forall i :: 0 <= i < |ns| ==> ns[i].group == g && ns[i].id in ids) &&
    (forall i, j :: 0 <= i < j < |ns| ==> ns[i].id != ns[j].id) &&
    (forall x :: x in ids && x !in seen ==> (x in Ids(ns) <==> x in speciesWithIcon && speciesWithIcon[x]))
  }

  /** An id already seen, or not a species with an icon, adds no node. */
  lemma CollectedSkip(ids: seq<nat>, g: Group, seen: set<nat>, speciesWithIcon: map<nat, bool>,
                      ns: seq<TNode>, seen2: set<nat>)
    requires |ids| > 0 && (ids[0] in seen || (ids[0] in speciesWithIcon && !speciesWithIcon[ids[0]]))
    requires Collected(ids[1..], g, seen, speciesWithIcon, ns, seen2)
    ensures Collected(ids, g, seen, speciesWithIcon, ns, seen2)
  {
    assert forall y :: y in ids <==> y == ids[0] || y in ids[1..];
    SubseqOfTail(IdSeq(ns), ids);
  }

  /** An unseen species with an icon becomes the group's next node. */
  lemma CollectedTake(ids: seq<nat>, g: Group, seen: set<nat>, speciesWithIcon: map<nat, bool>,
                      ns: seq<TNode>, seen2: set<nat>)
    requires |ids| > 0 && ids[0] !in seen && ids[0] in speciesWithIcon && speciesWithIcon[ids[0]]
    requires Collected(ids[1..], g, seen + {ids[0]}, speciesWithIcon, ns, seen2)
    ensures Collected(ids, g, seen, speciesWithIcon, [TNode(ids[0], g)] + ns, seen2)
  {
    var all := [TNode(ids[0], g)] + ns;
    assert forall y :: y in ids <==> y == ids[0] || y in ids[1..];
    IdsCons(TNode(ids[0], g), ns);
    forall i | 0 < i < |all| ensures all[i] == ns[i - 1] {}
    assert IdSeq(all)[1..] == IdSeq(ns);
  }

  /** The ids of nodes, in order. */
  function IdSeq(ns: seq<TNode>): (ids: seq<nat>)
    ensures |ids| == |ns| && forall i :: 0 <= i < |ns| ==> ids[i] == ns[i].id
  {
    seq(|ns|, i requires 0 <= i < |ns| => ns[i].id)
  }

  lemma IdsCons(n: TNode, ns: seq<TNode>)
    ensures Ids([n] + ns) == {n.id} + Ids(ns)
  {
    var all := [n] + ns;
    forall y | y in Ids(all) ensures y in {n.id} + Ids(ns) {
      var i :| 0 <= i < |all| && all[i].id == y;
      if i > 0 { assert ns[i - 1].id == y; }
    }
    forall y | y in Ids(ns) ensures y in Ids(all) {
      var i :| 0 <= i < |ns| && ns[i].id == y;
      assert all[i + 1].id == y;
    }
    assert all[0].id == n.id;
  }

  /** The competitors recorded for a prey page. */
  function CompsOf(m: map<nat, seq<nat>>, p: nat): seq<nat> {
    if p in m then m[p] else []
  }

  /** How a link pairs a prey with a competitor, checking source-as-prey first. */
  function Pairing(l: Link, prey: set<nat>, comp: set<nat>): Option<(nat, nat)> {
    if l.source in prey && l.target in comp then Some((l.source, l.target))
    else if l.target in prey && l.source in comp then Some((l.target, l.source))
    else None
  }

  /** `build_prey_to_comp_ids`: for every link joining a prey and a competitor (nil links
      skipped), the competitor is appended under the prey, once per link. */
  function BuildPreyToCompIds(prey: set<nat>, comp: set<nat>, links: seq<Option<Link>>): (m: map<nat, seq<nat>>)
    ensures forall p :: p in m ==> p in prey && |m[p]| > 0
    ensures forall p: nat, c: nat :: c in CompsOf(m, p) <==>
      exists i :: 0 <= i < |links| && links[i].Some? && Pairing(links[i].value, prey, comp) == Some((p, c))
    decreases |links|
  {
    if |links| == 0 then map[]
    else
      var m := BuildPreyToCompIds(prey, comp, links[..|links| - 1]);
      assert forall i :: 0 <= i < |links| - 1 ==> links[..|links| - 1][i] == links[i];
      var l := links[|links| - 1];
      if l.None? then m
      else match Pairing(l.value, prey, comp)
        case None => m
        case Some((p, c)) => m[p := CompsOf(m, p) + [c]]
  }

  /** With disjoint prey and competitor sets, a link pairs them in either direction. */
  lemma PairingEitherDirection(l: Link, prey: set<nat>, comp: set<nat>, p: nat, c: nat)
    requires prey !! comp
    ensures Pairing(l, prey, comp) == Some((p, c)) <==>
      p in prey && c in comp && (l == Link(p, c) || l == Link(c, p))
  {
  }

  function Count(m: map<nat, seq<nat>>, n: TNode): nat {
    |CompsOf(m, n.id)|
  }

  predicate SortedByCountDesc(ns: seq<TNode>, m: map<nat, seq<nat>>) {
    forall i, j :: 0 <= i < j < |ns| ==> Count(m, ns[i]) >= Count(m, ns[j])
  }

  function InsertByCount(x: TNode, ns: seq<TNode>, m: map<nat, seq<nat>>): (r: seq<TNode>)
    ensures multiset(r) == multiset(ns) + multiset{x}
    ensures forall i :: 0 <= i < |r| ==> r[i] == x || r[i] in ns
    decreases |ns|
  {
    if |ns| == 0 || Count(m, x) >= Count(m, ns[0]) then [x] + ns
    else
      assert ns == [ns[0]] + ns[1..];
      [ns[0]] + InsertByCount(x, ns[1..], m)
  }

  lemma {:induction false} InsertByCountSorted(x: TNode, ns: seq<TNode>, m: map<nat, seq<nat>>)
    requires SortedByCountDesc(ns, m)
    ensures SortedByCountDesc(InsertByCount(x, ns, m), m)
    decreases |ns|
  {
    HeadOutranks(ns, m);
    if |ns| > 0 && Count(m, x) < Count(m, ns[0]) {
      var rest := InsertByCount(x, ns[1..], m);
      InsertByCountSorted(x, ns[1..], m);
      forall y | y in rest ensures Count(m, ns[0]) >= Count(m, y) {
        var i :| 0 <= i < |rest| && rest[i] == y;
      }
      ConsSorted(ns[0], rest, m);
    } else {
      ConsSorted(x, ns, m);
    }
  }

  /** A head that outranks a sorted tail keeps the list sorted. */
  lemma ConsSorted(h: TNode, rest: seq<TNode>, m: map<nat, seq<nat>>)
    requires SortedByCountDesc(rest, m)
    requires forall y :: y in rest ==> Count(m, h) >= Count(m, y)
    ensures SortedByCountDesc([h] + rest, m)
  {
    var r := [h] + rest;
    forall i, j | 0 <= i < j < |r| ensures Count(m, r[i]) >= Count(m, r[j]) {
      assert r[j] == rest[j - 1];
      if i > 0 {
        assert r[i] == rest[i - 1];
      }
    }
  }

  /** The head of a sorted list outranks everything after it. */
  lemma HeadOutranks(ns: seq<TNode>, m: map<nat, seq<nat>>)
    requires SortedByCountDesc(ns, m)
    ensures |ns| > 0 ==> forall y :: y in ns ==> Count(m, ns[0]) >= Count(m, y)
  {
    forall y | y in ns ensures Count(m, ns[0]) >= Count(m, y) {
      var j :| 0 <= j < |ns| && ns[j] == y;
    }
  }

  /** The prey ordered by decreasing competitor count (Ruby's `sort` with
      `b_count - a_count`; the order among equal counts is this model's choice). */
  function SortByCount(ns: seq<TNode>, m: map<nat, seq<nat>>): (r: seq<TNode>)
    ensures SortedByCountDesc(r, m)
    ensures multiset(r) == multiset(ns)
    decreases |ns|
  {
    if |ns| == 0 then []
    else
      assert ns == [ns[0]] + ns[1..];
      InsertByCountSorted(ns[0], SortByCount(ns[1..], m), m);
      InsertByCount(ns[0], SortByCount(ns[1..], m), m)
  }

  /** Competitors recorded for any of the kept prey. */
  function KeptComps(m: map<nat, seq<nat>>, prey: seq<TNode>): (ids: set<nat>)
    ensures forall c :: c in ids <==> exists i :: 0 <= i < |prey| && c in CompsOf(m, prey[i].id)
  {
    set i, c | 0 <= i < |prey| && c in CompsOf(m, prey[i].id) :: c
  }

  /** `comp_nodes.select`: the competitors whose id is kept, in their order. */
  function SelectComps(comps: seq<TNode>, keep: set<nat>): (r: seq<TNode>)
    ensures |r| <= |comps|
    ensures forall x :: x in r <==> x in comps && x.id in keep
    ensures SubseqOf(r, comps)
  {
    if |comps| == 0 then []
    else
      assert forall x :: x in comps <==> x == comps[0] || x in comps[1..];
      var rest := SelectComps(comps[1..], keep);
      if comps[0].id in keep then
        assert ([comps[0]] + rest)[1..] == rest;
        [comps[0]] + rest
      else
        SubseqOfTail(rest, comps);
        rest
  }

  /** The culled web, group by group. */
  datatype Web = Web(sources: seq<TNode>, preds: seq<TNode>, prey: seq<TNode>, comps: seq<TNode>, links: seq<Link>)

  function Nodes(w: Web): seq<TNode> {
    w.sources + w.preds + w.prey + w.comps
  }

  const EmptyWeb := Web([], [], [], [], [])

  function KeepLinks(links: seq<Link>, ids: set<nat>): (r: seq<Link>)
    ensures forall l :: l in r <==> l in links && l.source in ids && l.target in ids
  {
    if |links| == 0 then []
    else
      assert forall l :: l in links <==> l == links[0] || l in links[1..];
      (if links[0].source in ids && links[0].target in ids then [links[0]] else []) + KeepLinks(links[1..], ids)
  }

  function Wrap(links: seq<Link>): (r: seq<Option<Link>>)
    ensures |r| == |links| && forall i :: 0 <= i < |links| ==> r[i] == Some(links[i])
  {
    seq(|links|, i requires 0 <= i < |links| => Some(links[i]))
  }

  lemma IdsOfPart(ns: seq<TNode>, k: nat)
    requires k <= |ns|
    ensures Ids(ns[..k]) <= Ids(ns)
  {
    forall y | y in Ids(ns[..k]) ensures y in Ids(ns) {
      var i :| 0 <= i < k && ns[..k][i].id == y;
      assert ns[i].id == y;
    }
  }

  lemma IdsOfPermutation(a: seq<TNode>, b: seq<TNode>)
    requires multiset(a) == multiset(b)
    ensures Ids(a) == Ids(b)
  {
    forall y | y in Ids(a) ensures y in Ids(b) {
      var i :| 0 <= i < |a| && a[i].id == y;
      assert a[i] in multiset(b);
      var j :| 0 <= j < |b| && b[j] == a[i];
    }
    forall y | y in Ids(b) ensures y in Ids(a) {
      var i :| 0 <= i < |b| && b[i].id == y;
      assert b[i] in multiset(a);
      var j :| 0 <= j < |a| && a[j] == b[i];
    }
  }

  lemma IdsOfSelection(comps: seq<TNode>, keep: set<nat>)
    ensures Ids(SelectComps(comps, keep)) <= Ids(comps)
  {
    var s := SelectComps(comps, keep);
    forall y | y in Ids(s) ensures y in Ids(comps) {
      var i :| 0 <= i < |s| && s[i].id == y;
      assert s[i] in comps;
      var j :| 0 <= j < |comps| && comps[j] == s[i];
    }
  }

  /** Predators, then prey, then competitors collected in turn, each group skipping the
      pages the earlier ones marked seen. */
  function CollectGroups(seen: set<nat>, predIds: seq<nat>, preyIds: seq<nat>, compIds: seq<nat>,
                         speciesWithIcon: map<nat, bool>): (r: Result<(seq<TNode>, seq<TNode>, seq<TNode>, set<nat>)>)
    ensures r.Ok? ==>
      Collected(predIds, PredatorGroup, seen, speciesWithIcon, r.value.0, seen + Ids(r.value.0)) &&
      Collected(preyIds, PreyGroup, seen + Ids(r.value.0), speciesWithIcon, r.value.1, seen + Ids(r.value.0) + Ids(r.value.1)) &&
      Collected(compIds, CompetitorGroup, seen + Ids(r.value.0) + Ids(r.value.1), speciesWithIcon, r.value.2, r.value.3)
    ensures r.Raise? ==> exists x :: (x in predIds || x in preyIds || x in compIds) && x !in speciesWithIcon
  {
    var (predNodes, seen1) :- CollectByGroup(predIds, PredatorGroup, seen, speciesWithIcon);
    var (preyNodes, seen2) :- CollectByGroup(preyIds, PreyGroup, seen1, speciesWithIcon);
    var (compNodes, seen3) :- CollectByGroup(compIds, CompetitorGroup, seen2, speciesWithIcon);
    Ok((predNodes, preyNodes, compNodes, seen3))
  }

  /** The cull of `collect_all_trophic_relationships` over the collected predators `pd`,
      prey `py` and competitors `cp`: the first 7 predators; min(|py|, 7) prey ordered by
      decreasing competitor count, none dropped outranking one kept; at most 10
      competitors, in their order, each linked to a kept prey, and all such when fewer
      than 10; only links between kept nodes. */
  ghost predicate Culled(links: seq<Link>, pd: seq<TNode>, py: seq<TNode>, cp: seq<TNode>, w: Web) {
    var m := BuildPreyToCompIds(Ids(py), Ids(cp), Wrap(links));
    w.preds == Take(pd, PredPreyLimit)
    && |w.prey| == (if |py| < PredPreyLimit then |py| else PredPreyLimit)
    && multiset(w.prey) <= multiset(py) && SortedByCountDesc(w.prey, m)
    && (forall x, y :: x in w.prey && y in py && y !in w.prey ==> Count(m, x) >= Count(m, y))
    && |w.comps| <= CompLimit && SubseqOf(w.comps, cp)
    && (forall c :: c in w.comps ==> c.id in KeptComps(m, w.prey))
    && (|w.comps| < CompLimit ==> forall c :: c in cp && c.id in KeptComps(m, w.prey) ==> c in w.comps)
    && (forall l :: l in w.links <==> l in links && l.source in Ids(Nodes(w)) && l.target in Ids(Nodes(w)))
  }

  /** The web `collect_all_trophic_relationships` builds from the collected groups. */
  function Cull(links: seq<Link>, sources: seq<TNode>, pd: seq<TNode>, py: seq<TNode>, cp: seq<TNode>): Web {
    var m := BuildPreyToCompIds(Ids(py), Ids(cp), Wrap(links));
    var keepPrey := Take(SortByCount(py, m), PredPreyLimit);
    var keepComps := Take(SelectComps(cp, KeptComps(m, keepPrey)), CompLimit);
    var w := Web(sources, Take(pd, PredPreyLimit), keepPrey, keepComps, []);
    w.(links := KeepLinks(links, Ids(Nodes(w))))
  }

  /** The cull keeps what `Culled` says, and only nodes of the groups it was given. */
  lemma CullIsCulled(links: seq<Link>, sources: seq<TNode>, pd: seq<TNode>, py: seq<TNode>, cp: seq<TNode>)
    ensures var w := Cull(links, sources, pd, py, cp);
      Culled(links, pd, py, cp, w) && w.sources == sources
      && (forall n :: n in w.preds ==> n in pd) && (forall n :: n in w.prey ==> n in py)
      && (forall n :: n in w.comps ==> n in cp)
  {
    var m := BuildPreyToCompIds(Ids(py), Ids(cp), Wrap(links));
    var keepPrey := Take(SortByCount(py, m), PredPreyLimit);
    var keepComps := Take(SelectComps(cp, KeptComps(m, keepPrey)), CompLimit);
    var w0 := Web(sources, Take(pd, PredPreyLimit), keepPrey, keepComps, []);
    var w := w0.(links := KeepLinks(links, Ids(Nodes(w0))));
    assert w == Cull(links, sources, pd, py, cp);
    assert Nodes(w) == Nodes(w0);
    KeptPreyCulled(py, m);
    KeptCompsCulled(cp, m, keepPrey);
    forall n | n in w.preds ensures n in pd {
      var i :| 0 <= i < |w.preds| && w.preds[i] == n;
      assert pd[i] == n;
    }
    assert Culled(links, pd, py, cp, w);
  }

  /** Nodes drawn from `ns` have ids among `ns`'s. */
  lemma IdsWithin(kept: seq<TNode>, ns: seq<TNode>)
    requires forall n :: n in kept ==> n in ns
    ensures Ids(kept) <= Ids(ns)
  {
    forall y | y in Ids(kept) ensures y in Ids(ns) {
      var i :| 0 <= i < |kept| && kept[i].id == y;
      assert kept[i] in ns;
      var j :| 0 <= j < |ns| && ns[j] == kept[i];
    }
  }

  /** `collect_all_trophic_relationships`: the collected groups, culled. The groups stay
      disjoint from each other and from the pages seen before. */
  function CollectAll(links: seq<Link>, sources: seq<TNode>, seen: set<nat>, predIds: seq<nat>, preyIds: seq<nat>,
                      compIds: seq<nat>, speciesWithIcon: map<nat, bool>): (r: Result<Web>)
    ensures r.Ok? <==> CollectGroups(seen, predIds, preyIds, compIds, speciesWithIcon).Ok?
    ensures r.Ok? ==> var g := CollectGroups(seen, predIds, preyIds, compIds, speciesWithIcon).value;
      Culled(links, g.0, g.1, g.2, r.value)
    ensures r.Ok? ==> var w := r.value;
      w.sources == sources &&
      |w.preds| <= PredPreyLimit && |w.prey| <= PredPreyLimit && |w.comps| <= CompLimit &&
      Ids(w.preds) !! seen && Ids(w.prey) !! seen && Ids(w.comps) !! seen &&
      Ids(w.preds) !! Ids(w.prey) && Ids(w.preds) !! Ids(w.comps) && Ids(w.prey) !! Ids(w.comps)
    ensures r.Ok? ==>
      (forall n :: n in r.value.preds ==> n.id in predIds) &&
      (forall n :: n in r.value.prey ==> n.id in preyIds) &&
      (forall n :: n in r.value.comps ==> n.id in compIds)
  {
    var (pd, py, cp, _) :- CollectGroups(seen, predIds, preyIds, compIds, speciesWithIcon);
    var w := Cull(links, sources, pd, py, cp);
    CullIsCulled(links, sources, pd, py, cp);
    IdsWithin(w.preds, pd);
    IdsWithin(w.prey, py);
    IdsWithin(w.comps, cp);
    NodesFromIds(pd, w.preds, predIds);
    NodesFromIds(py, w.prey, preyIds);
    NodesFromIds(cp, w.comps, compIds);
    Ok(w)
  }

  /** Kept nodes come from the collected ones, which come from `ids`. */
  lemma NodesFromIds(collected: seq<TNode>, kept: seq<TNode>, ids: seq<nat>)
    requires forall i :: 0 <= i < |collected| ==> collected[i].id in ids
    requires forall n :: n in kept ==> n in collected
    ensures forall n :: n in kept ==> n.id in ids
  {
    forall n | n in kept ensures n.id in ids {
      var i :| 0 <= i < |collected| && collected[i] == n;
    }
  }

  /** The prey half of the cull. */
  lemma KeptPreyCulled(py: seq<TNode>, m: map<nat, seq<nat>>)
    ensures var keep := Take(SortByCount(py, m), PredPreyLimit);
      |keep| == (if |py| < PredPreyLimit then |py| else PredPreyLimit)
      && multiset(keep) <= multiset(py) && SortedByCountDesc(keep, m)
      && (forall x, y :: x in keep && y in py && y !in keep ==> Count(m, x) >= Count(m, y))
      && (forall n :: n in keep ==> n in py)
  {
    var sorted := SortByCount(py, m);
    assert |sorted| == |multiset(sorted)| == |py|;
    KeepTop(sorted, py, m, PredPreyLimit);
  }

  /** The first `n` of a sorted permutation of `ns`: sorted, drawn from `ns`, and counting at
      least as much as every node left out. */
  lemma {:induction false} KeepTop(sorted: seq<TNode>, ns: seq<TNode>, m: map<nat, seq<nat>>, n: nat)
    requires SortedByCountDesc(sorted, m) && multiset(sorted) == multiset(ns)
    ensures var keep := Take(sorted, n);
      multiset(keep) <= multiset(ns) && SortedByCountDesc(keep, m)
      && (forall x, y :: x in keep && y in ns && y !in keep ==> Count(m, x) >= Count(m, y))
      && (forall x :: x in keep ==> x in ns)
  {
    var keep := Take(sorted, n);
    TopOfSorted(sorted, ns, m, n);
    forall x, y | x in keep && y in ns && y !in keep ensures Count(m, x) >= Count(m, y) {
      var i :| 0 <= i < |keep| && keep[i] == x;
      assert y in multiset(sorted);
      var j :| 0 <= j < |sorted| && sorted[j] == y;
      NotInPrefix(sorted, |keep|, j);
    }
    forall x | x in keep ensures x in ns {
      assert x in multiset(keep);
    }
  }

  /** An element outside a prefix sits at an index past it. */
  lemma NotInPrefix(s: seq<TNode>, k: nat, j: nat)
    requires k <= |s| && j < |s| && s[j] !in s[..k]
    ensures j >= k
  {
  }

  /** The competitor half of the cull. */
  lemma KeptCompsCulled(cp: seq<TNode>, m: map<nat, seq<nat>>, keepPrey: seq<TNode>)
    ensures var sel := SelectComps(cp, KeptComps(m, keepPrey));
      var kept := Take(sel, CompLimit);
      SubseqOf(kept, cp)
      && (forall c :: c in kept ==> c in cp && c.id in KeptComps(m, keepPrey))
      && (|kept| < CompLimit ==> forall c :: c in cp && c.id in KeptComps(m, keepPrey) ==> c in kept)
  {
    var sel := SelectComps(cp, KeptComps(m, keepPrey));
    var kept := Take(sel, CompLimit);
    PrefixOfSubseq(sel, cp, |kept|);
    forall c | c in kept ensures c in sel {
      var i :| 0 <= i < |kept| && kept[i] == c;
      assert sel[i] == c;
    }
  }

  /** The kept prey are the ones with the most competitor links: none dropped has more than
      any kept, and every kept competitor is linked to a kept prey. */
  lemma CullKeepsBestPrey(links: seq<Link>, preyNodes: seq<TNode>, compNodes: seq<TNode>)
    ensures var m := BuildPreyToCompIds(Ids(preyNodes), Ids(compNodes), Wrap(links));
      var sorted := SortByCount(preyNodes, m);
      var keep := Take(sorted, PredPreyLimit);
      multiset(keep) <= multiset(preyNodes) &&
      (forall i, j :: 0 <= i < |keep| <= j < |sorted| ==> Count(m, keep[i]) >= Count(m, sorted[j]))
  {
    var m := BuildPreyToCompIds(Ids(preyNodes), Ids(compNodes), Wrap(links));
    TopOfSorted(SortByCount(preyNodes, m), preyNodes, m, PredPreyLimit);
  }

  /** A prefix of a sorted permutation is a sub-multiset, and nothing it drops outranks it. */
  lemma TopOfSorted(sorted: seq<TNode>, ns: seq<TNode>, m: map<nat, seq<nat>>, n: nat)
    requires SortedByCountDesc(sorted, m) && multiset(sorted) == multiset(ns)
    ensures var keep := Take(sorted, n);
      multiset(keep) <= multiset(ns) &&
      (forall i, j :: 0 <= i < |keep| <= j < |sorted| ==> Count(m, keep[i]) >= Count(m, sorted[j]))
  {
    var keep := Take(sorted, n);
    assert sorted == keep + sorted[|keep|..];
    assert multiset(sorted) == multiset(keep) + multiset(sorted[|keep|..]);
  }

  /** Every kept competitor is a collected competitor linked to a kept prey. */
  lemma CullKeepsLinkedComps(m: map<nat, seq<nat>>, keep: seq<TNode>, compNodes: seq<TNode>)
    ensures var kept := Take(SelectComps(compNodes, KeptComps(m, keep)), CompLimit);
      forall c :: c in kept ==> c in compNodes && exists i :: 0 <= i < |keep| && c.id in CompsOf(m, keep[i].id)
  {
    var sel := SelectComps(compNodes, KeptComps(m, keep));
    var kept := Take(sel, CompLimit);
    forall c | c in kept ensures c in sel {
      var i :| 0 <= i < |kept| && kept[i] == c;
      assert sel[i] == c;
    }
  }

  /** `handle_pred_prey_comp_relationships`: the web around page `id` over the page's
      trophic relationships (`existing` are the pages that exist), empty when the page
      itself is not a species with an icon. An unknown relationship type raises before
      anything is collected. The page never reappears in another group, and every node
      and link comes from a kept relationship of the matching type. */
  function TrophicWeb(id: nat, rels: seq<Rel>, existing: set<nat>, speciesWithIcon: map<nat, bool>): (r: Result<Web>)
    ensures (exists i :: 0 <= i < |rels| && !KnownType(rels[i].kind)) ==> r.Raise?
    ensures TrophicRelationships(rels, existing).Raise? ==> r == Raise(TrophicRelationships(rels, existing).message)
    ensures r.Ok? && r.value != EmptyWeb ==>
      r.value.sources == [TNode(id, SourceGroup)] &&
      id !in Ids(r.value.preds) && id !in Ids(r.value.prey) && id !in Ids(r.value.comps)
    ensures r.Ok? ==> forall n :: n in r.value.preds ==>
      exists x :: x in rels && x.kind == "predator" && x.source == n.id && x.source in existing && x.target in existing
    ensures r.Ok? ==> forall n :: n in r.value.prey ==>
      exists x :: x in rels && x.kind == "prey" && x.target == n.id && x.source in existing && x.target in existing
    ensures r.Ok? ==> forall n :: n in r.value.comps ==>
      exists x :: x in rels && x.kind == "competitor" && x.source == n.id && x.source in existing && x.target in existing
    ensures r.Ok? ==> forall l :: l in r.value.links ==>
      exists x :: x in rels && x.source in existing && x.target in existing && l == Link(x.source, x.target)
  {
    assert (exists i :: 0 <= i < |rels| && !KnownType(rels[i].kind)) ==> exists x :: x in rels && !KnownType(x.kind);
    var trs :- TrophicRelationships(rels, existing);
    var r := WebOf(id, trs, speciesWithIcon);
    if r.Ok? then
      NodesFromKept(rels, existing, trs, "predator", true, r.value.preds);
      NodesFromKept(rels, existing, trs, "prey", false, r.value.prey);
      NodesFromKept(rels, existing, trs, "competitor", true, r.value.comps);
      LinksFromKept(rels, existing, trs, r.value.links);
      r
    else r
  }

  /** The web over the kept relationships `trs`. */
  function WebOf(id: nat, trs: seq<Rel>, speciesWithIcon: map<nat, bool>): (r: Result<Web>)
    ensures r.Ok? && r.value != EmptyWeb ==>
      r.value.sources == [TNode(id, SourceGroup)] &&
      id !in Ids(r.value.preds) && id !in Ids(r.value.prey) && id !in Ids(r.value.comps)
    ensures r.Ok? ==>
      (forall n :: n in r.value.preds ==> n.id in IdsByType(trs, "predator", true)) &&
      (forall n :: n in r.value.prey ==> n.id in IdsByType(trs, "prey", false)) &&
      (forall n :: n in r.value.comps ==> n.id in IdsByType(trs, "competitor", true))
    ensures r.Ok? ==> forall l :: l in r.value.links ==> exists i :: 0 <= i < |trs| && l == Link(trs[i].source, trs[i].target)
  {
    var preyIds := IdsByType(trs, "prey", false);
    var predIds := IdsByType(trs, "predator", true);
    var compIds := IdsByType(trs, "competitor", true);
    var (sources, seen) :- CollectByGroup([id], SourceGroup, {}, speciesWithIcon);
    if |sources| == 0 then Ok(EmptyWeb)
    else
      assert sources[0].id == id && |sources| == 1;
      assert Ids(sources) == {id} by { assert sources[0].id in Ids(sources); }
      var links := RelLinks(trs);
      var r := CollectAll(links, sources, seen, predIds, preyIds, compIds, speciesWithIcon);
      if r.Ok? then
        KeptLinksFrom(trs, links, r.value.links);
        r
      else r
  }

  /** The `{ source:, target: }` link of every relationship, in order. */
  function RelLinks(trs: seq<Rel>): (ls: seq<Link>)
    ensures |ls| == |trs| && forall i :: 0 <= i < |trs| ==> ls[i] == Link(trs[i].source, trs[i].target)
  {
    seq(|trs|, i requires 0 <= i < |trs| => Link(trs[i].source, trs[i].target))
  }

  lemma KeptLinksFrom(trs: seq<Rel>, links: seq<Link>, kept: seq<Link>)
    requires links == RelLinks(trs)
    requires forall l :: l in kept ==> l in links
    ensures forall l :: l in kept ==> exists i :: 0 <= i < |trs| && l == Link(trs[i].source, trs[i].target)
  {
    forall l | l in kept ensures exists i :: 0 <= i < |trs| && l == Link(trs[i].source, trs[i].target) {
      var i :| 0 <= i < |links| && links[i] == l;
    }
  }

  /** Nodes collected from the ids of one relationship type come from a kept
      relationship of that type. */
  lemma NodesFromKept(rels: seq<Rel>, existing: set<nat>, trs: seq<Rel>, kind: string, bySource: bool, ns: seq<TNode>)
    requires forall x :: x in trs <==> x in rels && x.source in existing && x.target in existing
    requires forall n :: n in ns ==> n.id in IdsByType(trs, kind, bySource)
    ensures forall n :: n in ns ==>
      exists x :: x in rels && x.kind == kind && (if bySource then x.source else x.target) == n.id
        && x.source in existing && x.target in existing
  {
  }

  /** Links kept from the relationships join the two pages of a kept relationship. */
  lemma LinksFromKept(rels: seq<Rel>, existing: set<nat>, trs: seq<Rel>, kept: seq<Link>)
    requires forall x :: x in trs <==> x in rels && x.source in existing && x.target in existing
    requires forall l :: l in kept ==> exists i :: 0 <= i < |trs| && l == Link(trs[i].source, trs[i].target)
    ensures forall l :: l in kept ==> exists x :: x in rels && x.source in existing && x.target in existing && l == Link(x.source, x.target)
  {
    forall l | l in kept ensures exists x :: x in rels && x.source in existing && x.target in existing && l == Link(x.source, x.target) {
      var i :| 0 <= i < |trs| && l == Link(trs[i].source, trs[i].target);
      assert trs[i] in trs;
    }
  }
}

=== FILE: publishing_fast.dfy ===
/** The data side of the bulk publisher (app/models/publishing/fast.rb): the static
    relationship map, harvest-id to production-id propagation, the row-count check after
    a bulk load, and the key chosen by the attribute-only update. The reference-id
    windows are in the `ReferenceIds` module.

    A table is a sequence of rows. Each SQL statement the publisher issues is a value
    (`PropagateCall`); the propagation statement, which lives in an
    initializer that is not part of this model, is given the meaning its caller's comment
    describes: join the field's harvest id to the other table's `harv_db_id`, within the
    resource, and store the other row's production id. */
module PublishingFast {
  import opened Wrappers
  import opened Strings

  datatype Klass =
    | Referent | Node | BibliographicCitation | Identifier | ScientificName | NodeAncestor
    | Vernacular | Article | Medium | Attribution | ImageInfo | Reference | ContentSection

  /** A declared foreign key: one target type, or an array of candidate types (a
      polymorphic field), or nil. */
  datatype Target = NoTarget | Single(k: Klass) | Candidates(ks: seq<Klass>)

  datatype FieldDecl = FieldDecl(field: string, target: Target)

  datatype Decl = Decl(klass: Klass, fields: seq<FieldDecl>)

  /** Ruby's `Array(sources)`: the types one field is propagated against, in order. */
  function Sources(t: Target): seq<Klass> {
    match t
    case NoTarget => []
    case Single(k) => [k]
    case Candidates(ks) => ks
  }

  /** The position of `k`'s declaration in the relationship map. */
  function Rank(k: Klass): (r: nat)
    ensures r < 13
  {
    match k
    case Referent => 0
    case Node => 1
    case BibliographicCitation => 2
    case Identifier => 3
    case ScientificName => 4
    case NodeAncestor => 5
    case Vernacular => 6
    case Article => 7
    case Medium => 8
    case Attribution => 9
    case ImageInfo => 10
    case Reference => 11
    case ContentSection => 12
  }

  /** Every type a declaration's fields point at is declared no later than the declaring
      type, so loading in declaration order loads each target first (or together with a
      self-reference). */
  predicate TargetsDeclaredFirst(d: Decl) {
    forall fd, t :: fd in d.fields && t in Sources(fd.target) ==> Rank(t) <= Rank(d.klass)
  }

  /** `set_relationships`, in declaration order. */
  function Relationships(): (rel: seq<Decl>)
    ensures |rel| == 13
    ensures forall i :: 0 <= i < |rel| ==> Rank(rel[i].klass) == i
    ensures forall k :: rel[Rank(k)].klass == k
  {
    [ Decl(Referent, []),
      Decl(Node, [FieldDecl("parent_id", Single(Node))]),
      Decl(BibliographicCitation, []),
      Decl(Identifier, [FieldDecl("node_id", Single(Node))]),
      Decl(ScientificName, [FieldDecl("node_id", Single(Node))]),
      Decl(NodeAncestor, [FieldDecl("node_id", Single(Node)), FieldDecl("ancestor_id", Single(Node))]),
      Decl(Vernacular, [FieldDecl("node_id", Single(Node))]),
      Decl(Article, [FieldDecl("bibliographic_citation_id", Single(BibliographicCitation))]),
      Decl(Medium, [FieldDecl("bibliographic_citation_id", Single(BibliographicCitation))]),
      Decl(Attribution, [FieldDecl("content_id", Candidates([Medium, Article]))]),
      Decl(ImageInfo, [FieldDecl("medium_id", Single(Medium))]),
      Decl(Reference, [FieldDecl("referent_id", Single(Referent))]),
      Decl(ContentSection, [FieldDecl("content_id", Candidates([Article]))]) ]
  }

  /** Loading in declaration order never loads a row before the rows it points at. */
  lemma RelationshipsLoadTargetsFirst()
    ensures forall d :: d in Relationships() ==> TargetsDeclaredFirst(d)
  {
    var rel := Relationships();
    forall i | 0 <= i < |rel| ensures TargetsDeclaredFirst(rel[i]) {
      var d := rel[i];
      forall fd, t | fd in d.fields && t in Sources(fd.target) ensures Rank(t) <= Rank(d.klass) {
        assert fd == d.fields[0] || fd == d.fields[|d.fields| - 1];
      }
    }
  }

  /** The types in the order `by_resource` loads them: every type exactly once, and every
      type a foreign key points at no later than the type holding the key. */
  function LoadOrder(): (ks: seq<Klass>)
    ensures forall k :: k in ks
    ensures forall i, j :: 0 <= i < j < |ks| ==> ks[i] != ks[j]
    ensures forall i, fd, t :: 0 <= i < |ks| && fd in FieldsOf(ks[i]) && t in Sources(fd.target) ==>
      exists j :: 0 <= j <= i && ks[j] == t
  {
    var rel := Relationships();
    var ks := seq(|rel|, i requires 0 <= i < |rel| => rel[i].klass);
    forall k ensures k in ks {
      assert ks[Rank(k)] == k;
    }
    assert forall i :: 0 <= i < |ks| ==> Rank(ks[i]) == i;
    RelationshipsLoadTargetsFirst();
    forall i, fd, t | 0 <= i < |ks| && fd in FieldsOf(ks[i]) && t in Sources(fd.target)
      ensures exists j :: 0 <= j <= i && ks[j] == t
    {
      assert rel[i] in rel && rel[i].klass == ks[i];
      assert TargetsDeclaredFirst(rel[i]);
      assert ks[Rank(t)] == t;
    }
    ks
  }

  /** The declared fields of `k` (`@relationships[@klass]`). */
  function FieldsOf(k: Klass): seq<FieldDecl> {
    Relationships()[Rank(k)].fields
  }

  // ---------------------------------------------------------------------------
  // Identifier propagation

  /** One `propagate_id(fk:, other:, set:, with: 'id', resource_id:)` call. */
  datatype PropagateCall = PropagateCall(klass: Klass, fk: string, other: Klass, dest: string, resourceId: nat)

  function CountSources(fields: seq<FieldDecl>): nat {
    if |fields| == 0 then 0 else |Sources(fields[0].target)| + CountSources(fields[1..])
  }

  /** A call that propagates field `fd` of `k` against one of its candidate types. */
  predicate CallFor(c: PropagateCall, k: Klass, resourceId: nat, fd: FieldDecl) {
    c.klass == k && c.resourceId == resourceId && c.fk == fd.field && c.dest == fd.field && c.other in Sources(fd.target)
  }

  /** The calls for one field and its candidate types. */
  function FieldCalls(k: Klass, fd: FieldDecl, resourceId: nat): (calls: seq<PropagateCall>)
    ensures |calls| == |Sources(fd.target)|
    ensures forall i :: 0 <= i < |calls| ==> calls[i] == PropagateCall(k, fd.field, Sources(fd.target)[i], fd.field, resourceId)
    ensures forall c :: c in calls <==> CallFor(c, k, resourceId, fd)
  {
    var src := Sources(fd.target);
    var calls := seq(|src|, i requires 0 <= i < |src| => PropagateCall(k, fd.field, src[i], fd.field, resourceId));
    assert forall c :: CallFor(c, k, resourceId, fd) ==> c in calls by {
      forall c | CallFor(c, k, resourceId, fd) ensures c in calls {
        var i :| 0 <= i < |src| && src[i] == c.other;
        assert calls[i] == c;
      }
    }
    calls
  }

  /** `propagate_ids` over a list of field declarations: one call per (field, candidate
      type) pair, fields in order and candidates in array order, nil targets skipped,
      every call scoped to the resource and rewriting the field it reads. */
  function PropagateCalls(k: Klass, fields: seq<FieldDecl>, resourceId: nat): (calls: seq<PropagateCall>)
    ensures |calls| == CountSources(fields)
    ensures forall c :: c in calls ==> c.klass == k && c.resourceId == resourceId && c.fk == c.dest
    ensures forall c :: c in calls <==> exists f :: 0 <= f < |fields| && CallFor(c, k, resourceId, fields[f])
  {
    if |fields| == 0 then []
    else
      var head := FieldCalls(k, fields[0], resourceId);
      var rest := PropagateCalls(k, fields[1..], resourceId);
      SomeFieldSplit(k, fields, resourceId);
      head + rest
  }

  /** Some field of a non-empty list is the first one or some field of the rest. */
  lemma SomeFieldSplit(k: Klass, fields: seq<FieldDecl>, resourceId: nat)
    requires |fields| > 0
    ensures forall c :: (exists f :: 0 <= f < |fields| && CallFor(c, k, resourceId, fields[f])) <==>
      CallFor(c, k, resourceId, fields[0]) || exists f :: 0 <= f < |fields[1..]| && CallFor(c, k, resourceId, fields[1..][f])
  {
    forall c ensures (exists f :: 0 <= f < |fields| && CallFor(c, k, resourceId, fields[f])) <==>
      CallFor(c, k, resourceId, fields[0]) || exists f :: 0 <= f < |fields[1..]| && CallFor(c, k, resourceId, fields[1..][f])
    {
      if exists f :: 0 <= f < |fields| && CallFor(c, k, resourceId, fields[f]) {
        var f :| 0 <= f < |fields| && CallFor(c, k, resourceId, fields[f]);
        if f > 0 {
          assert fields[1..][f - 1] == fields[f];
        }
      }
      if exists f :: 0 <= f < |fields[1..]| && CallFor(c, k, resourceId, fields[1..][f]) {
        var f :| 0 <= f < |fields[1..]| && CallFor(c, k, resourceId, fields[1..][f]);
        assert fields[f + 1] == fields[1..][f];
      }
    }
  }

  /** `propagate_ids` for the current type. */
  function PropagateIds(k: Klass, resourceId: nat): (calls: seq<PropagateCall>)
    ensures |calls| == CountSources(FieldsOf(k))
    ensures forall c :: c in calls ==> c.klass == k && c.resourceId == resourceId
  {
    PropagateCalls(k, FieldsOf(k), resourceId)
  }

  /** A polymorphic field is propagated once per candidate, in array order. */
  lemma AttributionPropagatesAgainstMediaThenArticles(resourceId: nat)
    ensures PropagateIds(Attribution, resourceId) ==
      [PropagateCall(Attribution, "content_id", Medium, "content_id", resourceId),
       PropagateCall(Attribution, "content_id", Article, "content_id", resourceId)]
  {
    assert FieldsOf(Attribution) == [FieldDecl("content_id", Candidates([Medium, Article]))];
  }

  /** A row: its production id, its harvest id, its resource and its foreign-key fields
      (a field missing from the map is NULL). */
  datatype Row = Row(id: nat, harvDbId: int, resourceId: nat, fks: map<string, int>)

  type Db = map<Klass, seq<Row>>

  function Table(db: Db, k: Klass): seq<Row> {
    if k in db then db[k] else []
  }

  /** The production id of the first row of the resource whose harvest id is `v`. */
  function MatchIn(others: seq<Row>, resourceId: nat, v: int): (m: Option<nat>)
    ensures m.Some? <==> exists o :: o in others && o.resourceId == resourceId && o.harvDbId == v
    ensures m.Some? ==> exists o :: o in others && o.resourceId == resourceId && o.harvDbId == v && o.id == m.value
  {
    if |others| == 0 then None
    else if others[0].resourceId == resourceId && others[0].harvDbId == v then Some(others[0].id)
    else
      var m := MatchIn(others[1..], resourceId, v);
      assert forall o :: o in others[1..] ==> o in others;
      assert forall o :: o in others && o != others[0] ==> o in others[1..];
      m
  }

  function PropagateRow(row: Row, call: PropagateCall, others: seq<Row>): Row {
    if row.resourceId == call.resourceId && call.fk in row.fks then
      match MatchIn(others, call.resourceId, row.fks[call.fk])
      case Some(pid) => row.(fks := row.fks[call.dest := pid])
      case None => row
    else row
  }

  /** The propagation statement: rows of the resource whose field holds a harvest id found
      in the other table get that row's production id; nothing else changes. */
  function PropagateId(db: Db, call: PropagateCall): (r: Db)
    ensures forall k :: k != call.klass ==> Table(r, k) == Table(db, k)
    ensures |Table(r, call.klass)| == |Table(db, call.klass)|
    ensures forall i :: 0 <= i < |Table(db, call.klass)| ==>
      var before := Table(db, call.klass)[i];
      var after := Table(r, call.klass)[i];
      && after.id == before.id && after.harvDbId == before.harvDbId && after.resourceId == before.resourceId
      && (before.resourceId != call.resourceId ==> after == before)
      && (forall f :: f != call.dest ==> (f in after.fks <==> f in before.fks) && (f in before.fks ==> after.fks[f] == before.fks[f]))
  {
    var rows := Table(db, call.klass);
    var others := Table(db, call.other);
    db[call.klass := seq(|rows|, i requires 0 <= i < |rows| => PropagateRow(rows[i], call, others))]
  }

  /** After the call, a field that held the harvest id of exactly
      one row of the other table (in the same resource) holds that row's production id. */
  lemma PropagateResolves(db: Db, call: PropagateCall, i: nat, o: Row)
    requires call.fk == call.dest
    requires 0 <= i < |Table(db, call.klass)|
    requires var row := Table(db, call.klass)[i]; row.resourceId == call.resourceId && call.fk in row.fks
    requires o in Table(db, call.other) && o.resourceId == call.resourceId
    requires o.harvDbId == Table(db, call.klass)[i].fks[call.fk]
    requires forall o2 :: o2 in Table(db, call.other) && o2.resourceId == call.resourceId && o2.harvDbId == o.harvDbId ==> o2.id == o.id
    ensures call.dest in Table(PropagateId(db, call), call.klass)[i].fks
    ensures Table(PropagateId(db, call), call.klass)[i].fks[call.dest] == o.id
  {
    var row := Table(db, call.klass)[i];
    var m := MatchIn(Table(db, call.other), call.resourceId, row.fks[call.fk]);
    assert m.Some?;
  }

  /** Nothing in `propagate_id` stops a harvest id of the second candidate type of a
      polymorphic field from equalling a production id written by the first pass: when
      it does, the second pass rewrites the key again. Row `i` after the first pass is
      `PropagateRow` of the original row against the first candidate's table. */
  lemma PolymorphicPassesCanCollide(db: Db, first: PropagateCall, second: PropagateCall, i: nat, o2: Row)
    requires first.klass == second.klass && first.fk == first.dest == second.fk == second.dest
    requires first.resourceId == second.resourceId && first.klass != second.other
    requires 0 <= i < |Table(db, first.klass)|
    requires var row := PropagateRow(Table(db, first.klass)[i], first, Table(db, first.other));
      row.resourceId == first.resourceId && first.dest in row.fks
    requires o2 in Table(db, second.other) && o2.resourceId == second.resourceId
    requires o2.harvDbId == PropagateRow(Table(db, first.klass)[i], first, Table(db, first.other)).fks[first.dest]
    requires forall o :: o in Table(db, second.other) && o.resourceId == second.resourceId && o.harvDbId == o2.harvDbId ==> o.id == o2.id
    ensures Table(PropagateId(PropagateId(db, first), second), first.klass)[i].fks[first.dest] == o2.id
  {
    var db1 := PropagateId(db, first);
    assert Table(db1, first.klass)[i] == PropagateRow(Table(db, first.klass)[i], first, Table(db, first.other));
    assert Table(db1, second.other) == Table(db, second.other);
    PropagateResolves(db1, second, i, o2);
  }

  /** A type with one plain foreign key gets exactly one propagation call. */
  lemma SingleFieldCalls(k: Klass, f: string, t: Klass, resourceId: nat)
    requires FieldsOf(k) == [FieldDecl(f, Single(t))]
    ensures PropagateIds(k, resourceId) == [PropagateCall(k, f, t, f, resourceId)]
  {
    var fields := FieldsOf(k);
    assert fields[1..] == [];
    var head := FieldCalls(k, fields[0], resourceId);
    assert head == [PropagateCall(k, f, t, f, resourceId)];
  }

  /** A node's `parent_id`, holding a harvest id, ends as the production id of the node
      with that harvest id. */
  lemma NodeParentResolved(db: Db, resourceId: nat, i: nat, parent: Row)
    requires 0 <= i < |Table(db, Node)|
    requires var row := Table(db, Node)[i]; row.resourceId == resourceId && "parent_id" in row.fks
    requires parent in Table(db, Node) && parent.resourceId == resourceId
    requires parent.harvDbId == Table(db, Node)[i].fks["parent_id"]
    requires forall o :: o in Table(db, Node) && o.resourceId == resourceId && o.harvDbId == parent.harvDbId ==> o.id == parent.id
    ensures var calls := PropagateIds(Node, resourceId);
      |calls| == 1 && Table(PropagateId(db, calls[0]), Node)[i].fks["parent_id"] == parent.id
  {
    assert FieldsOf(Node) == [FieldDecl("parent_id", Single(Node))];
    SingleFieldCalls(Node, "parent_id", Node, resourceId);
    var calls := PropagateIds(Node, resourceId);
    PropagateResolves(db, calls[0], i, parent);
  }

  // ---------------------------------------------------------------------------
  // Bulk load

  /** `cols.delete('id')`: the production id is never loaded. */
  function LoadedColumns(cols: seq<string>): (r: seq<string>)
    ensures "id" !in r
    ensures forall c :: c in r <==> c in cols && c != "id"
    ensures |r| <= |cols|
  {
    if |cols| == 0 then []
    else if cols[0] == "id" then LoadedColumns(cols[1..])
    else [cols[0]] + LoadedColumns(cols[1..])
  }

  /** `@klass.name.pluralize.downcase`, as it reads in the warning. */
  function PluralName(k: Klass): string {
    match k
    case Referent => "referents"
    case Node => "nodes"
    case BibliographicCitation => "bibliographiccitations"
    case Identifier => "identifiers"
    case ScientificName => "scientificnames"
    case NodeAncestor => "nodeancestors"
    case Vernacular => "vernaculars"
    case Article => "articles"
    case Medium => "media"
    case Attribution => "attributions"
    case ImageInfo => "imageinfos"
    case Reference => "references"
    case ContentSection => "contentsections"
  }

  /** `import` after the load: the new resource-scoped rows are compared with the file's
      line count (`wc`), and a mismatch other than one trailing newline is a warning. A
      failed `LOAD DATA` raises; a row-count mismatch never does. */
  function ImportCheck(k: Klass, file: string, fileLines: nat, before: nat, after: nat, load: Option<string>): (r: Result<Option<string>>)
    ensures r.Raise? <==> load.Some?
    ensures r.Ok? ==> (r.value.Some? <==> fileLines != after - before && fileLines != after - before + 1)
    ensures r.Ok? && r.value.Some? ==> r.value.value == RowCountWarning(k, after - before, fileLines, file)
  {
    if load.Some? then Raise(load.value)
    else
      var delta := after - before;
      if fileLines != delta && fileLines != delta + 1 then Ok(Some(RowCountWarning(k, delta, fileLines, file)))
      else Ok(None)
  }

  /** The warning for a row count that does not match the data file. */
  function RowCountWarning(k: Klass, got: int, expected: nat, file: string): (w: string)
    ensures |w| > 0
  {
    "INCORRECT NUMBER OF ROWS DURING IMPORT OF " + PluralName(k) + ": got " + IntToString(got) +
      ", expected " + NatToString(expected) + " (from " + file + ")"
  }

  /** An N-line file yields no warning whether or not it ends with one blank line. */
  lemma ImportToleratesTrailingNewline(k: Klass, file: string, n: nat, before: nat)
    ensures ImportCheck(k, file, n, before, before + n, None) == Ok(None)
    ensures n > 0 ==> ImportCheck(k, file, n, before, before + n - 1, None) == Ok(None)
  {
  }

  // ---------------------------------------------------------------------------
  // Attribute-only update: key and positions

  const PossibleKeys: seq<string> := ["harv_db_id", "resource_pk", "node_resource_pk"]

  function FirstIndexOf(xs: seq<string>, x: string): (i: nat)
    requires x in xs
    ensures i < |xs| && xs[i] == x && x !in xs[..i]
  {
    if xs[0] == x then 0
    else
      assert x in xs[1..] by { assert xs == [xs[0]] + xs[1..]; }
      var j := FirstIndexOf(xs[1..], x);
      assert xs[..j + 1] == [xs[0]] + xs[1..][..j];
      j + 1
  }

  /** `possible_pks.find { |pk| column_names.include?(pk) }`, as the index of the chosen
      candidate: the first one the table has. */
  function ChooseKey(columns: seq<string>, candidates: seq<string>): (pk: Option<nat>)
    ensures pk.None? <==> forall c :: c in candidates ==> c !in columns
    ensures pk.Some? ==> (pk.value < |candidates| && candidates[pk.value] in columns &&
      forall j :: 0 <= j < pk.value ==> candidates[j] !in columns)
  {
    if |candidates| == 0 then None
    else if candidates[0] in columns then Some(0)
    else
      var r := ChooseKey(columns, candidates[1..]);
      assert forall c :: c in candidates ==> c == candidates[0] || c in candidates[1..];
      if r.Some? then Some(r.value + 1) else None
  }

  const NilMinus := "undefined method `-' for nil"

  /** `column_names.index(pk) - 1`: the key's position in the file, which lacks the leading
      id column. A table without any of the keys raises. */
  function UpdateAttributesKey(columns: seq<string>): (r: Result<(string, int)>)
    ensures r.Raise? <==> forall c :: c in PossibleKeys ==> c !in columns
    ensures r.Ok? ==> (r.value.0 in PossibleKeys && 0 <= r.value.1 + 1 < |columns| &&
      columns[r.value.1 + 1] == r.value.0 && r.value.0 !in columns[..r.value.1 + 1])
  {
    match ChooseKey(columns, PossibleKeys)
    case None => Raise(NilMinus)
    case Some(i) => Ok((PossibleKeys[i], FirstIndexOf(columns, PossibleKeys[i]) as int - 1))
  }

  /** `p` is `column_names.index(f) - 1`: one less than the first column named `f`. */
  predicate FilePosition(columns: seq<string>, f: string, p: int) {
    0 <= p + 1 < |columns| && columns[p + 1] == f && f !in columns[..p + 1]
  }

  /** `positions << column_names.index(field) - 1` for every field; an unknown field raises. */
  function FieldPositions(columns: seq<string>, fields: seq<string>): (r: Result<seq<int>>)
    ensures r.Raise? <==> exists f :: f in fields && f !in columns
    ensures r.Ok? ==> |r.value| == |fields| && forall i :: 0 <= i < |fields| ==> FilePosition(columns, fields[i], r.value[i])
  {
    if |fields| == 0 then Ok([])
    else if fields[0] !in columns then Raise(NilMinus)
    else
      var rest := FieldPositions(columns, fields[1..]);
      assert forall f :: f in fields ==> f == fields[0] || f in fields[1..];
      if rest.Raise? then rest
      else
        var p := FirstIndexOf(columns, fields[0]) as int - 1;
        assert FilePosition(columns, fields[0], p);
        Ok(Prepended(columns, fields, p, rest.value))
  }

  function Prepended(columns: seq<string>, fields: seq<string>, p: int, rest: seq<int>): (ps: seq<int>)
    requires |fields| > 0 && |rest| == |fields| - 1 && FilePosition(columns, fields[0], p)
    requires forall i :: 0 <= i < |rest| ==> FilePosition(columns, fields[1..][i], rest[i])
    ensures |ps| == |fields| && forall i :: 0 <= i < |fields| ==> FilePosition(columns, fields[i], ps[i])
  {
    var ps := [p] + rest;
    assert forall i :: 1 <= i < |fields| ==> ps[i] == rest[i - 1] && fields[i] == fields[1..][i - 1];
    ps
  }
}

=== FILE: publishing_run.dfy ===
/** The control flow of the bulk publisher (app/models/publishing/fast.rb): the guard
    against concurrent runs, the optional purge, the ordered import of every type, the
    collaborator stages, trait publishing with its clean-up rule, and the
    rescue/ensure blocks that decide what is logged, what is removed from disk and
    whether `ImportLog.all_clear!` runs.

    Collaborators the publisher calls but that are not part of this model (PageCreator,
    trait loading, the vernacular and hierarchy updates, the purge) are `Stage`s that
    either return or raise, as the environment says. A run is observed through the
    `Step`s it takes. */
module PublishingRun {
  import opened Wrappers
  import opened Strings
  import PublishingFast
  import ImportLogs

  type Klass = PublishingFast.Klass

  /** An exception: its message and its backtrace, innermost frame first. */
  datatype Exn = Exn(message: string, backtrace: seq<string>)

  datatype Stage =
    | RemoveContent
    | Import(k: Klass)
    | Propagate(k: Klass)
    | RestoreVernaculars
    | CreatePages
    | CreateMediaContent
    | PublishTraits
    | FixNativeNodes
    | UpdateVernaculars
    | PropagateReferenceIds
    | FixMissingIcons
    | UpdateHierarchy

  /** What the publisher finds when it runs: the import-log tables the guard reads, the
      resource's node count, whether the harvest repository has `nodes.tsv`, which data
      files it can serve, whether the resource has media or articles, whether it builds
      the dynamic hierarchy, and which collaborator stages raise. */
  datatype Env = Env(
    runs: seq<ImportLogs.ImportRun>,
    logs: seq<ImportLogs.ImportLog>,
    resourceNames: map<nat, string>,
    now: int,
    nodeCount: nat,
    nodesUrl: string,
    nodesFileExists: bool,
    fetchable: set<Klass>,
    contentsRequired: bool,
    dwh: bool,
    raises: map<Stage, Exn>)

  datatype Step =
    | Aborted(info: string)
    | Running
    | Ran(stage: Stage)
    | Warned(msg: string)
    | Removed(file: Klass)
    | SkippedRemoval(file: Klass)
    | FailedWith(message: string)
    | Ended
    | AllCleared

  /** The publisher's state: its trace, the data files it has staged (`@files`), the data
      files present on disk, `@can_clean_up`, and the types whose load has run. */
  datatype Run = Run(steps: seq<Step>, files: seq<Klass>, disk: set<Klass>, canCleanUp: bool, imported: set<Klass>)

  /** Normal completion, or an exception propagating with the state reached so far. */
  datatype Flow = Normal(run: Run) | Raised(run: Run, e: Exn)

  datatype Action = Fetch(k: Klass) | Do(s: Stage) | TraitsWithCleanup | CleanUpFiles

  const PurgedMessage := "All existing content has been destroyed for the resource."
  const MissingSuffix := " does not exist! Are you sure the resource has successfully finished harvesting?"
  const NilToArray := "no implicit conversion of nil into Array"
  const TraitFailurePrefix := "Trait Publishing failed: "

  /** `b` is `a` followed by further steps. */
  predicate Extends(a: seq<Step>, b: seq<Step>) {
    |a| <= |b| && forall i :: 0 <= i < |a| ==> b[i] == a[i]
  }

  function SetOf(ks: seq<Klass>): set<Klass> {
    set k | k in ks
  }

  /** `clean_up`'s loop: each staged file is removed when present and skipped otherwise. */
  function RemoveFiles(files: seq<Klass>, disk: set<Klass>): (r: (seq<Step>, set<Klass>))
    ensures |r.0| == |files|
    ensures r.1 == disk - SetOf(files)
    ensures forall i :: 0 <= i < |files| ==> r.0[i] == Removed(files[i]) || r.0[i] == SkippedRemoval(files[i])
    ensures forall i :: 0 <= i < |files| && files[i] in disk && files[i] !in files[..i] ==> r.0[i] == Removed(files[i])
  {
    if |files| == 0 then ([], disk)
    else
      var step := if files[0] in disk then Removed(files[0]) else SkippedRemoval(files[0]);
      var rest := RemoveFiles(files[1..], disk - {files[0]});
      assert SetOf(files) == {files[0]} + SetOf(files[1..]);
      assert forall i :: 1 <= i < |files| ==> files[1..][i - 1] == files[i] && files[..i] == [files[0]] + files[1..][..i - 1];
      ([step] + rest.0, rest.1)
  }

  /** `clean_up`: nothing at all once `@can_clean_up` is false; otherwise every staged file
      leaves the disk and clean-up is switched off, so a second call removes nothing. */
  function CleanUp(r: Run): (c: Run)
    ensures !r.canCleanUp ==> c == r
    ensures !c.canCleanUp && c.files == r.files && c.imported == r.imported
    ensures c.disk == if r.canCleanUp then r.disk - SetOf(r.files) else r.disk
    ensures Extends(r.steps, c.steps)
  {
    if !r.canCleanUp then r
    else
      var (steps, disk) := RemoveFiles(r.files, r.disk);
      r.(steps := r.steps + steps, disk := disk, canCleanUp := false)
  }

  lemma CleanUpOnce(r: Run)
    ensures CleanUp(CleanUp(r)) == CleanUp(r)
    ensures r.canCleanUp ==> forall k :: k in r.files ==> k !in CleanUp(r).disk
  {
  }

  /** Calling a collaborator: the call is recorded, then it returns or raises. */
  function Call(r: Run, s: Stage, env: Env): (f: Flow)
    ensures f.run == r.(steps := r.steps + [Ran(s)])
    ensures f.Raised? <==> s in env.raises
    ensures f.Raised? ==> f.e == env.raises[s]
  {
    var r1 := r.(steps := r.steps + [Ran(s)]);
    if s in env.raises then Raised(r1, env.raises[s]) else Normal(r1)
  }

  /** `import_and_prop_ids`: a file the repository cannot serve is skipped; otherwise it is
      written to disk, loaded, its ids propagated, and only then listed for clean-up. */
  function FetchOne(r: Run, k: Klass, env: Env): (f: Flow)
    ensures k !in env.fetchable ==> f == Normal(r)
    ensures k in env.fetchable ==>
      f.run.disk == r.disk + {k} && f.run.imported == r.imported + {k} && f.run.canCleanUp == r.canCleanUp &&
      Extends(r.steps + [Ran(Import(k))], f.run.steps)
    ensures f.Raised? ==> f.run.files == r.files
    ensures f.Raised? <==> k in env.fetchable && (Import(k) in env.raises || Propagate(k) in env.raises)
    ensures f.Normal? ==> f.run.files == r.files + (if k in env.fetchable then [k] else [])
  {
    if k !in env.fetchable then Normal(r)
    else
      var r1 := r.(disk := r.disk + {k}, imported := r.imported + {k});
      match Call(r1, Import(k), env)
      case Raised(r2, e) => Raised(r2, e)
      case Normal(r2) =>
        match Call(r2, Propagate(k), env)
        case Raised(r3, e) => Raised(r3, e)
        case Normal(r3) => Normal(r3.(files := r3.files + [k]))
  }

  /** `\bapp\b` at position i. */
  predicate AppAt(t: string, i: int) {
    0 <= i && i + 3 <= |t| && t[i..i + 3] == "app" &&
    (i == 0 || !ImportLogs.IsWordChar(t[i - 1])) &&
    (i + 3 == |t| || !ImportLogs.IsWordChar(t[i + 3]))
  }

  predicate MentionsApp(t: string) {
    exists i :: 0 <= i < |t| && AppAt(t, i)
  }

  /** `backtrace.grep(/\bapp\b/)`. */
  function AppFrames(bt: seq<string>): (fs: seq<string>)
    ensures forall f :: f in fs <==> f in bt && MentionsApp(f)
    ensures |fs| <= |bt|
  {
    if |bt| == 0 then []
    else
      var rest := AppFrames(bt[1..]);
      assert forall f :: f in bt <==> f == bt[0] || f in bt[1..];
      if MentionsApp(bt[0]) then [bt[0]] + rest else rest
  }

  function JoinStrings(parts: seq<string>, sep: string): string {
    if |parts| == 0 then ""
    else if |parts| == 1 then parts[0]
    else parts[0] + sep + JoinStrings(parts[1..], sep)
  }

  /** `[e.backtrace[0]] + e.backtrace.grep(/\bapp\b/)[1..5]`: nil (a TypeError) when no
      frame mentions the app, otherwise the innermost frame (nil joins as the empty
      string) and up to five further app frames after the first. */
  function TraitBacktrace(bt: seq<string>): (r: Option<seq<string>>)
    ensures r.None? <==> forall f :: f in bt ==> !MentionsApp(f)
    ensures r.Some? ==> |r.value| == if |AppFrames(bt)| < 6 then |AppFrames(bt)| else 6
    ensures r.Some? ==> r.value[1..] == AppFrames(bt)[1..|r.value|]
    ensures r.Some? && |bt| > 0 ==> r.value[0] == bt[0]
  {
    var app := AppFrames(bt);
    if |app| == 0 then
      assert forall f :: f in bt ==> !MentionsApp(f) by {
        forall f | f in bt ensures !MentionsApp(f) { assert f !in app; }
      }
      None
    else
      assert app[0] in bt && MentionsApp(app[0]) by { assert app[0] in app; }
      var first := if |bt| > 0 then bt[0] else "";
      var n := if |app| < 6 then |app| else 6;
      Some([first] + app[1..n])
  }

  /** `publish_traits_with_cleanup`. A trait failure is logged as a warning and turns
      clean-up off, so the following `clean_up` keeps every staged file; when no frame of
      the failure mentions the app, building the warning itself raises a TypeError that
      escapes with clean-up still on. A success cleans up at once. */
  function PublishTraitsWithCleanup(r: Run, env: Env): (f: Flow)
    ensures Extends(r.steps + [Ran(PublishTraits)], f.run.steps)
    ensures f.run.files == r.files && f.run.imported == r.imported
    ensures PublishTraits !in env.raises ==> f == Normal(CleanUp(r.(steps := r.steps + [Ran(PublishTraits)])))
    ensures PublishTraits in env.raises ==>
      var e := env.raises[PublishTraits];
      match TraitBacktrace(e.backtrace)
      case None => f == Raised(r.(steps := r.steps + [Ran(PublishTraits)]), Exn(NilToArray, []))
      case Some(bt) =>
        f == Normal(r.(steps := r.steps + [Ran(PublishTraits),
                                           Warned(TraitFailurePrefix + e.message + " FROM " + JoinStrings(bt, " << "))],
                       canCleanUp := false))
  {
    match Call(r, PublishTraits, env)
    case Normal(r1) => Normal(CleanUp(r1))
    case Raised(r1, e) =>
      match TraitBacktrace(e.backtrace)
      case None => Raised(r1, Exn(NilToArray, []))
      case Some(bt) =>
        var r2 := r1.(steps := r1.steps + [Warned(TraitFailurePrefix + e.message + " FROM " + JoinStrings(bt, " << "))],
                      canCleanUp := false);
        Normal(CleanUp(r2))
  }

  /** The stages an action calls. */
  predicate Calls(a: Action, s: Stage) {
    match a
    case Fetch(k) => s == Import(k) || s == Propagate(k)
    case Do(t) => s == t
    case TraitsWithCleanup => s == PublishTraits
    case CleanUpFiles => false
  }

  /** The type an action loads, if it loads one. */
  function Loads(a: Action, env: Env): set<Klass> {
    if a.Fetch? && a.k in env.fetchable then {a.k} else {}
  }

  /** One action. Whatever it is, the trace only grows, only a fetched file is loaded, and
      once clean-up is off nothing leaves the disk. */
  function Act(r: Run, a: Action, env: Env): (f: Flow)
    ensures Extends(r.steps, f.run.steps)
    ensures f.run.imported == r.imported + Loads(a, env)
    ensures Loads(a, env) <= f.run.disk
    ensures !r.canCleanUp ==> !f.run.canCleanUp && r.disk <= f.run.disk
    ensures (a.Fetch? || a.Do?) ==> f.run.canCleanUp == r.canCleanUp && r.disk <= f.run.disk
    ensures (a.Do? || a.CleanUpFiles?) ==> f.run.files == r.files && (!r.canCleanUp ==> f.run.disk == r.disk)
    ensures a.Do? ==> f.run.disk == r.disk
    ensures (forall s :: s in env.raises ==> !Calls(a, s)) ==> f.Normal?
  {
    match a
    case Fetch(k) => FetchOne(r, k, env)
    case Do(s) => Call(r, s, env)
    case TraitsWithCleanup => PublishTraitsWithCleanup(r, env)
    case CleanUpFiles => Normal(CleanUp(r))
  }

  /** The next action, unless an exception is already propagating. */
  function Then(f: Flow, a: Action, env: Env): (g: Flow)
    ensures f.Raised? ==> g == f
    ensures f.Normal? ==> g == Act(f.run, a, env)
  {
    if f.Raised? then f else Act(f.run, a, env)
  }

  /** Actions that neither clean up nor publish traits. */
  predicate Keeps(plan: seq<Action>) {
    forall i :: 0 <= i < |plan| ==> plan[i].Fetch? || plan[i].Do?
  }

  /** Actions that load nothing and stage nothing. */
  predicate Quiet(plan: seq<Action>) {
    forall i :: 0 <= i < |plan| ==> plan[i].Do? || plan[i].CleanUpFiles?
  }

  /** No stage the plan calls raises. */
  predicate NoneRaise(plan: seq<Action>, env: Env) {
    forall i, s :: 0 <= i < |plan| && s in env.raises ==> !Calls(plan[i], s)
  }

  /** Actions in order, stopping at the first exception. */
  function Exec(f: Flow, plan: seq<Action>, env: Env): (g: Flow)
    ensures f.Raised? ==> g == f
    ensures Extends(f.run.steps, g.run.steps)
    ensures f.run.imported <= g.run.imported <= f.run.imported + env.fetchable
    ensures !f.run.canCleanUp ==> !g.run.canCleanUp && f.run.disk <= g.run.disk
    ensures Keeps(plan) ==>
      g.run.canCleanUp == f.run.canCleanUp && f.run.disk <= g.run.disk && g.run.imported - f.run.imported <= g.run.disk
    ensures Quiet(plan) ==>
      g.run.imported == f.run.imported && g.run.files == f.run.files && (!f.run.canCleanUp ==> g.run.disk == f.run.disk)
    ensures f.Normal? && NoneRaise(plan, env) ==> g.Normal?
    decreases |plan|
  {
    if |plan| == 0 || f.Raised? then f
    else Exec(Act(f.run, plan[0], env), plan[1..], env)
  }

  lemma {:induction false} ExecAppend(f: Flow, p: seq<Action>, q: seq<Action>, env: Env)
    ensures Exec(f, p + q, env) == Exec(Exec(f, p, env), q, env)
    decreases |p|
  {
    if |p| == 0 {
      assert p + q == q;
    } else if f.Normal? {
      assert (p + q)[0] == p[0];
      assert (p + q)[1..] == p[1..] + q;
      ExecAppend(Act(f.run, p[0], env), p[1..], q, env);
    }
  }

  function FetchPlan(ks: seq<Klass>): (plan: seq<Action>)
    ensures |plan| == |ks| && Keeps(plan)
    ensures forall i :: 0 <= i < |ks| ==> plan[i] == Fetch(ks[i])
  {
    seq(|ks|, i requires 0 <= i < |ks| => Fetch(ks[i]))
  }

  /** A fetch whose load and propagation do not raise. */
  lemma FetchOneCompletes(r: Run, k: Klass, env: Env)
    requires Import(k) !in env.raises && Propagate(k) !in env.raises
    ensures var f := FetchOne(r, k, env);
      f.Normal? && f.run.disk == r.disk + ({k} * env.fetchable) && f.run.imported == r.imported + ({k} * env.fetchable) &&
      SetOf(f.run.files) == SetOf(r.files) + ({k} * env.fetchable)
  {
    if k in env.fetchable {
      assert SetOf(r.files + [k]) == SetOf(r.files) + {k};
    }
  }

  /** The fetch plan is its first fetch followed by the rest. */
  lemma FetchPlanStep(f: Flow, ks: seq<Klass>, env: Env)
    requires f.Normal? && |ks| > 0
    ensures Exec(f, FetchPlan(ks), env) == Exec(Act(f.run, Fetch(ks[0]), env), FetchPlan(ks[1..]), env)
  {
    assert FetchPlan(ks)[1..] == FetchPlan(ks[1..]);
  }

  /** When no load or propagation fails, every type the repository serves is loaded,
      staged for clean-up and on disk. */
  lemma {:induction false} FetchAllLoadsEveryServedType(f: Flow, ks: seq<Klass>, env: Env)
    requires f.Normal? && forall s :: s in env.raises ==> !s.Import? && !s.Propagate?
    ensures var g := Exec(f, FetchPlan(ks), env);
      g.Normal? && g.run.disk == f.run.disk + (env.fetchable * SetOf(ks)) &&
      g.run.imported == f.run.imported + (env.fetchable * SetOf(ks)) &&
      SetOf(g.run.files) == SetOf(f.run.files) + (env.fetchable * SetOf(ks))
    decreases |ks|
  {
    if |ks| > 0 {
      var k := ks[0];
      FetchOneCompletes(f.run, k, env);
      var f1 := FetchOne(f.run, k, env);
      FetchPlanStep(f, ks, env);
      FetchAllLoadsEveryServedType(f1, ks[1..], env);
      assert SetOf(ks) == {k} + SetOf(ks[1..]);
      var served := env.fetchable;
      AddServed(f.run.disk, served, k, SetOf(ks[1..]));
      AddServed(f.run.imported, served, k, SetOf(ks[1..]));
      AddServed(SetOf(f.run.files), served, k, SetOf(ks[1..]));
    }
  }

  lemma AddServed(a: set<Klass>, served: set<Klass>, k: Klass, rest: set<Klass>)
    ensures a + (served * ({k} + rest)) == (a + ({k} * served)) + (served * rest)
  {
  }

  /** `import_and_prop_ids` for every type, then vernacular preferences, pages, and media
      content when the resource has media or articles. */
  function PreparePlan(env: Env): (plan: seq<Action>)
    ensures Keeps(plan)
  {
    FetchPlan(PublishingFast.LoadOrder()) + AfterFetchPlan(env)
  }

  /** The preparation stages after the loads. */
  function AfterFetchPlan(env: Env): (plan: seq<Action>)
    ensures forall i :: 0 <= i < |plan| ==> plan[i].Do?
  {
    [Do(RestoreVernaculars), Do(CreatePages)] + (if env.contentsRequired then [Do(CreateMediaContent)] else [])
  }

  /** The stages after trait publishing. */
  function TailPlan(env: Env): (plan: seq<Action>)
    ensures Quiet(plan)
  {
    [Do(FixNativeNodes), Do(UpdateVernaculars), Do(PropagateReferenceIds), CleanUpFiles] +
    (if env.contentsRequired then [Do(FixMissingIcons)] else []) +
    (if env.dwh then [Do(UpdateHierarchy)] else [])
  }

  /** Stages that raise nothing leave the files, the disk and the loaded types alone. */
  lemma {:induction false} StagesKeepState(f: Flow, plan: seq<Action>, env: Env)
    requires f.Normal? && NoneRaise(plan, env)
    requires forall i :: 0 <= i < |plan| ==> plan[i].Do?
    ensures var g := Exec(f, plan, env);
      g.Normal? && g.run.disk == f.run.disk && g.run.files == f.run.files && g.run.imported == f.run.imported
    decreases |plan|
  {
    if |plan| > 0 {
      StagesKeepState(Act(f.run, plan[0], env), plan[1..], env);
    }
  }

  /** When only the purge or trait publishing could fail, the preparation stages complete
      with every served type loaded, staged and on disk. */
  lemma PrepareLoadsEveryServedType(r: Run, env: Env)
    requires forall s :: s in env.raises ==> s == RemoveContent || s == PublishTraits
    ensures var f := Exec(Normal(r), PreparePlan(env), env);
      f.Normal? && f.run.disk == r.disk + env.fetchable && f.run.imported == r.imported + env.fetchable &&
      SetOf(f.run.files) == SetOf(r.files) + env.fetchable
  {
    var order := PublishingFast.LoadOrder();
    ServesOnlyLoadedTypes(env.fetchable);
    FetchAllLoadsEveryServedType(Normal(r), order, env);
    ExecAppend(Normal(r), FetchPlan(order), AfterFetchPlan(env), env);
    var g := Exec(Normal(r), FetchPlan(order), env);
    AfterFetchKeepsState(g, env);
  }

  lemma ServesOnlyLoadedTypes(served: set<Klass>)
    ensures served * SetOf(PublishingFast.LoadOrder()) == served
  {
    AllTypesLoaded();
  }

  lemma AfterFetchKeepsState(g: Flow, env: Env)
    requires g.Normal? && forall s :: s in env.raises ==> s == RemoveContent || s == PublishTraits
    ensures var f := Exec(g, AfterFetchPlan(env), env);
      f.Normal? && f.run.disk == g.run.disk && f.run.files == g.run.files && f.run.imported == g.run.imported
  {
    StagesKeepState(g, AfterFetchPlan(env), env);
  }

  /** When nothing after trait publishing raises, the tail completes. */
  lemma TailCompletes(f: Flow, env: Env)
    requires f.Normal? && forall s :: s in env.raises ==> s == RemoveContent || s == PublishTraits
    ensures Exec(f, TailPlan(env), env).Normal?
  {
    assert NoneRaise(TailPlan(env), env);
  }

  /** The body of `by_resource`'s main `begin` block. */
  function Body(r: Run, env: Env): (f: Flow)
    ensures Extends(r.steps, f.run.steps)
    ensures r.imported <= f.run.imported <= r.imported + env.fetchable
  {
    if !env.nodesFileExists then Raised(r, Exn(env.nodesUrl + MissingSuffix, []))
    else Exec(Then(Exec(Normal(r), PreparePlan(env), env), TraitsWithCleanup, env), TailPlan(env), env)
  }

  /** What a run leaves behind: its trace, the exception that escapes it (if any), the data
      files left on disk, the types whose load ran, and the import-log tables. */
  datatype Outcome = Outcome(
    steps: seq<Step>,
    raised: Option<string>,
    disk: set<Klass>,
    imported: set<Klass>,
    logs: seq<ImportLogs.ImportLog>,
    runs: seq<ImportLogs.ImportRun>)

  /** `rescue => e; clean_up; @log.fail_on_error(e)`, then the `ensure` block. */
  function Finish(f: Flow, env: Env): (o: Outcome)
    ensures o.raised.None? && o.imported == f.run.imported
    ensures |o.steps| >= 2 && o.steps[|o.steps| - 2..] == [Ended, AllCleared]
    ensures ImportLogs.AlreadyRunning(o.runs, o.logs, env.resourceNames).None?
    ensures f.Normal? ==> o.steps == f.run.steps + [Ended, AllCleared] && o.disk == f.run.disk
    ensures f.Raised? ==>
      o.steps == CleanUp(f.run).steps + [FailedWith(f.e.message), Ended, AllCleared] && o.disk == CleanUp(f.run).disk
  {
    var r := match f
      case Normal(r) => r
      case Raised(r, e) =>
        var c := CleanUp(r);
        c.(steps := c.steps + [FailedWith(e.message)]);
    var (logs, runs) := ImportLogs.AllClear(env.logs, env.runs, env.now);
    ImportLogs.AllClearUnblocks(env.logs, env.runs, env.resourceNames, env.now);
    Outcome(r.steps + [Ended, AllCleared], None, r.disk, r.imported, logs, runs)
  }

  function Guard(env: Env): Option<string> {
    ImportLogs.AlreadyRunning(env.runs, env.logs, env.resourceNames)
  }

  /** `abort_if_already_running`: the resource's log records the abort and the reason is
      raised; nothing else happens. */
  function AbortedOutcome(env: Env, info: string): Outcome {
    Outcome([Aborted("ABORTED: " + info)], Some(info), {}, {}, env.logs, env.runs)
  }

  const Fresh := Run([Running], [], {}, true, {})

  /** The state after the optional purge. */
  function Purged(env: Env): Run {
    if env.nodeCount != 0 then Fresh.(steps := Fresh.steps + [Ran(RemoveContent), Warned(PurgedMessage)]) else Fresh
  }

  /** `by_resource`. An active run aborts it before anything is logged as running; a
      failed purge is logged and re-raised outside the `ensure` block; every other path,
      failing or not, ends the log and clears the import logs, so no run is left open.
      Only types the repository serves are ever loaded. */
  function ByResource(env: Env): (o: Outcome)
    ensures Guard(env).Some? ==> o == AbortedOutcome(env, Guard(env).value)
    ensures Guard(env).None? ==> |o.steps| > 0 && o.steps[0] == Running
    ensures o.raised.Some? <==> Guard(env).Some? || (env.nodeCount != 0 && RemoveContent in env.raises)
    ensures o.raised.None? ==>
      |o.steps| >= 2 && o.steps[|o.steps| - 2..] == [Ended, AllCleared] &&
      ImportLogs.AlreadyRunning(o.runs, o.logs, env.resourceNames).None?
    ensures o.imported <= env.fetchable
  {
    match Guard(env)
    case Some(info) => AbortedOutcome(env, info)
    case None =>
      if env.nodeCount != 0 && RemoveContent in env.raises then
        var msg := env.raises[RemoveContent].message;
        Outcome([Running, Ran(RemoveContent), FailedWith(msg)], Some(msg), {}, {}, env.logs, env.runs)
      else
        var f := Body(Purged(env), env);
        assert f.run.steps[0] == Running;
        var o := Finish(f, env);
        assert o.steps[0] == Running by {
          if f.Raised? {
            assert CleanUp(f.run).steps[0] == Running;
          }
        }
        o
  }

  /** `traits_by_resource`: the same guard and `ensure` block around trait publishing. */
  function TraitsByResource(env: Env): (o: Outcome)
    ensures Guard(env).Some? ==> o == AbortedOutcome(env, Guard(env).value)
    ensures Guard(env).None? ==>
      o.raised.None? && |o.steps| >= 2 && o.steps[..2] == [Running, Ran(PublishTraits)] &&
      ImportLogs.AlreadyRunning(o.runs, o.logs, env.resourceNames).None?
  {
    match Guard(env)
    case Some(info) => AbortedOutcome(env, info)
    case None =>
      var f := PublishTraitsWithCleanup(Fresh, env);
      assert f.run.steps[..2] == [Running, Ran(PublishTraits)];
      var o := Finish(f, env);
      assert o.steps[..2] == [Running, Ran(PublishTraits)] by {
        if f.Raised? {
          assert CleanUp(f.run).steps[..2] == [Running, Ran(PublishTraits)];
        }
      }
      o
  }

  // ---------------------------------------------------------------------------
  // Properties of whole runs

  /** No import is under way: every run has completed and no log is open. By
      `ImportLogs.AlreadyRunning`'s contract, this is exactly when `Guard(env)` is None. */
  predicate Idle(env: Env) {
    (forall i :: 0 <= i < |env.runs| ==> env.runs[i].completedAt.Some?) &&
    (forall i :: 0 <= i < |env.logs| ==> !ImportLogs.IsOpen(env.logs[i]))
  }

  /** The guard lets the run start and the purge, if one is due, does not raise. */
  predicate Proceeds(env: Env) {
    Idle(env) && !(env.nodeCount != 0 && RemoveContent in env.raises)
  }

  /** A repository without `nodes.tsv`: nothing is loaded, the failure is logged, the
      exception is swallowed and the import logs are still cleared. */
  lemma MissingNodesFileIsLoggedNotRaised(env: Env)
    requires Proceeds(env) && !env.nodesFileExists
    ensures var o := ByResource(env);
      o.raised.None? && o.imported == {} &&
      o.steps == Purged(env).steps + [FailedWith(env.nodesUrl + MissingSuffix), Ended, AllCleared]
  {
  }

  /** Everything in the main block succeeds: every file the repository serves is loaded,
      and none is left on disk at the end. */
  lemma CleanRunRemovesStagedFiles(env: Env)
    requires Proceeds(env) && env.nodesFileExists && env.raises.Keys <= {RemoveContent}
    ensures ByResource(env).imported == env.fetchable
    ensures ByResource(env).disk == {}
  {
    var r1 := Purged(env);
    PrepareLoadsEveryServedType(r1, env);
    var f3 := Exec(Normal(r1), PreparePlan(env), env);
    var f4 := Then(f3, TraitsWithCleanup, env);
    assert f4.Normal? && f4.run.disk == {} && !f4.run.canCleanUp && f4.run.imported == env.fetchable;
    TailCompletes(f4, env);
  }

  /** Trait publishing fails (with a frame from the app) and nothing else does: the
      failure is only a warning, and every data file that was loaded is still on disk
      when the run ends. */
  lemma TraitFailureKeepsFiles(env: Env)
    requires Proceeds(env) && env.nodesFileExists
    requires env.raises.Keys <= {RemoveContent, PublishTraits} && PublishTraits in env.raises
    requires exists f :: f in env.raises[PublishTraits].backtrace && MentionsApp(f)
    ensures var o := ByResource(env);
      o.raised.None? && o.imported == env.fetchable && o.imported <= o.disk
  {
    var r1 := Purged(env);
    PrepareLoadsEveryServedType(r1, env);
    var f3 := Exec(Normal(r1), PreparePlan(env), env);
    var f4 := Then(f3, TraitsWithCleanup, env);
    assert f4.Normal? && !f4.run.canCleanUp && f4.run.disk == f3.run.disk && f4.run.imported == env.fetchable;
    TailCompletes(f4, env);
  }

  /** Trait publishing fails with no frame from the app and nothing else does: building
      the warning raises a TypeError, whose message is what the log records, and
      clean-up, still on, removes every staged file. */
  lemma TraitFailureWithoutAppFrame(env: Env)
    requires Proceeds(env) && env.nodesFileExists
    requires env.raises.Keys <= {RemoveContent, PublishTraits} && PublishTraits in env.raises
    requires forall f :: f in env.raises[PublishTraits].backtrace ==> !MentionsApp(f)
    ensures var o := ByResource(env);
      o.raised.None? && FailedWith(NilToArray) in o.steps && o.disk == {}
  {
    var r1 := Purged(env);
    PrepareLoadsEveryServedType(r1, env);
    var f3 := Exec(Normal(r1), PreparePlan(env), env);
    var f4 := Then(f3, TraitsWithCleanup, env);
    assert f4.Raised? && f4.e == Exn(NilToArray, []) && f4.run.canCleanUp && f4.run.files == f3.run.files;
    assert CleanUp(f4.run).disk == {};
  }

  /** Every type is declared, so every type is in the load order. */
  lemma AllTypesLoaded()
    ensures forall k :: k in SetOf(PublishingFast.LoadOrder())
  {
    var order := PublishingFast.LoadOrder();
    forall k ensures k in SetOf(order) {
      assert k in order;
    }
  }
}

=== FILE: reference_ids.dfy ===
/** `propagate_reference_ids` in the bulk publisher (app/models/publishing/fast.rb): the
    id windows it pages through, the two statements it issues per window, and which
    references they reach. Each statement is a value (`RefUpdate`). */
module ReferenceIds {
  import opened PublishingFast

  const ReferencePageSize: nat := 100000

  /** `while max > min`: the window [min, min + 100,000 - 1], then min += 100,000. */
  function Windows(lo: int, max: int): (w: seq<(int, int)>)
    ensures max <= lo ==> w == []
    ensures max > lo ==> |w| > 0 && w[0].0 == lo
    ensures forall k :: 0 <= k < |w| ==> lo <= w[k].0 < max && w[k].1 == w[k].0 + ReferencePageSize - 1
    ensures forall j, k :: 0 <= k && j == k + 1 && j < |w| ==> w[j].0 == w[k].0 + ReferencePageSize
    ensures |w| > 0 ==> max <= w[|w| - 1].0 + ReferencePageSize
    decreases max - lo
  {
    if max > lo then [(lo, lo + ReferencePageSize - 1)] + Windows(lo + ReferencePageSize, max) else []
  }

  /** Windows never overlap. */
  lemma {:induction false} WindowsDisjoint(lo: int, max: int, a: nat, b: nat)
    requires a < b < |Windows(lo, max)|
    ensures Windows(lo, max)[a].1 < Windows(lo, max)[b].0
    decreases b - a
  {
    if b > a + 1 {
      WindowsDisjoint(lo, max, a + 1, b);
    }
  }

  /** Every id in [lo, max) falls in some window. */
  lemma {:induction false} WindowsCover(lo: int, max: int, x: int)
    requires lo <= x < max
    ensures exists k :: 0 <= k < |Windows(lo, max)| && Windows(lo, max)[k].0 <= x <= Windows(lo, max)[k].1
    decreases max - lo
  {
    var w := Windows(lo, max);
    if x <= lo + ReferencePageSize - 1 {
      assert w[0].0 <= x <= w[0].1;
    } else {
      WindowsCover(lo + ReferencePageSize, max, x);
      var w2 := Windows(lo + ReferencePageSize, max);
      assert w == [(lo, lo + ReferencePageSize - 1)] + w2;
      CoversPastHead(lo, lo + ReferencePageSize - 1, w2, x);
      assert Covers(w, x);
    }
  }

  predicate Covers(w: seq<(int, int)>, x: int) {
    exists k :: 0 <= k < |w| && w[k].0 <= x <= w[k].1
  }

  /** The maximum id is covered exactly when max - lo is not a multiple of the window
      size: the loop stops as soon as the next window would start at max. */
  lemma {:induction false} WindowsCoverMaxIff(lo: int, max: int)
    requires lo < max
    ensures Covers(Windows(lo, max), max) <==> (max - lo) % ReferencePageSize != 0
    decreases max - lo
  {
    if max - lo <= ReferencePageSize {
      LastWindowCoversMaxIff(lo, max);
    } else {
      WindowsCoverMaxIff(lo + ReferencePageSize, max);
      ModShift(max - lo - ReferencePageSize);
      CoversMaxShift(lo, max);
    }
  }

  lemma LastWindowCoversMaxIff(lo: int, max: int)
    requires lo < max <= lo + ReferencePageSize
    ensures Covers(Windows(lo, max), max) <==> (max - lo) % ReferencePageSize != 0
  {
    var w := Windows(lo, max);
    assert Windows(lo + ReferencePageSize, max) == [];
    assert w == [(lo, lo + ReferencePageSize - 1)];
    if max - lo < ReferencePageSize {
      assert w[0].0 <= max <= w[0].1;
    }
  }

  /** Beyond the first window, max is covered by the windows from lo exactly when it is
      covered by the windows from lo + 100,000. */
  lemma CoversMaxShift(lo: int, max: int)
    requires lo + ReferencePageSize < max
    ensures Covers(Windows(lo, max), max) <==> Covers(Windows(lo + ReferencePageSize, max), max)
  {
    var w2 := Windows(lo + ReferencePageSize, max);
    assert Windows(lo, max) == [(lo, lo + ReferencePageSize - 1)] + w2;
    CoversPastHead(lo, lo + ReferencePageSize - 1, w2, max);
  }

  /** A window [lo, hi] that ends before x adds nothing to covering x. */
  lemma CoversPastHead(lo: int, hi: int, w: seq<(int, int)>, x: int)
    requires hi < x
    ensures Covers([(lo, hi)] + w, x) <==> Covers(w, x)
  {
    var hw := [(lo, hi)] + w;
    if Covers(hw, x) {
      var k :| 0 <= k < |hw| && hw[k].0 <= x <= hw[k].1;
      assert w[k - 1] == hw[k];
    }
    if Covers(w, x) {
      var k :| 0 <= k < |w| && w[k].0 <= x <= w[k].1;
      assert hw[k + 1] == w[k];
    }
  }

  lemma ModShift(n: int)
    ensures (n + ReferencePageSize) % ReferencePageSize == n % ReferencePageSize
  {
  }

  /** ceil((max - lo) / 100,000) windows. */
  lemma {:induction false} WindowCount(lo: int, max: int)
    requires lo < max
    ensures |Windows(lo, max)| == (max - lo + ReferencePageSize - 1) / ReferencePageSize
    decreases max - lo
  {
    if max - lo > ReferencePageSize {
      WindowCount(lo + ReferencePageSize, max);
    }
  }

  /** The bounds of one reference update: the whole resource, or one id window. */
  datatype Bounds = Unbounded | Window(min: int, upper: int)

  /** `propagate_reference_ids` for one parent type with ids in [min, max]. */
  function ReferenceBounds(min: int, max: int): (bs: seq<Bounds>)
    ensures max - min <= ReferencePageSize ==> bs == [Unbounded]
    ensures max - min > ReferencePageSize ==>
      |bs| == |Windows(min, max)| &&
      forall k :: 0 <= k < |bs| ==> bs[k] == Window(Windows(min, max)[k].0, Windows(min, max)[k].1)
  {
    if max - min > ReferencePageSize then
      var w := Windows(min, max);
      seq(|w|, k requires 0 <= k < |w| => Window(w[k].0, w[k].1))
    else [Unbounded]
  }

  /** The two statements of one window: parent ids (`UPDATE references ... SET parent_id`)
      and referent ids (`also_propagate_referents`). */
  datatype RefUpdate =
    | ParentIds(parentType: Klass, resourceId: nat, bounds: Bounds)
    | ReferentIds(parentType: Klass, resourceId: nat, bounds: Bounds)

  /** A `references` row. */
  datatype RefRow = RefRow(id: int, resourceId: nat, parentType: Klass)

  function IdsOf(refs: seq<RefRow>, resourceId: nat, k: Klass): (ids: seq<int>)
    ensures forall x :: x in ids <==> exists r :: r in refs && r.resourceId == resourceId && r.parentType == k && r.id == x
  {
    if |refs| == 0 then []
    else
      var rest := IdsOf(refs[1..], resourceId, k);
      assert forall r :: r in refs <==> r == refs[0] || r in refs[1..];
      if refs[0].resourceId == resourceId && refs[0].parentType == k then [refs[0].id] + rest else rest
  }

  function MinOf(xs: seq<int>): (m: int)
    requires |xs| > 0
    ensures m in xs && forall x :: x in xs ==> m <= x
  {
    if |xs| == 1 then xs[0]
    else
      var m := MinOf(xs[1..]);
      assert forall x :: x in xs ==> x == xs[0] || x in xs[1..];
      if xs[0] <= m then xs[0] else m
  }

  function MaxOf(xs: seq<int>): (m: int)
    requires |xs| > 0
    ensures m in xs && forall x :: x in xs ==> x <= m
  {
    if |xs| == 1 then xs[0]
    else
      var m := MaxOf(xs[1..]);
      assert forall x :: x in xs ==> x == xs[0] || x in xs[1..];
      if xs[0] >= m then xs[0] else m
  }

  /** A window's pair of statements: the parent update, then the referent update with
      the same bounds. */
  function PairedUpdates(k: Klass, resourceId: nat, bs: seq<Bounds>): (us: seq<RefUpdate>)
    ensures |us| == 2 * |bs|
    ensures forall j :: 0 <= j < |bs| ==>
      us[2 * j] == ParentIds(k, resourceId, bs[j]) && us[2 * j + 1] == ReferentIds(k, resourceId, bs[j])
    ensures forall u :: u in us ==>
      exists j :: 0 <= j < |bs| && (u == ParentIds(k, resourceId, bs[j]) || u == ReferentIds(k, resourceId, bs[j]))
    ensures forall u :: u in us ==> u.parentType == k && u.resourceId == resourceId
  {
    if |bs| == 0 then []
    else
      var rest := PairedUpdates(k, resourceId, bs[1..]);
      var us := [ParentIds(k, resourceId, bs[0]), ReferentIds(k, resourceId, bs[0])] + rest;
      forall j | 1 <= j < |bs|
        ensures us[2 * j] == ParentIds(k, resourceId, bs[j]) && us[2 * j + 1] == ReferentIds(k, resourceId, bs[j])
      {
        var i := j - 1;
        assert bs[1..][i] == bs[j];
        assert 2 * j == 2 * i + 2;
        assert us[2 * i + 2] == rest[2 * i] && us[2 * i + 3] == rest[2 * i + 1];
      }
      forall u | u in rest
        ensures exists j :: 0 <= j < |bs| && (u == ParentIds(k, resourceId, bs[j]) || u == ReferentIds(k, resourceId, bs[j]))
      {
        var i :| 0 <= i < |bs[1..]| && (u == ParentIds(k, resourceId, bs[1..][i]) || u == ReferentIds(k, resourceId, bs[1..][i]));
        assert bs[1..][i] == bs[i + 1];
      }
      us
  }

  predicate InBounds(b: Bounds, id: int) {
    b.Unbounded? || b.min <= id <= b.upper
  }

  predicate BoundsCover(bs: seq<Bounds>, id: int) {
    exists b :: b in bs && (b.Unbounded? || b.min <= id <= b.upper)
  }

  /** The references of parent type `k` with id `x` have both their parent id and their
      referent id rewritten, by the two statements of one window. */
  ghost predicate Updated(us: seq<RefUpdate>, k: Klass, resourceId: nat, x: int) {
    exists b :: ParentIds(k, resourceId, b) in us && ReferentIds(k, resourceId, b) in us && InBounds(b, x)
  }

  /** The paired statements update an id exactly when one of the bounds holds it. */
  lemma PairedUpdatesCover(k: Klass, resourceId: nat, bs: seq<Bounds>)
    ensures forall x :: Updated(PairedUpdates(k, resourceId, bs), k, resourceId, x) <==> BoundsCover(bs, x)
  {
    forall x ensures Updated(PairedUpdates(k, resourceId, bs), k, resourceId, x) <==> BoundsCover(bs, x) {
      if Updated(PairedUpdates(k, resourceId, bs), k, resourceId, x) {
        PairedUpdatedCovered(k, resourceId, bs, x);
      }
      if BoundsCover(bs, x) {
        CoveredPairedUpdated(k, resourceId, bs, x);
      }
    }
  }

  lemma PairedUpdatedCovered(k: Klass, resourceId: nat, bs: seq<Bounds>, x: int)
    requires Updated(PairedUpdates(k, resourceId, bs), k, resourceId, x)
    ensures BoundsCover(bs, x)
  {
    var us := PairedUpdates(k, resourceId, bs);
    var b :| ParentIds(k, resourceId, b) in us && ReferentIds(k, resourceId, b) in us && InBounds(b, x);
    var j :| 0 <= j < |bs| && (ParentIds(k, resourceId, b) == ParentIds(k, resourceId, bs[j])
                               || ParentIds(k, resourceId, b) == ReferentIds(k, resourceId, bs[j]));
    assert bs[j] in bs;
  }

  lemma CoveredPairedUpdated(k: Klass, resourceId: nat, bs: seq<Bounds>, x: int)
    requires BoundsCover(bs, x)
    ensures Updated(PairedUpdates(k, resourceId, bs), k, resourceId, x)
  {
    var us := PairedUpdates(k, resourceId, bs);
    var b :| b in bs && (b.Unbounded? || b.min <= x <= b.upper);
    var j :| 0 <= j < |bs| && bs[j] == b;
    assert us[2 * j] == ParentIds(k, resourceId, b) && us[2 * j + 1] == ReferentIds(k, resourceId, b);
    assert InBounds(b, x);
  }

  /** The largest reference id of a type is reached exactly when its ids are not paged, or
      max - min is not a multiple of 100,000. */
  predicate MaxReached(min: int, max: int) {
    !(max - min > ReferencePageSize && (max - min) % ReferencePageSize == 0)
  }

  /** The statements for one parent type: none when it has no references; otherwise every
      reference below the largest id gets its parent id and its referent id rewritten by
      one window, and the one with the largest id only when `MaxReached`. */
  function TypeReferenceUpdates(refs: seq<RefRow>, resourceId: nat, k: Klass): (us: seq<RefUpdate>)
    ensures us == [] <==> |IdsOf(refs, resourceId, k)| == 0
    ensures forall u :: u in us ==> u.parentType == k && u.resourceId == resourceId
    ensures |IdsOf(refs, resourceId, k)| > 0 ==>
      var ids := IdsOf(refs, resourceId, k);
      (forall x :: x in ids && x < MaxOf(ids) ==> Updated(us, k, resourceId, x))
      && (Updated(us, k, resourceId, MaxOf(ids)) <==> MaxReached(MinOf(ids), MaxOf(ids)))
  {
    var ids := IdsOf(refs, resourceId, k);
    if |ids| == 0 then []
    else
      var min := MinOf(ids);
      var max := MaxOf(ids);
      var us := PairedUpdates(k, resourceId, ReferenceBounds(min, max));
      WindowUpdates(k, resourceId, ids, min, max);
      us
  }

  /** The paired statements for the windows from the least to the largest id: at least one,
      every id below the largest updated, the largest exactly when `MaxReached`. */
  lemma WindowUpdates(k: Klass, resourceId: nat, ids: seq<int>, min: int, max: int)
    requires |ids| > 0 && min == MinOf(ids) && max == MaxOf(ids)
    ensures var us := PairedUpdates(k, resourceId, ReferenceBounds(min, max));
      us != []
      && (forall x :: x in ids && x < max ==> Updated(us, k, resourceId, x))
      && (Updated(us, k, resourceId, max) <==> MaxReached(min, max))
  {
    var bs := ReferenceBounds(min, max);
    assert min <= max by { assert max in ids; }
    PairedUpdatesCover(k, resourceId, bs);
    BoundsForIds(min, max);
    assert |PairedUpdates(k, resourceId, bs)| == 2 * |bs| > 0;
  }

  /** The bounds for ids from min to max hold every id below max, and max exactly when
      `MaxReached`. */
  lemma BoundsForIds(min: int, max: int)
    requires min <= max
    ensures forall x :: min <= x < max ==> BoundsCover(ReferenceBounds(min, max), x)
    ensures BoundsCover(ReferenceBounds(min, max), max) <==> MaxReached(min, max)
    ensures |ReferenceBounds(min, max)| > 0
  {
    var bs := ReferenceBounds(min, max);
    if max - min > ReferencePageSize {
      ReferenceBoundsCoverMaxIff(min, max);
    } else {
      assert bs[0] == Unbounded && bs[0] in bs;
    }
  }

  const ReferenceParentTypes: seq<Klass> := [Node, ScientificName, Medium, Article]

  /** The statements of every type in `ks`: exactly those of each type's own updates. */
  function AllTypeUpdates(refs: seq<RefRow>, resourceId: nat, ks: seq<Klass>): (us: seq<RefUpdate>)
    ensures forall u :: u in us <==> exists i :: 0 <= i < |ks| && u in TypeReferenceUpdates(refs, resourceId, ks[i])
  {
    if |ks| == 0 then []
    else
      var head := TypeReferenceUpdates(refs, resourceId, ks[0]);
      var rest := AllTypeUpdates(refs, resourceId, ks[1..]);
      forall u | u in rest ensures exists i :: 0 <= i < |ks| && u in TypeReferenceUpdates(refs, resourceId, ks[i]) {
        var i :| 0 <= i < |ks[1..]| && u in TypeReferenceUpdates(refs, resourceId, ks[1..][i]);
        assert ks[1..][i] == ks[i + 1];
      }
      forall u | (exists i :: 0 <= i < |ks| && u in TypeReferenceUpdates(refs, resourceId, ks[i])) && u !in head
        ensures u in rest
      {
        var i :| 0 <= i < |ks| && u in TypeReferenceUpdates(refs, resourceId, ks[i]);
        assert i > 0 && ks[1..][i - 1] == ks[i];
      }
      head + rest
  }

  /** Among the statements of several types, those of type `k` are the type's own. */
  lemma UpdatedAmong(refs: seq<RefRow>, resourceId: nat, ks: seq<Klass>, k: Klass, x: int)
    requires k in ks
    ensures Updated(AllTypeUpdates(refs, resourceId, ks), k, resourceId, x) <==>
      Updated(TypeReferenceUpdates(refs, resourceId, k), k, resourceId, x)
  {
    var us := AllTypeUpdates(refs, resourceId, ks);
    var own := TypeReferenceUpdates(refs, resourceId, k);
    if Updated(us, k, resourceId, x) {
      var b :| ParentIds(k, resourceId, b) in us && ReferentIds(k, resourceId, b) in us && InBounds(b, x);
      OwnStatement(refs, resourceId, ks, k, ParentIds(k, resourceId, b));
      OwnStatement(refs, resourceId, ks, k, ReferentIds(k, resourceId, b));
      assert ParentIds(k, resourceId, b) in own && ReferentIds(k, resourceId, b) in own;
    }
    if Updated(own, k, resourceId, x) {
      var b :| ParentIds(k, resourceId, b) in own && ReferentIds(k, resourceId, b) in own && InBounds(b, x);
      var n :| 0 <= n < |ks| && ks[n] == k;
      assert ParentIds(k, resourceId, b) in us && ReferentIds(k, resourceId, b) in us;
    }
  }

  lemma OwnStatement(refs: seq<RefRow>, resourceId: nat, ks: seq<Klass>, k: Klass, u: RefUpdate)
    requires u in AllTypeUpdates(refs, resourceId, ks) && u.parentType == k
    ensures u in TypeReferenceUpdates(refs, resourceId, k)
  {
    var i :| 0 <= i < |ks| && u in TypeReferenceUpdates(refs, resourceId, ks[i]);
    assert u.parentType == ks[i];
  }

  /** `propagate_reference_ids`: nothing when the resource has no references; otherwise
      only statements for Node, ScientificName, Medium and Article, scoped to the
      resource, and every reference of those types below its type's largest id has its
      parent id and its referent id rewritten with the same bounds, the one with the
      largest id only when `MaxReached`. */
  function PropagateReferenceIds(refs: seq<RefRow>, resourceId: nat): (us: seq<RefUpdate>)
    ensures (forall r :: r in refs ==> r.resourceId != resourceId) ==> us == []
    ensures forall u :: u in us ==> u.resourceId == resourceId && u.parentType in ReferenceParentTypes
    ensures forall k, x :: k in ReferenceParentTypes && x in IdsOf(refs, resourceId, k) && x < MaxOf(IdsOf(refs, resourceId, k)) ==>
      Updated(us, k, resourceId, x)
    ensures forall k :: k in ReferenceParentTypes && |IdsOf(refs, resourceId, k)| > 0 ==>
      (Updated(us, k, resourceId, MaxOf(IdsOf(refs, resourceId, k))) <==>
       MaxReached(MinOf(IdsOf(refs, resourceId, k)), MaxOf(IdsOf(refs, resourceId, k))))
  {
    if forall r :: r in refs ==> r.resourceId != resourceId then
      NoReferencesNoIds(refs, resourceId);
      []
    else
      var us := AllTypeUpdates(refs, resourceId, ReferenceParentTypes);
      forall k, x | k in ReferenceParentTypes
        ensures Updated(us, k, resourceId, x) <==> Updated(TypeReferenceUpdates(refs, resourceId, k), k, resourceId, x)
      {
        UpdatedAmong(refs, resourceId, ReferenceParentTypes, k, x);
      }
      us
  }

  lemma NoReferencesNoIds(refs: seq<RefRow>, resourceId: nat)
    requires forall r :: r in refs ==> r.resourceId != resourceId
    ensures forall k :: |IdsOf(refs, resourceId, k)| == 0
  {
    forall k ensures |IdsOf(refs, resourceId, k)| == 0 {
      if |IdsOf(refs, resourceId, k)| > 0 {
        assert IdsOf(refs, resourceId, k)[0] in IdsOf(refs, resourceId, k);
      }
    }
  }

  /** With more than 100,000 ids between min and max, the reference with the largest id is
      updated exactly when max - min is not a multiple of 100,000; every other id in the
      range is always covered. */
  lemma ReferenceBoundsCoverMaxIff(min: int, max: int)
    requires max - min > ReferencePageSize
    ensures BoundsCover(ReferenceBounds(min, max), max) <==> (max - min) % ReferencePageSize != 0
    ensures forall x :: min <= x < max ==> BoundsCover(ReferenceBounds(min, max), x)
  {
    BoundsAreWindows(min, max, max);
    WindowsCoverMaxIff(min, max);
    ReferenceBoundsCoverBelowMax(min, max);
  }

  lemma ReferenceBoundsCoverBelowMax(min: int, max: int)
    requires max - min > ReferencePageSize
    ensures forall x :: min <= x < max ==> BoundsCover(ReferenceBounds(min, max), x)
  {
    forall x | min <= x < max ensures BoundsCover(ReferenceBounds(min, max), x) {
      BoundsAreWindows(min, max, x);
      WindowsCover(min, max, x);
    }
  }

  /** Beyond one window, the bounds cover an id exactly when a window does. */
  lemma BoundsAreWindows(min: int, max: int, x: int)
    requires max - min > ReferencePageSize
    ensures BoundsCover(ReferenceBounds(min, max), x) <==> Covers(Windows(min, max), x)
  {
    WindowBoundsCover(ReferenceBounds(min, max), Windows(min, max), x);
  }

  lemma WindowBoundsCover(bs: seq<Bounds>, w: seq<(int, int)>, x: int)
    requires |bs| == |w| && forall k :: 0 <= k < |bs| ==> bs[k] == Window(w[k].0, w[k].1)
    ensures BoundsCover(bs, x) <==> Covers(w, x)
  {
    if BoundsCover(bs, x) {
      var b :| b in bs && (b.Unbounded? || b.min <= x <= b.upper);
      var k :| 0 <= k < |bs| && bs[k] == b;
      assert w[k].0 <= x <= w[k].1;
    }
    if Covers(w, x) {
      var k :| 0 <= k < |w| && w[k].0 <= x <= w[k].1;
      assert bs[k] in bs;
    }
  }
}

=== FILE: sequences.dfy ===
/** Sequence helpers shared by several models. */
module Sequences {
  /** Ruby's `first(n)` and SQL's `LIMIT n`: at most the first `n` elements. */
  function Take<T>(xs: seq<T>, n: nat): (ys: seq<T>)
    ensures |ys| == if |xs| < n then |xs| else n
    ensures ys == xs[..|ys|]
  {
    if |xs| <= n then xs else xs[..n]
  }

  /** `a` is `b` with some elements left out, order kept. */
  predicate SubseqOf<T(==)>(a: seq<T>, b: seq<T>)
    decreases |b|
  {
    if |a| == 0 then true
    else if |b| == 0 then false
    else if a[0] == b[0] then SubseqOf(a[1..], b[1..])
    else SubseqOf(a, b[1..])
  }

  lemma {:induction false} PrefixOfSubseq<T>(a: seq<T>, b: seq<T>, k: nat)
    requires SubseqOf(a, b) && k <= |a|
    ensures SubseqOf(a[..k], b)
    decreases |b|
  {
    if k > 0 && |b| > 0 {
      if a[0] == b[0] {
        assert a[..k][1..] == a[1..][..k - 1];
        PrefixOfSubseq(a[1..], b[1..], k - 1);
      } else {
        PrefixOfSubseq(a, b[1..], k);
      }
    }
  }

  lemma {:induction false} SubseqOfPrefix<T>(a: seq<T>, b: seq<T>, k: nat)
    requires k <= |b| && SubseqOf(a, b[..k])
    ensures SubseqOf(a, b)
    decreases k
  {
    if |a| > 0 && k > 0 {
      assert b[..k][1..] == b[1..][..k - 1];
      if a[0] == b[0] {
        SubseqOfPrefix(a[1..], b[1..], k - 1);
      } else {
        SubseqOfPrefix(a, b[1..], k - 1);
      }
    }
  }

  /** Dropping the first element of a subsequence leaves a subsequence. */
  lemma {:induction false} SubseqTail<T>(a: seq<T>, b: seq<T>)
    requires |a| > 0 && SubseqOf(a, b)
    ensures SubseqOf(a[1..], b)
    decreases |b|
  {
    if a[0] == b[0] {
      SubseqOfTail(a[1..], b);
    } else {
      SubseqTail(a, b[1..]);
      SubseqOfTail(a[1..], b);
    }
  }

  /** A subsequence of the tail is a subsequence of the whole. */
  lemma {:induction false} SubseqOfTail<T>(a: seq<T>, b: seq<T>)
    requires |b| > 0 && SubseqOf(a, b[1..])
    ensures SubseqOf(a, b)
    decreases |b|, 0
  {
    if |a| > 0 && a[0] == b[0] {
      SubseqTail(a, b[1..]);
    }
  }
}

=== FILE: strings.dfy ===
/** String helpers with the meaning Ruby and JavaScript give them in the modelled code. */
module Strings {
  import opened Wrappers

  predicate IsPrefix(p: string, s: string) {
    |p| <= |s| && s[..|p|] == p
  }

  predicate IsSuffix(p: string, s: string) {
    |p| <= |s| && s[|s| - |p|..] == p
  }

  lemma PrefixTrans(a: string, b: string, c: string)
    requires IsPrefix(a, b) && IsPrefix(b, c)
    ensures IsPrefix(a, c)
  {
    assert c[..|a|] == c[..|b|][..|a|];
  }

  /** A string starting with `q` still does once text is put before it and after it. */
  lemma PrefixInside(p: string, q: string, s: string, t: string)
    requires IsPrefix(q, s)
    ensures IsPrefix(p + q, p + s + t)
  {
    assert (p + s + t)[..|p + q|] == p + s[..|q|];
  }

  lemma SuffixOfConcat(a: string, b: string)
    ensures IsSuffix(b, a + b)
  {
    assert (a + b)[|a|..] == b;
  }

  /** Ruby's `\s`: space, tab, line feed, vertical tab, form feed, carriage return. */
  predicate IsSpace(c: char) {
    c == ' ' || c == '\t' || c == '\n' || c == '\r' || c as int == 11 || c as int == 12
  }

  /** POSIX `[[:space:]]` in a Ruby regular expression on a Unicode string: a character with
      the Unicode White_Space property. */
  predicate IsWhiteSpace(c: char) {
    var n := c as int;
    (9 <= n <= 13) || n == 0x20 || n == 0x85 || n == 0xA0 || n == 0x1680
    || (0x2000 <= n <= 0x200A) || n == 0x2028 || n == 0x2029 || n == 0x202F || n == 0x205F
    || n == 0x3000
  }

  /** Rails' `blank?` on a string (`/\A[[:space:]]*\z/`): empty or White_Space only. */
  predicate Blank(s: string) {
    forall i :: 0 <= i < |s| ==> IsWhiteSpace(s[i])
  }

  /** Rails' `present?` on a possibly-nil string. */
  predicate Present(s: Option<string>) {
    s.Some? && !Blank(s.value)
  }

  /** Whether `pat` occurs in `s` (Ruby's `include?`, or a regular expression without metacharacters). */
  function Contains(s: string, pat: string): bool
    decreases |s|
  {
    if |s| < |pat| then false
    else if s[..|pat|] == pat then true
    else Contains(s[1..], pat)
  }

  lemma {:induction false} ContainsAt(s: string, pat: string, i: nat)
    requires i + |pat| <= |s| && s[i..i + |pat|] == pat
    ensures Contains(s, pat)
    decreases i
  {
    if i > 0 && s[..|pat|] != pat {
      assert s[1..][i - 1..i - 1 + |pat|] == s[i..i + |pat|];
      ContainsAt(s[1..], pat, i - 1);
    }
  }

  /** A string none of whose possible match starts holds `pat`'s first character has no
      occurrence of `pat`. */
  lemma {:induction false} NoStartNoMatch(s: string, pat: string)
    requires |pat| > 0
    requires forall i :: 0 <= i && i + |pat| <= |s| ==> s[i] != pat[0]
    ensures !Contains(s, pat)
    decreases |s|
  {
    if |s| >= |pat| {
      assert s[..|pat|][0] == s[0];
      assert forall i :: 0 <= i && i + |pat| <= |s| - 1 ==> s[1..][i] == s[i + 1];
      NoStartNoMatch(s[1..], pat);
    }
  }

  function DigitChar(d: nat): char
    requires d < 10
  {
    "0123456789"[d]
  }

  /** Ruby's `to_s` on a non-negative integer. */
  function NatToString(n: nat): (r: string)
    ensures |r| >= 1
    ensures forall i :: 0 <= i < |r| ==> '0' <= r[i] <= '9'
    decreases n
  {
    if n < 10 then [DigitChar(n)] else NatToString(n / 10) + [DigitChar(n % 10)]
  }

  /** Ruby's `to_s` on an integer. */
  function IntToString(i: int): (r: string)
    ensures |r| >= 1 && (r[0] == '-' <==> i < 0)
    ensures forall j :: (if i < 0 then 1 else 0) <= j < |r| ==> '0' <= r[j] <= '9'
  {
    if i < 0 then "-" + NatToString(-i) else NatToString(i)
  }

  /** Position of the first `c` in `s`. */
  function IndexOf(s: string, c: char): (i: nat)
    requires c in s
    ensures i < |s| && s[i] == c && c !in s[..i]
  {
    if s[0] == c then 0
    else
      assert c in s[1..] by { assert s == [s[0]] + s[1..]; }
      var j := IndexOf(s[1..], c);
      assert s[..j + 1] == [s[0]] + s[1..][..j];
      j + 1
  }

  /** `gsub` copies a stretch holding no occurrence, replaces the occurrence that ends it,
      and carries on after that occurrence. */
  lemma {:induction false} ReplaceAllAfter(a: string, pat: string, rep: string, b: string)
    requires |pat| > 0 && !Contains(a + pat[..|pat| - 1], pat)
    ensures ReplaceAll(a + pat + b, pat, rep) == a + rep + ReplaceAll(b, pat, rep)
    decreases |a|
  {
    var s := a + pat + b;
    if |a| == 0 {
      assert s == pat + b;
      ReplaceAtFront(pat, rep, b);
      assert a + rep == rep;
    } else {
      NoMatchAtFront(a, pat, b);
      ReplaceAllAfter(a[1..], pat, rep, b);
      SkipFirst(s, pat, rep);
      ConsBack(a, rep + ReplaceAll(b, pat, rep));
    }
  }

  /** Where `pat` starts the text, `gsub` replaces it and carries on after it. */
  lemma {:induction false} ReplaceAtFront(pat: string, rep: string, b: string)
    requires |pat| > 0
    ensures ReplaceAll(pat + b, pat, rep) == rep + ReplaceAll(b, pat, rep)
  {
    assert (pat + b)[..|pat|] == pat && (pat + b)[|pat|..] == b;
  }

  /** Where `pat` does not start the text, `gsub` keeps the first character. */
  lemma {:induction false} SkipFirst(s: string, pat: string, rep: string)
    requires |pat| > 0 && |s| >= |pat| && s[..|pat|] != pat
    ensures ReplaceAll(s, pat, rep) == [s[0]] + ReplaceAll(s[1..], pat, rep)
  {
  }

  lemma {:induction false} ConsBack(a: string, rest: string)
    requires |a| > 0
    ensures [a[0]] + (a[1..] + rest) == a + rest
  {
    assert a == [a[0]] + a[1..];
  }

  /** The first step of `ReplaceAllAfter`: nothing matches at the front, and the rest of the
      stretch still holds no occurrence. */
  lemma {:induction false} NoMatchAtFront(a: string, pat: string, b: string)
    requires |pat| > 0 && |a| > 0 && !Contains(a + pat[..|pat| - 1], pat)
    ensures (a + pat + b)[..|pat|] != pat
    ensures !Contains(a[1..] + pat[..|pat| - 1], pat)
    ensures (a + pat + b)[1..] == a[1..] + pat + b
    ensures (a + pat + b)[0] == a[0]
  {
    var p := pat[..|pat| - 1];
    var x := a + p;
    assert |x| >= |pat|;
    assert x[..|pat|] != pat && !Contains(x[1..], pat);
    assert x[1..] == a[1..] + p;
    var s := a + pat + b;
    assert s[..|pat|] == x[..|pat|] by {
      assert pat == p + [pat[|pat| - 1]];
      assert s == x + [pat[|pat| - 1]] + b;
    }
  }

  /** The parts joined back with `sep` between them. */
  function Join(parts: seq<string>, sep: char): string {
    if |parts| == 0 then ""
    else if |parts| == 1 then parts[0]
    else parts[0] + [sep] + Join(parts[1..], sep)
  }

  /** A character of the joined text is the separator between two parts or a character of
      one of the parts. */
  lemma {:induction false} JoinChars(parts: seq<string>, sep: char, c: char)
    ensures c in Join(parts, sep)
      <==> (c == sep && |parts| > 1) || exists i :: 0 <= i < |parts| && c in parts[i]
    decreases |parts|
  {
    if |parts| == 1 {
      assert Join(parts, sep) == parts[0];
    } else if |parts| > 1 {
      JoinChars(parts[1..], sep, c);
      assert Join(parts, sep) == parts[0] + [sep] + Join(parts[1..], sep);
      if exists i :: 0 <= i < |parts| - 1 && c in parts[1..][i] {
        var i :| 0 <= i < |parts| - 1 && c in parts[1..][i];
        assert c in parts[i + 1];
      }
      if exists i :: 0 <= i < |parts| && c in parts[i] {
        var i :| 0 <= i < |parts| && c in parts[i];
        if i > 0 {
          assert c in parts[1..][i - 1];
        }
      }
    }
  }

  /** JavaScript's `s.split(sep)` for a one-character separator: never empty, no part holds
      the separator, and joining the parts gives `s` back. */
  function Split(s: string, sep: char): (parts: seq<string>)
    ensures |parts| >= 1
    ensures forall i :: 0 <= i < |parts| ==> sep !in parts[i]
    ensures Join(parts, sep) == s
    decreases |s|
  {
    if sep !in s then [s]
    else
      var i := IndexOf(s, sep);
      var rest := Split(s[i + 1..], sep);
      assert s == s[..i] + [sep] + s[i + 1..];
      [s[..i]] + rest
  }

  /** Ruby's `gsub` with a literal string pattern: every leftmost, non-overlapping
      occurrence of `pat` is replaced by `rep`; a string without `pat` is unchanged. */
  function ReplaceAll(s: string, pat: string, rep: string): (r: string)
    requires |pat| > 0
    ensures !Contains(s, pat) ==> r == s
    decreases |s|
  {
    if |s| < |pat| then s
    else if s[..|pat|] == pat then rep + ReplaceAll(s[|pat|..], pat, rep)
    else [s[0]] + ReplaceAll(s[1..], pat, rep)
  }
}

=== FILE: term_node.dfy ===
/** Type predicates and search fields of a trait-bank term (app/models/term_node.rb). */
module TermNodes {
  import opened Wrappers
  import opened Strings

  /** The `type` a term has when it is an object (value) term. */
  const ObjTermType: string := "value"

  /** A term: its `type`, `uri`, `trait_row_count`, `is_ordinal` (nil, true or false; a
      non-boolean truthy value is not modelled), its units term's uri if it has one, and the
      term it is the inverse of. */
  datatype Term = Term(
    termType: Option<string>,
    uri: Option<string>,
    traitRowCount: int,
    isOrdinal: Option<bool>,
    unitsTerm: Option<string>,
    inverse: Option<Term>)

  /** `object_term?`. */
  predicate ObjectTerm(t: Term) {
    t.termType == Some(ObjTermType)
  }

  /** `predicate?`: every term that is not an object term. */
  predicate IsPredicate(t: Term) {
    !ObjectTerm(t)
  }

  /** `known_type?`. */
  predicate KnownType(t: Term) {
    IsPredicate(t) || ObjectTerm(t)
  }

  /** Every term is exactly one of predicate and object term, so every type is "known". */
  lemma ExactlyOneKind(t: Term)
    ensures IsPredicate(t) != ObjectTerm(t)
    ensures KnownType(t)
    ensures ObjectTerm(t) <==> t.termType == Some("value")
  {
  }

  /** `numeric_value_predicate?`: ordinal, or measured in some units. An `is_ordinal` of nil
      counts as false, like an explicit false. */
  predicate NumericValuePredicate(t: Term): (r: bool)
    ensures t.isOrdinal == Some(true) ==> r
    ensures t.unitsTerm.Some? ==> r
    ensures (t.isOrdinal.None? || t.isOrdinal == Some(false)) && t.unitsTerm.None? ==> !r
  {
    t.isOrdinal == Some(true) || t.unitsTerm.Some?
  }

  /** Whether a term takes numeric values depends on its ordinal flag and units alone: its
      type, uri, count and inverse play no part. */
  lemma NumericOnlyFromOrdinalAndUnits(t: Term, u: Term)
    requires t.isOrdinal == u.isOrdinal && t.unitsTerm == u.unitsTerm
    ensures NumericValuePredicate(t) == NumericValuePredicate(u)
  {
  }

  /** `inverse_only?`. */
  predicate InverseOnly(t: Term) {
    t.inverse.Some?
  }

  /** The term a search on `t` is about: its inverse when it has one, otherwise itself. */
  function SearchTerm(t: Term): Term
  {
    if InverseOnly(t) then t.inverse.value else t
  }

  /** `uri_for_search`. */
  function UriForSearch(t: Term): Option<string>
  {
    if InverseOnly(t) then t.inverse.value.uri else t.uri
  }

  /** `trait_row_count_for_search`. */
  function TraitRowCountForSearch(t: Term): int
  {
    if InverseOnly(t) then t.inverse.value.traitRowCount else t.traitRowCount
  }

  /** The search uri and the search count always describe the same term: the inverse, which is
      a different term, when there is one, and the term itself otherwise. */
  lemma SearchFieldsAgree(t: Term)
    ensures UriForSearch(t) == SearchTerm(t).uri
    ensures TraitRowCountForSearch(t) == SearchTerm(t).traitRowCount
    ensures InverseOnly(t) ==> SearchTerm(t) == t.inverse.value && SearchTerm(t) != t
    ensures !InverseOnly(t) ==> SearchTerm(t) == t
  {
    if InverseOnly(t) {
      assert t.inverse.value < t.inverse < t;
    }
  }
}

=== FILE: trait_bank_query.dfy ===
/** The predicate/object pair list of `TraitBank::Query` (app/models/trait_bank/query.rb). */
module TraitBankQuery {
  import opened Wrappers
  import opened Strings

  const NumPairs: nat := 4

  /** A `Pair`: its `predicate` and `object`, either possibly nil. */
  datatype Pair = Pair(pred: Option<string>, obj: Option<string>)

  const BlankPair := Pair(None, None)

  /** `pair_params` of a form submission, as a pair built from them. */
  type PairParams = Pair

  /** `pairs_attributes=`: each submitted pair whose predicate is present is appended, in
      submission order; existing pairs are kept as they were. */
  function PairsAttributes(pairs: Option<seq<Pair>>, attributes: seq<(string, PairParams)>): (r: seq<Pair>)
    ensures |r| >= |pairs.GetOr([])| && r[..|pairs.GetOr([])|] == pairs.GetOr([])
    ensures forall i :: |pairs.GetOr([])| <= i < |r| ==> Present(r[i].pred)
    ensures forall i :: 0 <= i < |attributes| && Present(attributes[i].1.pred) ==> attributes[i].1 in r
    ensures |r| - |pairs.GetOr([])| <= |attributes|
    decreases |attributes|
  {
    var start := pairs.GetOr([]);
    if |attributes| == 0 then start
    else
      var last := attributes[|attributes| - 1];
      var r1 := PairsAttributes(pairs, attributes[..|attributes| - 1]);
      assert forall i :: 0 <= i < |attributes| - 1 ==> attributes[..|attributes| - 1][i] == attributes[i];
      if Present(last.1.pred) then
        assert (r1 + [last.1])[..|start|] == r1[..|start|];
        r1 + [last.1]
      else r1
  }

  /** The pairs `pairs_attributes=` appends, on their own. */
  function Appended(attributes: seq<(string, PairParams)>): seq<Pair>
    decreases |attributes|
  {
    if |attributes| == 0 then []
    else
      var last := attributes[|attributes| - 1];
      Appended(attributes[..|attributes| - 1]) + (if Present(last.1.pred) then [last.1] else [])
  }

  /** What is appended does not depend on what was there. */
  lemma {:induction false} PairsAttributesAppends(pairs: Option<seq<Pair>>, attributes: seq<(string, PairParams)>)
    ensures PairsAttributes(pairs, attributes) == pairs.GetOr([]) + Appended(attributes)
    decreases |attributes|
  {
    if |attributes| > 0 {
      PairsAttributesAppends(pairs, attributes[..|attributes| - 1]);
    }
  }

  /** `fill_out_pairs!`: blank pairs are appended until there are four. */
  function FillOutPairs(pairs: Option<seq<Pair>>): (r: seq<Pair>)
    ensures |r| == if |pairs.GetOr([])| < NumPairs then NumPairs else |pairs.GetOr([])|
    ensures r[..|pairs.GetOr([])|] == pairs.GetOr([])
    ensures forall i :: |pairs.GetOr([])| <= i < |r| ==> r[i] == BlankPair
    decreases NumPairs - |pairs.GetOr([])|
  {
    var ps := pairs.GetOr([]);
    if |ps| >= NumPairs then ps
    else
      var r := FillOutPairs(Some(ps + [BlankPair]));
      assert r[..|ps|] == (ps + [BlankPair])[..|ps|];
      r
  }

  /** Filling out twice is filling out once. */
  lemma FillOutPairsIdempotent(pairs: Option<seq<Pair>>)
    ensures FillOutPairs(Some(FillOutPairs(pairs))) == FillOutPairs(pairs)
  {
  }
}

=== FILE: trait_bank_stats.dfy ===
/** The validity checks and the result filter of `TraitBank::Stats`
    (app/models/trait_bank/stats.rb). Graph-database lookups are inputs: the terms the
    database knows (uri to type), the predicates with directly associated records, the
    descendant relation between terms, and the rows a counts query returns. */
module TraitBankStats {
  import opened Wrappers
  import opened Strings
  import opened Sequences

  /** `CheckResult`: valid, or invalid with a reason. */
  datatype CheckResult = CheckResult(valid: bool, reason: Option<string>)

  function Invalid(reason: string): (c: CheckResult)
    ensures !c.valid && c.reason == Some(reason)
  {
    CheckResult(false, Some(reason))
  }

  const Valid := CheckResult(true, None)

  const MinRecordsForHist: int := 4
  const ObjCountLimitPad: int := 5

  /** A term filter of a search: its predicate uri (possibly nil), whether the predicate
      has units, whether it is numeric, and whether it filters on an object term. */
  datatype Filter = Filter(predUri: Option<string>, unitsForPred: bool, numeric: bool, objectTerm: bool)

  /** The parts of a term query the checks read. `predicate_filters` and
      `object_term_filters` are defined outside this model and are taken as given. */
  datatype Query = Query(filters: seq<Filter>, predicateFilters: seq<Filter>, objectTermFilters: nat)

  /** The graph database as the checks see it: the type of the term `TermNode.find`
      returns for a key (the lookup goes through the id property, `eol_id`), and the
      predicates with directly associated records. */
  datatype TermDb = TermDb(types: map<string, string>, directRecords: set<string>)

  /** `TermNode.find` raises RecordNotFound for a key no term has. */
  function NotFound(key: string): (m: string)
    ensures IsPrefix("Couldn't find TermNode", m)
  {
    "Couldn't find TermNode with 'eol_id'=" + key
  }

  const NoTerm := "failed to retrieve a Term with uri "
  const NotMeasurement := "predicate type must be 'measurement'"

  /** `check_predicate`: a nil uri fails with the "failed to retrieve" reason (nil
      interpolates as nothing); a uri no term has raises in `TermNode.find`; a term that
      is not a measurement fails. */
  function CheckPredicate(uri: Option<string>, db: TermDb): (r: Result<CheckResult>)
    ensures r.Raise? <==> uri.Some? && uri.value !in db.types
    ensures r.Ok? ==> (r.value.valid <==> uri.Some? && db.types[uri.value] == "measurement")
    ensures r.Ok? && !r.value.valid ==> r.value.reason.Some?
    ensures uri.None? ==> r == Ok(Invalid(NoTerm))
  {
    if uri.None? then Ok(Invalid(NoTerm))
    else if uri.value !in db.types then Raise(NotFound(uri.value))
    else if db.types[uri.value] != "measurement" then Ok(Invalid(NotMeasurement))
    else Ok(Valid)
  }

  /** The predicate check passes: the term exists and is a measurement. */
  predicate PredicateValid(uri: Option<string>, db: TermDb) {
    CheckPredicate(uri, db).Ok? && CheckPredicate(uri, db).value.valid
  }

  const NotSingleFilter := "query must have a single filter"
  const HasNumericalValues := "query predicate has numerical values"
  const MustNotBeNumeric := "query must not be numeric"

  /** `check_query_valid_for_counts`: raises only from the predicate lookup. */
  function CheckCounts(q: Query, db: TermDb): (r: Result<CheckResult>)
    ensures |q.filters| != 1 ==> r == Ok(Invalid(NotSingleFilter))
    ensures r.Raise? <==>
      |q.filters| == 1 && Present(q.filters[0].predUri) && CheckPredicate(q.filters[0].predUri, db).Raise?
    ensures r.Ok? ==> (r.value.valid <==>
      |q.filters| == 1 &&
      (Present(q.filters[0].predUri) ==> PredicateValid(q.filters[0].predUri, db) && !q.filters[0].unitsForPred) &&
      !q.filters[0].numeric)
    ensures |q.filters| == 1 && Present(q.filters[0].predUri) && !PredicateValid(q.filters[0].predUri, db) ==>
      r == CheckPredicate(q.filters[0].predUri, db)
    ensures r.Ok? && !r.value.valid ==> r.value.reason.Some?
  {
    if |q.filters| != 1 then Ok(Invalid(NotSingleFilter))
    else
      var f := q.filters[0];
      if Present(f.predUri) && !PredicateValid(f.predUri, db) then CheckPredicate(f.predUri, db)
      else if Present(f.predUri) && f.unitsForPred then Ok(Invalid(HasNumericalValues))
      else if f.numeric then Ok(Invalid(MustNotBeNumeric))
      else Ok(Valid)
  }

  const TooFewRecords := "record count doesn't meet minimum of 4"
  const NotSinglePredicate := "query must have a single predicate filter"
  const HasObjectTerms := "query must not have any object term filters"
  const NoNumericalValues := "query predicate does not have numerical values"
  const NoDirectRecords := "predicate does not have any directly associated records"

  /** The histogram checks in the order the source runs them; each is `None` when it
      passes (a predicate lookup that raises is not a failed check). */
  function HistogramChecks(q: Query, recordCount: int, db: TermDb): (cs: seq<Option<CheckResult>>)
    ensures |cs| == 6
  {
    var single := |q.predicateFilters| == 1;
    var pred := if single then q.predicateFilters[0].predUri else None;
    var pr := CheckPredicate(pred, db);
    [ if recordCount < MinRecordsForHist then Some(Invalid(TooFewRecords)) else None,
      if !single then Some(Invalid(NotSinglePredicate)) else None,
      if pr.Ok? && !pr.value.valid then Some(pr.value) else None,
      if q.objectTermFilters > 0 then Some(Invalid(HasObjectTerms)) else None,
      if |q.filters| == 0 || !q.filters[0].unitsForPred then Some(Invalid(NoNumericalValues)) else None,
      if pred.None? || pred.value !in db.directRecords then Some(Invalid(NoDirectRecords)) else None ]
  }

  /** The first failing check of a list, or valid. */
  function FirstFailure(cs: seq<Option<CheckResult>>): CheckResult {
    if |cs| == 0 then Valid
    else if cs[0].Some? then cs[0].value
    else FirstFailure(cs[1..])
  }

  /** `check_query_valid_for_histogram`, written as the source writes it. It raises when
      the predicate lookup does, and when the query has a single predicate filter but no
      filters at all, since `query.filters.first.units_for_pred?` is then called on nil. */
  function CheckHistogram(q: Query, recordCount: int, db: TermDb): (r: Result<CheckResult>)
    ensures r.Raise? <==>
      recordCount >= MinRecordsForHist && |q.predicateFilters| == 1 &&
      (CheckPredicate(q.predicateFilters[0].predUri, db).Raise? ||
       (PredicateValid(q.predicateFilters[0].predUri, db) && q.objectTermFilters == 0 && |q.filters| == 0))
    ensures r.Ok? && !r.value.valid ==> r.value.reason.Some?
  {
    if recordCount < MinRecordsForHist then Ok(Invalid(TooFewRecords))
    else if |q.predicateFilters| != 1 then Ok(Invalid(NotSinglePredicate))
    else
      var pred := q.predicateFilters[0].predUri;
      var pr :- CheckPredicate(pred, db);
      if !pr.valid then Ok(pr)
      else if q.objectTermFilters > 0 then Ok(Invalid(HasObjectTerms))
      else if |q.filters| == 0 then Raise("undefined method `units_for_pred?' for nil")
      else if !q.filters[0].unitsForPred then Ok(Invalid(NoNumericalValues))
      else if pred.value !in db.directRecords then Ok(Invalid(NoDirectRecords))
      else Ok(Valid)
  }

  /** When it does not raise, the histogram check returns the reason of the first check in
      the fixed order that fails, and is valid exactly when none does. */
  lemma HistogramFirstFailure(q: Query, recordCount: int, db: TermDb)
    requires CheckHistogram(q, recordCount, db).Ok?
    ensures CheckHistogram(q, recordCount, db).value == FirstFailure(HistogramChecks(q, recordCount, db))
    ensures CheckHistogram(q, recordCount, db).value.valid <==>
      forall i :: 0 <= i < 6 ==> HistogramChecks(q, recordCount, db)[i].None?
  {
    var cs := HistogramChecks(q, recordCount, db);
    var c1 := cs[1..];
    var c2 := c1[1..];
    var c3 := c2[1..];
    var c4 := c3[1..];
    var c5 := c4[1..];
    assert c5[1..] == [];
    assert FirstFailure(c5) == if c5[0].Some? then c5[0].value else Valid;
    assert FirstFailure(c4) == if c4[0].Some? then c4[0].value else FirstFailure(c5);
    assert FirstFailure(c3) == if c3[0].Some? then c3[0].value else FirstFailure(c4);
    assert FirstFailure(c2) == if c2[0].Some? then c2[0].value else FirstFailure(c3);
    assert FirstFailure(c1) == if c1[0].Some? then c1[0].value else FirstFailure(c2);
  }

  /** `raise_if_query_invalid_for_counts`: the lookup's RecordNotFound, or a TypeError
      carrying the reason. */
  function RaiseIfInvalidForCounts(q: Query, db: TermDb): (r: Result<()>)
    ensures r.Ok? <==> CheckCounts(q, db).Ok? && CheckCounts(q, db).value.valid
    ensures CheckCounts(q, db).Ok? && r.Raise? ==> r.message == CheckCounts(q, db).value.reason.value
  {
    var c :- CheckCounts(q, db);
    if c.valid then Ok(()) else Raise(c.reason.value)
  }

  // ---------------------------------------------------------------------------
  // The counts result filter

  /** One row of a counts query: the object term's uri and its count. */
  datatype ObjCount = ObjCount(uri: string, count: int)

  /** Whether some other row with the same count is a descendant of `r`'s term, which makes
      `r`'s term one to filter. */
  predicate Shadowed(results: seq<ObjCount>, r: ObjCount, descendantOf: set<(string, string)>) {
    exists o :: o in results && o.count == r.count && o != r && (o.uri, r.uri) in descendantOf
  }

  /** `objs_to_filter`: the uris of rows shadowed by a descendant with the same count
      (count groups of one row contribute nothing, and identical rows are skipped). */
  function ObjsToFilter(results: seq<ObjCount>, descendantOf: set<(string, string)>): (uris: set<string>)
    ensures forall u :: u in uris <==> exists r :: r in results && r.uri == u && Shadowed(results, r, descendantOf)
  {
    set r | r in results && Shadowed(results, r, descendantOf) :: r.uri
  }

  function Reject(results: seq<ObjCount>, uris: set<string>): (r: seq<ObjCount>)
    ensures forall x :: x in r <==> x in results && x.uri !in uris
    ensures SubseqOf(r, results)
  {
    if |results| == 0 then []
    else
      assert forall x :: x in results <==> x == results[0] || x in results[1..];
      if results[0].uri in uris then Reject(results[1..], uris) else [results[0]] + Reject(results[1..], uris)
  }

  /** `filter_identical_count_ancestors`: rows whose term is shadowed are rejected, then
      `filtered[0..limit]` keeps the first limit + 1 of the rest, or all when fewer. */
  function FilterIdenticalCountAncestors(results: seq<ObjCount>, limit: nat, descendantOf: set<(string, string)>): (r: seq<ObjCount>)
    ensures var kept := Reject(results, ObjsToFilter(results, descendantOf));
      |r| == (if |kept| <= limit + 1 then |kept| else limit + 1) && r == kept[..|r|]
    ensures SubseqOf(r, results)
    ensures forall x :: x in r ==> x in results && x.uri !in ObjsToFilter(results, descendantOf)
  {
    var filtered := Reject(results, ObjsToFilter(results, descendantOf));
    var n := if |filtered| <= limit + 1 then |filtered| else limit + 1;
    PrefixOfSubseq(filtered, results, n);
    assert forall x :: x in filtered[..n] ==> x in filtered;
    filtered[..n]
  }

  /** A row is dropped only when a row with its uri is shadowed by a different row of the
      same count; when every count is unique nothing beyond the limit is dropped. */
  lemma FilterDropsOnlyShadowed(results: seq<ObjCount>, limit: nat, descendantOf: set<(string, string)>, x: ObjCount)
    requires x in results && x !in FilterIdenticalCountAncestors(results, limit, descendantOf)
    requires |Reject(results, ObjsToFilter(results, descendantOf))| <= limit + 1
    ensures exists r, o :: r in results && o in results && r.uri == x.uri && o.count == r.count && o != r && (o.uri, r.uri) in descendantOf
  {
  }

  /** Rows whose count no other row shares are never filtered out. */
  lemma UniqueCountsSurvive(results: seq<ObjCount>, descendantOf: set<(string, string)>, x: ObjCount)
    requires x in results
    requires forall r :: r in results && r.uri == x.uri ==> forall o :: o in results && o.count == r.count ==> o == r
    ensures x in Reject(results, ObjsToFilter(results, descendantOf))
  {
  }

  // ---------------------------------------------------------------------------
  // obj_counts

  const WrongArity := "wrong number of arguments (given 2, expected 1)"

  /** `obj_counts` as written: it passes two arguments to the one-argument
      `raise_if_query_invalid_for_counts`, so it raises an ArgumentError on every call. */
  function ObjCountsAsWritten(q: Query, recordCount: int, limit: nat, db: TermDb, rows: seq<ObjCount>,
                              descendantOf: set<(string, string)>): (r: Result<seq<ObjCount>>)
    ensures r == Raise(WrongArity)
  {
    Raise(WrongArity)
  }

  /** The rows the counts query returns under `LIMIT limit + 5`. */
  function Fetched(rows: seq<ObjCount>, limit: nat): (f: seq<ObjCount>)
    ensures |f| == (if |rows| <= limit + ObjCountLimitPad then |rows| else limit + ObjCountLimitPad)
    ensures f == rows[..|f|]
  {
    if |rows| <= limit + ObjCountLimitPad then rows else rows[..limit + ObjCountLimitPad]
  }

  /** `obj_counts` with the check called as intended: an invalid query raises; otherwise
      the first limit + 5 rows are fetched, and at most limit + 1 of them come back, in
      their order, none shadowed within the fetched rows. */
  function ObjCounts(q: Query, limit: nat, db: TermDb, rows: seq<ObjCount>, descendantOf: set<(string, string)>): (r: Result<seq<ObjCount>>)
    ensures r.Raise? <==> !(CheckCounts(q, db).Ok? && CheckCounts(q, db).value.valid)
    ensures r.Ok? ==> |r.value| <= limit + 1 && SubseqOf(r.value, rows)
    ensures r.Ok? ==> SubseqOf(r.value, Fetched(rows, limit))
    ensures r.Ok? ==> forall x :: x in r.value ==> x.uri !in ObjsToFilter(Fetched(rows, limit), descendantOf)
  {
    var _ :- RaiseIfInvalidForCounts(q, db);
    var fetched := Fetched(rows, limit);
    var out := FilterIdenticalCountAncestors(fetched, limit, descendantOf);
    SubseqOfPrefix(out, rows, |fetched|);
    Ok(out)
  }

  /** The as-written version raises on inputs where the intended one succeeds. */
  lemma ObjCountsArityBreaksValidQueries(q: Query, recordCount: int, limit: nat, db: TermDb, rows: seq<ObjCount>, d: set<(string, string)>)
    requires CheckCounts(q, db).Ok? && CheckCounts(q, db).value.valid
    ensures ObjCountsAsWritten(q, recordCount, limit, db, rows, d).Raise?
    ensures ObjCounts(q, limit, db, rows, d).Ok?
  {
  }
}

=== FILE: traits_controller.dfy ===
/** The decisions `TraitsController` makes around a trait search
    (app/controllers/traits_controller.rb). */
module TraitsController {
  import opened Wrappers
  import opened Strings

  // ---------------------------------------------------------------------------------------
  // Visualisation type

  datatype VizType = Assoc | Bar | Hist | Sankey | TaxonSummary

  /** The verdicts of the five validity checks for one search (the checks themselves run in
      `TraitBank::Stats`). */
  datatype VizChecks = VizChecks(assoc: bool, counts: bool, histogram: bool, sankey: bool, taxonSummary: bool)

  predicate Valid(c: VizChecks, t: VizType) {
    match t
    case Assoc => c.assoc
    case Bar => c.counts
    case Hist => c.histogram
    case Sankey => c.sankey
    case TaxonSummary => c.taxonSummary
  }

  /** The order in which the types are tried. */
  const Ladder: seq<VizType> := [Assoc, Bar, Hist, Sankey, TaxonSummary]

  /** The first type in `ladder` whose check passed: the reference reading of the ladder. */
  function FirstValid(c: VizChecks, ladder: seq<VizType>): (r: Option<VizType>)
    ensures r.Some? ==> r.value in ladder && Valid(c, r.value)
    ensures r.None? <==> forall t :: t in ladder ==> !Valid(c, t)
    decreases |ladder|
  {
    if |ladder| == 0 then None
    else if Valid(c, ladder[0]) then Some(ladder[0])
    else
      assert forall t :: t in ladder ==> t == ladder[0] || t in ladder[1..];
      FirstValid(c, ladder[1..])
  }

  /** `data_viz_type`'s choice. */
  function DataVizType(c: VizChecks): Option<VizType> {
    if c.assoc then Some(Assoc)
    else if c.counts then Some(Bar)
    else if c.histogram then Some(Hist)
    else if c.sankey then Some(Sankey)
    else if c.taxonSummary then Some(TaxonSummary)
    else None
  }

  /** The if-chain is the ladder: the chosen type is valid, no type before it on the ladder is,
      and nothing is chosen only when no check passed. */
  lemma DataVizTypeIsFirstValid(c: VizChecks)
    ensures DataVizType(c) == FirstValid(c, Ladder)
    ensures DataVizType(c).None? <==> forall t :: !Valid(c, t)
    ensures forall i, j :: 0 <= i < j < |Ladder| && DataVizType(c) == Some(Ladder[j]) ==> !Valid(c, Ladder[i])
  {
    assert Ladder[1..] == [Bar, Hist, Sankey, TaxonSummary];
    assert Ladder[1..][1..] == [Hist, Sankey, TaxonSummary];
    assert Ladder[1..][1..][1..] == [Sankey, TaxonSummary];
    assert Ladder[1..][1..][1..][1..] == [TaxonSummary];
    assert Ladder[1..][1..][1..][1..][1..] == [];
    forall t: VizType
      ensures t in Ladder
    {
      match t
      case Assoc => assert Ladder[0] == t;
      case Bar => assert Ladder[1] == t;
      case Hist => assert Ladder[2] == t;
      case Sankey => assert Ladder[3] == t;
      case TaxonSummary => assert Ladder[4] == t;
    }
  }

  /** `@fallback_data_viz_type`: the taxon summary, when it is valid and not already chosen. */
  function FallbackVizType(c: VizChecks): (r: Option<VizType>)
    ensures r.Some? <==> c.taxonSummary && DataVizType(c) != Some(TaxonSummary)
    ensures r.Some? ==> r.value == TaxonSummary
  {
    if DataVizType(c) != Some(TaxonSummary) && c.taxonSummary then Some(TaxonSummary) else None
  }

  /** A fallback is only offered next to another chosen type, never instead of one. */
  lemma FallbackAccompaniesChoice(c: VizChecks)
    ensures FallbackVizType(c).Some? ==> DataVizType(c).Some? && DataVizType(c) != FallbackVizType(c)
  {
  }

  // ---------------------------------------------------------------------------------------
  // View type

  /** `VIEW_TYPES`. */
  predicate ViewType(v: string) {
    v == "list" || v == "gallery"
  }

  const DefaultView: string := "list"

  /** `set_view_type`: a recognised `view` parameter is used and remembered in the session;
      otherwise the remembered one, or "list". Returns the view and the session value. */
  function SetViewType(param: Option<string>, session: Option<string>): (r: (string, Option<string>))
    ensures Present(param) && ViewType(param.value) ==> r == (param.value, param)
    ensures !(Present(param) && ViewType(param.value)) ==> r.1 == session && r.0 == session.GetOr(DefaultView)
  {
    if Present(param) && ViewType(param.value) then (param.value, param)
    else (session.GetOr(DefaultView), session)
  }

  /** A session that only ever held recognised view types keeps doing so, and the view shown
      is then always a recognised one. */
  lemma ViewTypeStaysRecognised(param: Option<string>, session: Option<string>)
    requires session.Some? ==> ViewType(session.value)
    ensures var (view, s) := SetViewType(param, session);
      ViewType(view) && (s.Some? ==> ViewType(s.value))
  {
  }

  // ---------------------------------------------------------------------------------------
  // GBIF links

  const PerPage: int := 50
  const GbifLinkLimit: int := PerPage
  const GbifDownloadLimit: int := 100000
  const GbifBaseUrl: string := "https://www.gbif.org/occurrence/map"

  /** The inputs `build_gbif_url` reads: whether the query is for taxa, the result count,
      whether the GBIF resource exists, whether GBIF downloads are enabled for the user, and
      each result's GBIF taxon key, if it has one. */
  datatype GbifInputs = GbifInputs(taxa: bool, count: int, gbifResource: bool, enabledForUser: bool,
                                   taxonKeys: seq<Option<string>>)

  /** `@gbif_url` and whether `@create_gbif_download_url` is set. */
  datatype GbifLinks = GbifLinks(gbifUrl: Option<string>, downloadLink: bool)

  function TaxonKeyParams(keys: seq<Option<string>>): (ps: seq<string>)
    ensures |ps| <= |keys|
    ensures |ps| == 0 <==> forall i :: 0 <= i < |keys| ==> keys[i].None?
    decreases |keys|
  {
    if |keys| == 0 then []
    else
      var rest := TaxonKeyParams(keys[1..]);
      assert forall i :: 1 <= i < |keys| ==> keys[i] == keys[1..][i - 1];
      if keys[0].Some? then ["taxon_key=" + keys[0].value] + rest else rest
  }

  /** `build_gbif_url`. */
  function BuildGbifUrl(g: GbifInputs): (r: GbifLinks)
    ensures r.gbifUrl.Some? <==> (g.taxa && g.gbifResource && 0 < g.count <= GbifLinkLimit
      && exists i :: 0 <= i < |g.taxonKeys| && g.taxonKeys[i].Some?)
    ensures r.downloadLink <==> (g.taxa && g.gbifResource && GbifLinkLimit < g.count <= GbifDownloadLimit
      && g.enabledForUser)
    ensures !(r.gbifUrl.Some? && r.downloadLink)
    ensures r.gbifUrl.Some? ==> (IsPrefix(GbifBaseUrl + "?taxon_key=", r.gbifUrl.value)
      && IsSuffix("&occurrence_status=present", r.gbifUrl.value))
  {
    if g.taxa && g.count > 0 && g.gbifResource then
      if g.count <= GbifLinkLimit then
        var ps := TaxonKeyParams(g.taxonKeys);
        if |ps| > 0 then
          FirstParamIsTaxonKey(g.taxonKeys);
          GbifLinks(Some(GbifUrl(ps)), false)
        else GbifLinks(None, false)
      else if g.count <= GbifDownloadLimit && g.enabledForUser then GbifLinks(None, true)
      else GbifLinks(None, false)
    else GbifLinks(None, false)
  }

  /** The map link for the results' taxon keys. */
  function GbifUrl(ps: seq<string>): (url: string)
    requires |ps| > 0 && IsPrefix("taxon_key=", ps[0])
    ensures IsPrefix(GbifBaseUrl + "?taxon_key=", url) && IsSuffix("&occurrence_status=present", url)
  {
    var j := Join(ps, '&');
    JoinStartsWithFirst(ps, '&');
    PrefixTrans("taxon_key=", ps[0], j);
    PrefixInside(GbifBaseUrl + "?", "taxon_key=", j, "&occurrence_status=present");
    SuffixOfConcat(GbifBaseUrl + "?" + j, "&occurrence_status=present");
    assert GbifBaseUrl + "?" + "taxon_key=" == GbifBaseUrl + "?taxon_key=";
    GbifBaseUrl + "?" + j + "&occurrence_status=present"
  }

  lemma {:induction false} FirstParamIsTaxonKey(keys: seq<Option<string>>)
    requires |TaxonKeyParams(keys)| > 0
    ensures IsPrefix("taxon_key=", TaxonKeyParams(keys)[0])
    decreases |keys|
  {
    if keys[0].None? {
      FirstParamIsTaxonKey(keys[1..]);
    }
  }

  lemma JoinStartsWithFirst(parts: seq<string>, sep: char)
    requires |parts| > 0
    ensures IsPrefix(parts[0], Join(parts, sep))
  {
    if |parts| > 1 {
      assert (parts[0] + [sep] + Join(parts[1..], sep))[..|parts[0]|] == parts[0];
    }
  }

  // ---------------------------------------------------------------------------------------
  // Displayed query text

  /** A query parameter value: strings are shown double-quoted, others with `to_s`. */
  datatype ParamValue = StrValue(s: string) | IntValue(i: int) | NilValue

  /** The text a value is put in as: a string between double quotes, an integer in decimal,
      nil as nothing. */
  function Shown(v: ParamValue): (r: string)
    ensures v.StrValue? ==> |r| == |v.s| + 2 && r[0] == '"' && r[|r| - 1] == '"' && r[1..|r| - 1] == v.s
    ensures v.IntValue? ==> |r| >= 1 && (r[0] == '-' <==> v.i < 0) && '"' !in r
    ensures v.NilValue? ==> r == ""
  {
    match v
    case StrValue(s) => "\"" + s + "\""
    case IntValue(i) => IntToString(i)
    case NilValue => ""
  }

  /** The number of spaces `line` starts with. */
  function LeadingBlanks(line: string): (n: nat)
    ensures n <= |line|
    ensures n < |line| ==> line[n] != ' '
    decreases |line|
  {
    if |line| == 0 || line[0] != ' ' then 0 else 1 + LeadingBlanks(line[1..])
  }

  /** `gsub(/^\ +/, '')`: spaces at the start of every line go. */
  function StripLineIndents(lines: seq<string>): (r: seq<string>)
    ensures |r| == |lines|
    ensures forall i :: 0 <= i < |r| ==> IsSuffix(r[i], lines[i]) && (|r[i]| == 0 || r[i][0] != ' ')
    ensures forall i :: 0 <= i < |r| ==> '\n' !in lines[i] ==> '\n' !in r[i]
    decreases |lines|
  {
    if |lines| == 0 then []
    else
      var l := lines[0];
      var stripped := l[LeadingBlanks(l)..];
      assert forall c :: c in stripped ==> c in l;
      [stripped] + StripLineIndents(lines[1..])
  }

  /** Every `$k` becomes its shown value, in parameter order; a query without `$` has no
      placeholder and is left as it is. */
  function Substitute(query: string, params: seq<(string, ParamValue)>): (r: string)
    ensures '$' !in query ==> r == query
    decreases |params|
  {
    if |params| == 0 then query
    else
      var pat := "$" + params[0].0;
      DollarFreeNoPlaceholder(query, params[0].0);
      Substitute(ReplaceAll(query, pat, Shown(params[0].1)), params[1..])
  }

  /** `build_query_for_display`: indents stripped, then the placeholders substituted. A query
      without placeholders is shown line for line, each line without its leading spaces. */
  function BuildQueryForDisplay(raw: string, params: seq<(string, ParamValue)>): (r: string)
    ensures '$' !in raw ==> Split(r, '\n') == StripLineIndents(Split(raw, '\n'))
  {
    var stripped := StripLineIndents(Split(raw, '\n'));
    StripKeepsChars(raw, '$');
    SplitJoin(stripped, '\n');
    Substitute(Join(stripped, '\n'), params)
  }

  /** Stripping indents adds no character the raw text did not have. */
  lemma {:induction false} StripKeepsChars(raw: string, c: char)
    ensures c in Join(StripLineIndents(Split(raw, '\n')), '\n') ==> c in raw
  {
    var lines := Split(raw, '\n');
    var stripped := StripLineIndents(lines);
    JoinChars(stripped, '\n', c);
    JoinChars(lines, '\n', c);
    if c in Join(stripped, '\n') && c != '\n' {
      var i :| 0 <= i < |stripped| && c in stripped[i];
      var j :| 0 <= j < |stripped[i]| && stripped[i][j] == c;
      assert lines[i][|lines[i]| - |stripped[i]| + j] == c;
    }
  }

  /** A query whose only `$` is the one of the placeholder `$k`: the placeholder becomes the
      shown value (a string between double quotes, an integer in decimal, nil as nothing) and
      the text around it is kept. */
  lemma {:induction false} SubstituteOne(a: string, k: string, b: string, v: ParamValue)
    requires '$' !in a && '$' !in b
    ensures var r := Substitute(a + "$" + k + b, [(k, v)]);
      (v.StrValue? ==> r == a + "\"" + v.s + "\"" + b)
      && (v.IntValue? ==> r == a + IntToString(v.i) + b)
      && (v.NilValue? ==> r == a + b)
  {
    PlaceholderReplaced(a, k, b, v);
    ShownBetween(a, b, v);
  }

  /** The shown value between two pieces of text, spelled out for each kind of value. */
  lemma {:induction false} ShownBetween(a: string, b: string, v: ParamValue)
    ensures v.StrValue? ==> a + Shown(v) + b == a + "\"" + v.s + "\"" + b
    ensures v.IntValue? ==> a + Shown(v) + b == a + IntToString(v.i) + b
    ensures v.NilValue? ==> a + Shown(v) + b == a + b
  {
    match v
    case StrValue(x) =>
      assert Shown(v) == "\"" + x + "\"";
    case IntValue(i) =>
    case NilValue =>
      assert a + "" == a;
  }

  lemma {:induction false} PlaceholderReplaced(a: string, k: string, b: string, v: ParamValue)
    requires '$' !in a && '$' !in b
    ensures Substitute(a + "$" + k + b, [(k, v)]) == a + Shown(v) + b
  {
    var pat := "$" + k;
    var q := a + pat + b;
    assert a + "$" + k + b == q;
    PlaceholderAfterDollarFree(a, k);
    ReplaceAllAfter(a, pat, Shown(v), b);
    DollarFreeNoPlaceholder(b, k);
    var r := ReplaceAll(q, pat, Shown(v));
    assert r == a + Shown(v) + b;
    assert Substitute(q, [(k, v)]) == Substitute(r, []);
  }

  /** Text without `$` holds no placeholder. */
  lemma {:induction false} DollarFreeNoPlaceholder(s: string, k: string)
    ensures '$' !in s ==> !Contains(s, "$" + k)
  {
    if '$' !in s {
      NoStartNoMatch(s, "$" + k);
    }
  }

  /** Text without `$` followed by a placeholder cut short holds no whole placeholder. */
  lemma {:induction false} PlaceholderAfterDollarFree(a: string, k: string)
    requires '$' !in a
    ensures !Contains(a + ("$" + k)[..|k|], "$" + k)
  {
    var pat := "$" + k;
    var x := a + pat[..|pat| - 1];
    assert forall i :: 0 <= i && i + |pat| <= |x| ==> x[i] == a[i];
    NoStartNoMatch(x, pat);
  }

  /** Before substitution, the text keeps its lines, and no line begins with a space. */
  lemma IndentsStripped(raw: string)
    ensures var lines := Split(Join(StripLineIndents(Split(raw, '\n')), '\n'), '\n');
      |lines| == |Split(raw, '\n')|
      && forall i :: 0 <= i < |lines| ==> |lines[i]| == 0 || lines[i][0] != ' '
  {
    var stripped := StripLineIndents(Split(raw, '\n'));
    SplitJoin(stripped, '\n');
  }

  /** Splitting lines joined by a separator none of them contains gives the lines back. */
  lemma {:induction false} SplitJoin(parts: seq<string>, sep: char)
    requires |parts| > 0
    requires forall i :: 0 <= i < |parts| ==> sep !in parts[i]
    ensures Split(Join(parts, sep), sep) == parts
    decreases |parts|
  {
    if |parts| > 1 {
      var rest := Join(parts[1..], sep);
      var s := parts[0] + [sep] + rest;
      IndexOfAfter(parts[0], rest, sep);
      var i := IndexOf(s, sep);
      assert s[..i] == parts[0];
      assert s[i + 1..] == rest;
      SplitJoin(parts[1..], sep);
    } else {
      assert Join(parts, sep) == parts[0];
    }
  }

  /** The first separator after a separator-free prefix is the one that ends it. */
  lemma {:induction false} IndexOfAfter(p: string, rest: string, sep: char)
    requires sep !in p
    ensures sep in p + [sep] + rest
    ensures IndexOf(p + [sep] + rest, sep) == |p|
    decreases |p|
  {
    var s := p + [sep] + rest;
    assert s[|p|] == sep;
    if |p| > 0 {
      assert p[0] in p;
      assert s[1..] == p[1..] + [sep] + rest;
      assert sep !in p[1..] by { assert forall c :: c in p[1..] ==> c in p; }
      IndexOfAfter(p[1..], rest, sep);
    }
  }

  /** A query without any placeholder is shown as it is, once indented lines are stripped. */
  lemma NoPlaceholdersNoChange(query: string, params: seq<(string, ParamValue)>)
    requires forall i :: 0 <= i < |params| ==> !Contains(query, "$" + params[i].0)
    ensures Substitute(query, params) == query
    decreases |params|
  {
    if |params| > 0 {
      NoPlaceholdersNoChange(query, params[1..]);
    }
  }

  // ---------------------------------------------------------------------------------------
  // Filter edits

  datatype FilterOp = IsAny | OtherOp(name: string)

  /** A search filter; `key` tells filters apart. */
  datatype Filter = Filter(op: FilterOp, key: nat)

  /** Ruby's `a[i]` position for a possibly negative index, if it is in range. */
  function Position(n: nat, i: int): (p: Option<nat>)
    ensures p.Some? <==> 0 <= i + n && i < n
    ensures p.Some? ==> p.value < n && (i >= 0 ==> p.value == i) && (i < 0 ==> p.value == n + i)
  {
    if 0 <= i < n then Some(i) else if 0 <= i + n && i < 0 then Some(i + n) else None
  }

  /** `show_extra_fields=` sent to the nil that `filters[i]` gives for an index naming no filter. */
  const ShowExtraOnNil := "undefined method `show_extra_fields=' for nil"

  /** `clear_extra_fields` sent to that nil. */
  const ClearExtraOnNil := "undefined method `clear_extra_fields' for nil"

  /** `filters.delete(nil)`: the association refuses a value that is not a filter record. */
  const DeleteNilMismatch := "ActiveRecord::AssociationTypeMismatch: filter record expected, got nil"

  /** An index parameter that is given and names no filter. */
  predicate Misses(n: nat, at: Option<int>) {
    at.Some? && Position(n, at.value).None?
  }

  /** `build_query`'s edits, in source order: `show_extra_fields` and `hide_extra_fields`
      each touch the filter they name, `remove_filter` deletes the filter it names, and
      `add_filter` appends one `is_any` filter. An index that names no filter reaches a
      method call on nil, and the first such raises. The extra-field flags themselves are
      not part of a `Filter`. */
  function EditFilters(filters: seq<Filter>, showAt: Option<int>, hideAt: Option<int>, removeAt: Option<int>,
                       add: bool, newKey: nat): (r: Result<seq<Filter>>)
    ensures r.Raise? <==> Misses(|filters|, showAt) || Misses(|filters|, hideAt) || Misses(|filters|, removeAt)
    ensures Misses(|filters|, showAt) ==> r == Raise(ShowExtraOnNil)
    ensures !Misses(|filters|, showAt) && Misses(|filters|, hideAt) ==> r == Raise(ClearExtraOnNil)
    ensures !Misses(|filters|, showAt) && !Misses(|filters|, hideAt) && Misses(|filters|, removeAt) ==>
      r == Raise(DeleteNilMismatch)
    ensures r.Ok? ==> |r.value| == |filters| - (if removeAt.Some? then 1 else 0) + (if add then 1 else 0)
    ensures r.Ok? && add ==> r.value[|r.value| - 1] == Filter(IsAny, newKey)
    ensures r.Ok? && removeAt.None? ==> r.value[..|filters|] == filters
    ensures r.Ok? && removeAt.Some? ==>
      var p := Position(|filters|, removeAt.value).value;
      r.value[..p] == filters[..p] && r.value[p..|filters| - 1] == filters[p + 1..]
    ensures r.Ok? ==> (multiset(r.value) ==
      multiset(Kept(filters, removeAt).value) + (if add then multiset{Filter(IsAny, newKey)} else multiset{}))
  {
    if Misses(|filters|, showAt) then Raise(ShowExtraOnNil)
    else if Misses(|filters|, hideAt) then Raise(ClearExtraOnNil)
    else
      var kept :- Kept(filters, removeAt);
      var r := if add then kept + [Filter(IsAny, newKey)] else kept;
      assert r[..|kept|] == kept;
      Ok(r)
  }

  /** `remove_filter`: deletes the filter the index names, so as a collection the old ones
      less exactly that one; an index naming none deletes nil, which raises. */
  function Kept(filters: seq<Filter>, removeAt: Option<int>): (r: Result<seq<Filter>>)
    ensures r.Raise? <==> Misses(|filters|, removeAt)
    ensures r.Raise? ==> r == Raise(DeleteNilMismatch)
    ensures removeAt.None? ==> r == Ok(filters)
    ensures r.Ok? && removeAt.Some? ==>
      var p := Position(|filters|, removeAt.value).value;
      var kept := r.value;
      |kept| == |filters| - 1 && kept[..p] == filters[..p] && kept[p..] == filters[p + 1..]
      && multiset(kept) == multiset(filters) - multiset{filters[p]}
  {
    if removeAt.Some? then
      match Position(|filters|, removeAt.value)
      case Some(p) =>
        RemoveAtMultiset(filters, p);
        Ok(filters[..p] + filters[p + 1..])
      case None => Raise(DeleteNilMismatch)
    else Ok(filters)
  }

  lemma {:induction false} RemoveAtMultiset(s: seq<Filter>, p: nat)
    requires p < |s|
    ensures multiset(s[..p] + s[p + 1..]) == multiset(s) - multiset{s[p]}
  {
    assert s == s[..p] + [s[p]] + s[p + 1..];
  }
}

=== FILE: user_download.dfy ===
/** Reuse and bookkeeping of trait-search CSV downloads (app/models/user_download.rb). */
module UserDownloads {
  import opened Wrappers
  import opened Strings

  datatype Status = Created | Completed | Failed
  datatype Duplication = Original | Duplicate

  /** The error record `mark_as_failed` builds. */
  datatype DownloadError = DownloadError(message: string, backtrace: string)

  /** A `user_downloads` row; times are seconds on one clock. */
  datatype Download = Download(
    id: nat,
    userId: nat,
    queryId: nat,
    status: Status,
    duplication: Duplication,
    filename: Option<string>,
    createdAt: int,
    completedAt: Option<int>,
    expiredAt: Option<int>,
    version: int,
    error: Option<DownloadError>)

  /** `EXPIRATION_TIME`: thirty days. */
  const ExpirationTime: int := 30 * 24 * 60 * 60

  /** `VERSION`: downloads built under another version are never reused. */
  const Version: int := 1

  /** The attributes the caller supplies for a new download; `count` and `search_url` are
      validated but not kept in `Download`. */
  datatype NewDownload = NewDownload(userId: Option<nat>, count: Option<int>, searchUrl: Option<string>,
                                     status: Status)

  /** What `create_and_run_if_needed!` leaves behind: the saved download, the table after the
      save, and whether a background build was queued. */
  datatype Creation = Creation(download: Download, table: seq<Download>, buildScheduled: bool)

  /** Younger than thirty days at `now`. */
  predicate Fresh(d: Download, now: int) {
    d.createdAt >= now - ExpirationTime
  }

  /** A completed, unexpired original of query `q` built under the current version within the
      last thirty days: a download the new one may share a file with. */
  predicate Reusable(d: Download, q: nat, now: int) {
    d.queryId == q && d.status == Completed && d.expiredAt.None? && d.duplication == Original
      && Fresh(d, now) && d.version == Version
  }

  /** The reusable downloads of `q`, in table order. */
  function ReusableFor(table: seq<Download>, q: nat, now: int): (r: seq<Download>)
    ensures forall d :: d in r <==> d in table && Reusable(d, q, now)
    decreases |table|
  {
    if |table| == 0 then []
    else
      assert forall d :: d in table <==> d == table[0] || d in table[1..];
      (if Reusable(table[0], q, now) then [table[0]] else []) + ReusableFor(table[1..], q, now)
  }

  /** `order("created_at DESC").first`: a newest download (the first such in table order). */
  function Newest(ds: seq<Download>): (d: Download)
    requires |ds| > 0
    ensures d in ds
    ensures forall e :: e in ds ==> e.createdAt <= d.createdAt
    decreases |ds|
  {
    if |ds| == 1 then ds[0]
    else
      var rest := Newest(ds[1..]);
      assert forall e :: e in ds ==> e == ds[0] || e in ds[1..];
      if ds[0].createdAt >= rest.createdAt then ds[0] else rest
  }

  /** The presence validations that fail, in declaration order (`user_id`, `count`,
      `search_url`). `term_query` is always set before the save, so its validation passes. */
  function ValidationErrors(attrs: NewDownload): (errs: seq<string>)
    ensures |errs| == 0 <==> attrs.userId.Some? && attrs.count.Some? && Present(attrs.searchUrl)
    ensures |errs| <= 3
    ensures forall i :: 0 <= i < |errs| ==> IsSuffix(CantBeBlank, errs[i])
  {
    var user := if attrs.userId.None? then [Missing("User")] else [];
    var count := if attrs.count.None? then [Missing("Count")] else [];
    var url := if !Present(attrs.searchUrl) then [Missing("Search url")] else [];
    AllBlankMessages(user, count, url);
    user + count + url
  }

  const CantBeBlank: string := " can't be blank"

  /** The full message of a failed presence validation of `attribute`. */
  function Missing(attribute: string): (m: string)
    ensures IsSuffix(CantBeBlank, m)
  {
    SuffixOfConcat(attribute, CantBeBlank);
    attribute + CantBeBlank
  }

  lemma AllBlankMessages(a: seq<string>, b: seq<string>, c: seq<string>)
    requires forall i :: 0 <= i < |a| ==> IsSuffix(CantBeBlank, a[i])
    requires forall i :: 0 <= i < |b| ==> IsSuffix(CantBeBlank, b[i])
    requires forall i :: 0 <= i < |c| ==> IsSuffix(CantBeBlank, c[i])
    ensures forall i :: 0 <= i < |a + b + c| ==> IsSuffix(CantBeBlank, (a + b + c)[i])
  {
    forall i | 0 <= i < |a + b + c|
      ensures IsSuffix(CantBeBlank, (a + b + c)[i])
    {
      if i < |a| {
        assert (a + b + c)[i] == a[i];
      } else if i < |a| + |b| {
        assert (a + b + c)[i] == b[i - |a|];
      } else {
        assert (a + b + c)[i] == c[i - |a| - |b|];
      }
    }
  }

  /** The messages separated by ", ". */
  function Sentence(parts: seq<string>): string
    decreases |parts|
  {
    if |parts| == 0 then "" else if |parts| == 1 then parts[0] else parts[0] + ", " + Sentence(parts[1..])
  }

  /** `ActiveRecord::RecordInvalid`'s message. */
  function RecordInvalidMessage(errs: seq<string>): (m: string)
    ensures IsPrefix("Validation failed: ", m)
  {
    "Validation failed: " + Sentence(errs)
  }

  /** `create_and_run_if_needed!`: `save!` raises `RecordInvalid` when a validation fails.
      Otherwise, unless `force_new`, a new download of a query that already has a reusable
      original becomes a completed duplicate pointing at the newest such file; else it is an
      original, and a build is queued whenever it is not complete. */
  function CreateAndRunIfNeeded(attrs: NewDownload, q: nat, forceNew: bool, table: seq<Download>,
                                newId: nat, now: int): (r: Result<Creation>)
    ensures r.Raise? <==> |ValidationErrors(attrs)| > 0
    ensures r.Raise? ==> r.message == RecordInvalidMessage(ValidationErrors(attrs))
    ensures r.Ok? ==> var c := r.value;
      c.table == table + [c.download]
      && c.download.id == newId && c.download.queryId == q && Some(c.download.userId) == attrs.userId
      && c.download.version == Version
      && c.download.createdAt == now
      && (c.buildScheduled <==> c.download.status != Completed)
    ensures r.Ok? ==> (r.value.download.duplication == Duplicate
      <==> !forceNew && exists d :: d in table && Reusable(d, q, now))
    ensures r.Ok? && r.value.download.duplication == Duplicate ==> var c := r.value;
      c.download.status == Completed && c.download.completedAt == Some(now)
      && exists d :: (d in table && Reusable(d, q, now) && c.download.filename == d.filename
        && forall e :: e in table && Reusable(e, q, now) ==> e.createdAt <= d.createdAt)
    ensures r.Ok? && r.value.download.duplication == Original ==>
      r.value.download.status == attrs.status && r.value.download.filename.None?
  {
    var errs := ValidationErrors(attrs);
    if |errs| > 0 then Raise(RecordInvalidMessage(errs))
    else
      var made := Download(newId, attrs.userId.value, q, attrs.status, Original, None, now, None, None, Version, None);
      var candidates := ReusableFor(table, q, now);
      var download :=
        if !forceNew && |candidates| > 0 then
          var existing := Newest(candidates);
          made.(filename := existing.filename, status := Completed, duplication := Duplicate, completedAt := Some(now))
        else made;
      Ok(Creation(download, table + [download], download.status != Completed))
  }

  /** `delete_file`'s guard: only a completed original with a file name owns its file. */
  predicate DeletesFile(d: Download) {
    d.status == Completed && d.filename.Some? && !Blank(d.filename.value) && d.duplication == Original
  }

  /** Destroying a duplicate never deletes the file it shares with its original. */
  lemma DuplicatesNeverDelete(attrs: NewDownload, q: nat, forceNew: bool, table: seq<Download>,
                              newId: nat, now: int)
    ensures var r := CreateAndRunIfNeeded(attrs, q, forceNew, table, newId, now);
      r.Ok? && r.value.download.duplication == Duplicate ==> !DeletesFile(r.value.download)
  {
  }

  /** `mark_as_failed` (the caller saves): failed, stamped complete now, with an error record. */
  function MarkAsFailed(d: Download, message: string, backtrace: string, now: int): (r: Download)
    ensures r.status == Failed && r.completedAt == Some(now)
    ensures r.error == Some(DownloadError(message, backtrace))
    ensures r.(status := d.status, completedAt := d.completedAt, error := d.error) == d
  {
    d.(status := Failed, completedAt := Some(now), error := Some(DownloadError(message, backtrace)))
  }

  /** `pending`: downloads still being built that are younger than thirty days. */
  function Pending(table: seq<Download>, now: int): (r: seq<Download>)
    ensures forall d :: d in r <==> d in table && Fresh(d, now) && d.status == Created
    decreases |table|
  {
    if |table| == 0 then []
    else
      assert forall d :: d in table <==> d == table[0] || d in table[1..];
      (if Fresh(table[0], now) && table[0].status == Created then [table[0]] else [])
        + Pending(table[1..], now)
  }

  /** `for_user_display`: every completed download, and the others while younger than thirty days. */
  function ForUserDisplay(table: seq<Download>, now: int): (r: seq<Download>)
    ensures forall d :: d in r <==> d in table && ((Fresh(d, now) && d.status != Completed) || d.status == Completed)
    decreases |table|
  {
    if |table| == 0 then []
    else
      var d := table[0];
      assert forall e :: e in table <==> e == d || e in table[1..];
      (if (Fresh(d, now) && d.status != Completed) || d.status == Completed then [d] else [])
        + ForUserDisplay(table[1..], now)
  }

  /** Every pending download is shown to its user, and a failed one disappears once it is thirty
      days old, while a completed one never does. */
  lemma DisplayCoversPending(table: seq<Download>, now: int)
    ensures forall d :: d in Pending(table, now) ==> d in ForUserDisplay(table, now)
    ensures forall d :: d in table && d.status == Completed ==> d in ForUserDisplay(table, now)
    ensures forall d :: d in table && d.status == Failed ==> (d in ForUserDisplay(table, now) <==> Fresh(d, now))
  {
  }

  /** A download marked failed is no longer pending and owns no file. */
  lemma FailedIsSettled(d: Download, message: string, backtrace: string, now: int)
    ensures var f := MarkAsFailed(d, message, backtrace, now);
      f !in Pending([f], now) && !DeletesFile(f)
  {
  }
}

=== FILE: wrappers.dfy ===
/** Failure-carrying values shared by every module of the model.

    `Option` stands for Ruby's `nil` and JavaScript's `undefined`; `Result` stands
    for a computation that either returns a value or raises. A raised exception is
    recorded by its message only. */
module Wrappers {

  datatype Option<+T> = None | Some(value: T) {

    /** The wrapped value, or `default` when there is none. */
    function GetOr(default: T): T {
      match this
      case Some(v) => v
      case None => default
    }
  }

  /** `Ok` is a normal return, `Raise` an exception with its message. */
  datatype Result<+T> = Ok(value: T) | Raise(message: string) {

    predicate IsFailure() {
      Raise?
    }

    function PropagateFailure<U>(): Result<U>
      requires Raise?
    {
      Raise(message)
    }

    function Extract(): T
      requires Ok?
    {
      value
    }
  }
}
